=== FILE: README.md ===
# HackURI GitHub sync core, modelled in Dafny

HackURI keeps a local project board in step with a GitHub repository. Its
parts are:

- A **workspace** is linked to one repository.
- **Features** stand for issues and pull requests.
- **Tasks** are the checklist lines (`- [ ] title` / `- [x] title`) in an
  issue or pull request body.

The Django API does the syncing:

- It renders tasks as a checklist when it creates an issue, and numbers the
  tasks by their position in that checklist.
- It merges a checklist back into a feature's tasks whenever GitHub reports
  an edit.
- It mirrors labels, milestones, pull requests, commits, reviews and comments
  from signed webhook deliveries.
- It asks a language model which open tasks a push completes.

Besides that there is:

- Slack's signed-request check;
- the workspace member list;
- the desktop client's summary badges.

The model covers these modules:

| module | file | models |
|---|---|---|
| `Types` | `types.dfy` | The entities and their value sets, from the migrations and the status/priority enums. |
| `Text` | `text.dfy` | Python's `strip`, `splitlines`, `'\n'.join`, `replace`, `find`/`rfind`. |
| `Checkboxes` | `checkboxes.dfy` | `parse_checkboxes_from_body` and `render_tasks_as_checkboxes` with their render order, the issue body, and the parse-of-render round trip. |
| `Reconcile` | `reconcile.dfy` | `sync_tasks_from_checkboxes`, as a function of the task table before the merge. |
| `EntityStore` | `store.dfy` | The store as a class `Store` whose tables are fields. Its methods merge a checklist (`SyncTasks`), create an issue and number its tasks, and register/unregister the repository webhook. HTTP answers are parameters. |
| `Hooks` | `hooks.dfy` | `verify_github_signature`, `_get_workspace`, `Model.objects.get` on non-key fields (which may find several rows), and `QuerySet.update` on features and tasks. |
| `Push`, `Mirror`, `Pulls`, `Issues`, `Webhook` | | The ten `handle_*` handlers and `github_webhook`. Each handler is a function from the store's contents to the new contents and the reply (`PushOutcome`, `PullOutcome`, ...). Beside it is a method on `Store` that updates the tables in place and is proved equal to that function. The lemmas are stated about the functions. |
| `Inference` | `inference.dfy` | The post-processing in `analyze_commits`: fence stripping, and keeping only open titles. The model call and `json.loads` are fields of an `Engine` parameter. |
| `Slack` | `slack.dfy` | `verify_slack_signature`, with the clock and the MAC as parameters, and the check order of `slack_events`. |
| `Membership` | `membership.dfy` | `get_queryset`, `perform_create`, `join`, `leave` of `WorkspaceViewSet`. |
| `Desktop` | `desktop.dfy` | `priorityColor`, `statusColor`, `featurePriority` (a loop, so a method) and `featureProgress`. |

Modelling choices:

- **Features and tasks are never deleted by this code.** They are sequences,
  and a row's position is its id and its creation order.
- **Mirror tables are maps keyed by their unique keys from the migrations.**
  Labels, milestones and pull requests use `(workspace, github_id)`. Commits
  use `sha`. Reviews use `(pull request, github_id)`. Comments use
  `(pull request, github_id, comment_type)`. Uniqueness therefore holds by
  construction.
- **Feature lookups may be ambiguous.** Features looked up by
  `(workspace, github_id)` or `(workspace, github_number, type)` have no
  unique constraint, so a lookup can find several rows. `get` then raises
  `MultipleObjectsReturned`, which no handler catches. The model returns the
  lookup result `Ambiguous`, and the handler replies `None` (a 500). Writes
  made before that point remain.

Behaviour worth noting:

- The reply for an untracked repository is `"no matching workspace"`, with
  spaces.
- Exceptions raised by the language model call are not caught
  (`api/HackAPI/services/gemini.py:26`).
- Nothing enforces one feature per `(workspace, github_id)`, so duplicates are
  modelled as above.
- `push` also skips inference when there are no commits at all.
- `issues` `opened` creates the feature only when none has the issue's id. A
  redelivery therefore does not sync again.
- `sync_tasks_from_checkboxes` reads `feature.tasks.all()`, whose order the
  code does not fix. The model reads the feature's tasks in table order, that
  is, in creation order (`Reconcile.BuildTables`).

## Model

| member | source | states |
|---|---|---|
| Text.StripSpec | api/HackAPI/services/github.py:36 | `strip()` leaves an infix of the line with no space at either end, and is empty exactly when the line is all white space |
| Text.SplitLinesNoBreak | api/HackAPI/services/github.py:35 | no line that `splitlines()` yields contains a line-break character |
| Text.SplitLinesOfJoin | api/HackAPI/services/github.py:23 | splitting a `'\n'.join` of non-empty, break-free lines gives the lines back |
| Text.FindChar | api/HackAPI/services/gemini.py:31 | the result is -1 exactly when the character is absent; otherwise it is the first position holding it |
| Text.FindLast | api/HackAPI/services/gemini.py:31 | the result is -1, or a position where the pattern occurs with no later occurrence |
| Checkboxes.ParseLineTitle | api/HackAPI/services/github.py:36-40 | a line that matches yields a title that is non-empty, stripped and free of line breaks |
| Checkboxes.ParseTitles | api/HackAPI/services/github.py:26-41 | every checkbox parsed from any body, or from none, has a well-formed title |
| Checkboxes.ParseLinesLength | api/HackAPI/services/github.py:35-40 | a body yields at most one checkbox per line |
| Checkboxes.ParseRenderLine | api/HackAPI/services/github.py:21-22 | a rendered line parses back as its task's title, ticked exactly when the task is done |
| Checkboxes.ParseRenderLines | api/HackAPI/services/github.py:19-23 | rendered lines are non-empty, break-free, and parse back line by line as the tasks' titles and done flags |
| Checkboxes.ParseOfRender | api/HackAPI/services/github.py:17-41 | round trip: parsing a rendered checklist gives each task's title and done flag, in order, when the titles are well formed |
| Checkboxes.CheckboxesOf | api/HackAPI/services/github.py:21 | the expected reading of a task list: one checkbox per task with its title, checked iff status is done |
| Checkboxes.FeatureTasks | api/HackAPI/services/github.py:50 | exactly the positions of the feature's tasks, increasing |
| Checkboxes.RenderBeforeTotal | api/HackAPI/services/github.py:20 | ordering by `(checkbox_index, created_at)`, with unset indices first, is total |
| Checkboxes.RenderBeforeAntisymmetric | api/HackAPI/services/github.py:20 | that ordering is antisymmetric |
| Checkboxes.RenderBeforeTransitive | api/HackAPI/services/github.py:20 | that ordering is transitive |
| Checkboxes.Insert | api/HackAPI/services/github.py:20 | insertion adds exactly one position (a multiset equality) |
| Checkboxes.InsertSorted | api/HackAPI/services/github.py:20 | inserting into a sorted list keeps it sorted |
| Checkboxes.SortForRender | api/HackAPI/services/github.py:20 | sorting is a permutation of the positions |
| Checkboxes.SortForRenderSorted | api/HackAPI/services/github.py:20 | sorting yields render order |
| Checkboxes.SortForRenderOfSorted | api/HackAPI/services/github.py:20 | sorting leaves a sorted list unchanged |
| Checkboxes.RenderOrderSpec | api/HackAPI/services/github.py:20 | render order lists each task of the feature once, sorted by `(checkbox_index, created_at)` |
| Checkboxes.RenderOrderOfSorted | api/HackAPI/services/github.py:20 | when creation order already is render order, render order is creation order |
| Checkboxes.ParseTextStrip | api/HackAPI/services/github.py:60 | stripping the body before sending changes no parsed checkbox |
| Checkboxes.ParseTextConcat | api/HackAPI/services/github.py:23 | a `'\n'` between two texts separates their parsed checkboxes (unless it would complete a `"\r\n"`) |
| Checkboxes.ParseTextParagraphs | api/HackAPI/services/github.py:52-55 | the blank line after a description separates the description's checkboxes from the checklist's |
| Checkboxes.ChecklistParse | api/HackAPI/services/github.py:54-55 | the checklist part of a body reads back as the feature's tasks in render order |
| Checkboxes.ParseSome | api/HackAPI/services/github.py:31-32 | the empty-body guard agrees with parsing: an empty body has no checkbox |
| Checkboxes.IssueBodyParse | api/HackAPI/services/github.py:50-60 | the body built for an issue parses as the description's checkboxes followed by the tasks' |
| Reconcile.BuildTables | api/HackAPI/services/github.py:263-266 | the two lookup tables name only existing tasks |
| Reconcile.ByIndexSpec | api/HackAPI/services/github.py:265 | the index table holds exactly the indices in use in the feature, each naming the last task using it |
| Reconcile.ByTitleSpec | api/HackAPI/services/github.py:266 | the title table holds exactly the titles of the feature's unindexed tasks, each naming the last such task |
| Reconcile.MatchRule | api/HackAPI/services/github.py:275 | position i matches the task holding index i if any, else the unindexed task with the title, else none |
| Reconcile.NewStatus | api/HackAPI/services/github.py:281-286 | a ticked box makes a task done, an unticked one makes it not done, and todo/in-progress are kept when unticked |
| Reconcile.Run | api/HackAPI/services/github.py:271-297 | the table grows exactly by the number created, and created + updated never exceeds the positions merged |
| Reconcile.Sync | api/HackAPI/services/github.py:256-299 | nothing is deleted; the tasks appended are exactly one per unmatched position, in position order, each with its title, index and derived status, and `created` is their number; `updated` is the number of positions whose matched task really changed |
| Reconcile.MatchedInFeature | api/HackAPI/services/github.py:263 | a matched task always belongs to the feature being synced |
| Reconcile.RunFrame | api/HackAPI/services/github.py:276-289 | existing tasks change at most their index and status; tasks of other features and unmatched tasks are untouched |
| Reconcile.RunCreated | api/HackAPI/services/github.py:290-297 | every appended task is the one created for an unmatched position, with that title, index and derived status |
| Reconcile.Unmatched | api/HackAPI/services/github.py:271-275 | exactly the positions for which neither table holds a task, in increasing order |
| Reconcile.RunAppends | api/HackAPI/services/github.py:271-297 | the merge appends one new task per unmatched position, in position order, with that position's title, index and status, and `created` counts exactly those positions |
| Reconcile.RunUpdates | api/HackAPI/services/github.py:276-289 | `updated` counts exactly the positions whose matched task's row really changed |
| Reconcile.LastMatchFinal | api/HackAPI/services/github.py:275-289 | whether matched by index or by title, a task ends with the index of the last position matched to it and is done exactly when that position's box is ticked |
| Reconcile.IndexMatchFinal | api/HackAPI/services/github.py:275-289 | a task matched by its index ends with that index and the status its box dictates |
| Reconcile.LookupOfIndexed | api/HackAPI/services/github.py:275 | a task holding index i is matched at position i and at no other |
| Reconcile.RunSettled | api/HackAPI/services/github.py:276-289 | merging a checklist the tasks already agree with writes nothing and counts nothing |
| Reconcile.SyncSettled | api/HackAPI/services/github.py:256-299 | `sync_tasks_from_checkboxes` on a settled checklist returns (0, 0) and changes no task |
| Reconcile.CreationOrderIsRenderOrder | api/HackAPI/services/github.py:20 | tasks numbered in creation order render in creation order |
| Reconcile.ResyncChecklist | api/HackAPI/services/github.py:17-41 | the checklist rendered from tasks numbered in creation order merges back without any change |
| Reconcile.ResyncIssueBody | api/HackAPI/services/github.py:50-60 | the same holds for a whole issue body whose description has no task line |
| Reconcile.RepeatedTitleSharesTask | api/HackAPI/services/github.py:266-289 | the title table is built once, so two boxes with one title both match the same unindexed task, and the later box wins |
| EntityStore.AsIssue | api/HackAPI/services/github.py:69-75 | after a 201 the feature is an open issue with GitHub's number and id, and keeps its workspace, name and description |
| EntityStore.Renumbered | api/HackAPI/services/github.py:78-80 | numbering keeps the table's length |
| EntityStore.RenumberedSpec | api/HackAPI/services/github.py:78-80 | the i-th listed task gets index i and every unlisted task is unchanged |
| EntityStore.IndexTasks | api/HackAPI/services/github.py:77-80 | numbering keeps the table's length |
| EntityStore.IndexTasksSpec | api/HackAPI/services/github.py:77-80 | the feature's tasks get 0, 1, ... in creation order; only indices change; other features' tasks are untouched |
| EntityStore.RenderIgnoresIndex | api/HackAPI/services/github.py:21-22 | rendering reads only titles and statuses |
| EntityStore.UnindexedRenderOrder | api/HackAPI/services/github.py:20 | tasks without an index render in creation order |
| EntityStore.IndexTasksOrdered | api/HackAPI/services/github.py:77-80 | numbering unindexed tasks keeps their render order, and the i-th of them gets index i |
| EntityStore.IssueBodyKeptByIndexing | api/HackAPI/services/github.py:50-80 | the body sent at creation already lists the tasks in the order of the indices then assigned |
| EntityStore.CreatedIssueEcho | api/HackAPI/services/github.py:44-82 | round trip: when GitHub echoes the body sent at creation, merging it into the freshly numbered tasks changes nothing |
| EntityStore.TitlesKeptByIndexing | api/HackAPI/services/github.py:77-80 | numbering keeps titles well formed |
| EntityStore.IssueBodyPatch | api/HackAPI/services/github.py:85-104 | nothing is sent exactly when the token is missing or the issue number is missing or zero |
| EntityStore.Unregistered | api/HackAPI/services/github.py:168-188 | the hook id is cleared exactly when one was stored, a token exists and GitHub answers 204 or 404; otherwise nothing changes |
| EntityStore.Registered | api/HackAPI/services/github.py:116-165 | with no token nothing happens; a 201 stores and returns GitHub's id; any other answer leaves the state after unregistering and returns None |
| EntityStore.OldHookForgotten | api/HackAPI/services/github.py:128-160 | a failed removal of the old hook leaves its id in place until the new registration overwrites it |
| EntityStore.Store.SyncTasks | api/HackAPI/services/github.py:256-299 | in place: the task table becomes the merged one, the counters are the merge's, and no other table changes |
| EntityStore.Store.CreateGithubIssue | api/HackAPI/services/github.py:44-82 | no request without a token; the request carries the name and the issue body; only a 201 changes the store (the feature becomes an issue and its tasks are numbered) |
| EntityStore.Store.NumberTasks | api/HackAPI/services/github.py:77-80 | the numbering loop leaves the task table equal to `IndexTasks` and changes nothing else |
| EntityStore.Store.UnregisterWebhook | api/HackAPI/services/github.py:168-188 | only the workspace's hook id changes, as `Unregistered` says |
| EntityStore.Store.RegisterWebhook | api/HackAPI/services/github.py:116-165 | only the workspace's hook id changes, as `Registered` says, and the returned id is the one stored |
| Hooks.VerifyGithubSignature | api/HackAPI/views/webhooks.py:19-29 | an empty header or secret fails, and acceptance means the header is `"sha256="` + digest of the body |
| Hooks.SignedDeliveryAccepted | api/HackAPI/views/webhooks.py:19-29 | a header GitHub computed with the shared secret is accepted |
| Hooks.TamperedDeliveryRejected | api/HackAPI/views/webhooks.py:24-29 | with an injective MAC, a signature of one body does not validate another |
| Hooks.Single | api/HackAPI/views/webhooks.py:37-40 | `get`: no row is Missing, one row is Found with that row, several are Ambiguous |
| Hooks.RepoWorkspaces | api/HackAPI/views/webhooks.py:38 | exactly the workspaces of the repository, in table order |
| Hooks.GetWorkspace | api/HackAPI/views/webhooks.py:32-40 | Missing iff no workspace has the repository; Found means the only one that has it |
| Hooks.Selected | api/HackAPI/views/webhooks.py:401-403 | exactly the features a filter selects |
| Hooks.GetFeature | api/HackAPI/views/webhooks.py:389-393 | Missing iff no feature matches; Found names the only matching feature; Ambiguous iff two or more match |
| Hooks.SetState | api/HackAPI/views/webhooks.py:400-414 | `filter().update(state=...)` changes the state of exactly the selected features |
| Hooks.OpenAt | api/HackAPI/views/webhooks.py:88-92 | exactly the positions of the workspace's tasks that are not done, in table order |
| Hooks.OpenTitles | api/HackAPI/views/webhooks.py:88-92 | the titles of exactly the workspace's tasks that are not done, one per task, in table order |
| Hooks.OpenTitlesEmpty | api/HackAPI/views/webhooks.py:88-95 | the open-title list is empty exactly when no task of the workspace is left to do |
| Hooks.CompleteTitle | api/HackAPI/views/webhooks.py:102-108 | exactly the workspace's todo/in-progress tasks with the title become done with the sha; the rest is unchanged |
| Hooks.CountCompletable | api/HackAPI/views/webhooks.py:102-109 | the update count is 0 exactly when no task is completable |
| Hooks.Prefix | api/HackAPI/views/webhooks.py:100 | Python's `s[:n]`: the first `min(n, len(s))` characters |
| Push.Branch | api/HackAPI/views/webhooks.py:58 | removing the prefix never lengthens the ref |
| Push.BranchOfHead | api/HackAPI/views/webhooks.py:58 | `refs/heads/<name>` gives `<name>` for every name that does not itself contain `refs/heads/` |
| Push.BranchOfMaster | api/HackAPI/views/webhooks.py:58 | `refs/heads/master` gives `master` |
| Push.Messages | api/HackAPI/views/webhooks.py:57 | one message per commit, in order, id-less commits included |
| Push.StoreCommits | api/HackAPI/views/webhooks.py:60-83 | the count never exceeds the number of commits |
| Push.StoreCommitsKeys | api/HackAPI/views/webhooks.py:60-81 | stored commits are never rewritten, and afterwards every non-empty pushed sha is stored |
| Push.StoreCommitsCount | api/HackAPI/views/webhooks.py:60-83 | `commits_stored` is the number of rows created |
| Push.StoreCommitsRows | api/HackAPI/views/webhooks.py:66-81 | a created row holds the first pushed commit with that sha, the workspace and the branch |
| Push.StoreCommitsKnown | api/HackAPI/views/webhooks.py:60-83 | commits whose shas are all stored create nothing |
| Push.CompleteAllTasks | api/HackAPI/views/webhooks.py:99-110 | exactly the open workspace tasks whose title is listed become done with the sha |
| Push.CompleteNext | api/HackAPI/views/webhooks.py:101-110 | the update for a title changes a row iff the title had an open task and was not already processed |
| Push.CompleteAllMarked | api/HackAPI/views/webhooks.py:99-112 | `completed_tasks` holds the listed titles that had an open task, each once |
| Push.PushOutcome | api/HackAPI/views/webhooks.py:55-112 | only commits and tasks change, and `commits_stored` is the commit mirroring's count |
| Push.PushCompletesOpenTasks | api/HackAPI/views/webhooks.py:97-110 | every task a push changes was open in the workspace and becomes done with the first commit's 12-character sha |
| Push.PushWithoutKey | api/HackAPI/services/gemini.py:11-12 | without an API key a push completes nothing and reports no title |
| Push.PushCompletion | api/HackAPI/views/webhooks.py:85-112 | with commits and open tasks, exactly the open tasks named by inference become done, and the reply lists those titles once each |
| Push.PushRedelivery | api/HackAPI/views/webhooks.py:60-83 | redelivering a push stores 0 commits and leaves the commits table as it was |
| Push.HandlePush | api/HackAPI/views/webhooks.py:55-112 | in place: the new store and the reply are those of `PushOutcome` |
| Push.MirrorCommits | api/HackAPI/views/webhooks.py:60-83 | the commit loop leaves the commits table and count of `StoreCommits`, and nothing else changes |
| Push.CompleteTitles | api/HackAPI/views/webhooks.py:99-112 | the title loop leaves the tasks and marked list of `CompleteAll`, and nothing else changes |
| Mirror.MilestoneEventRow | api/HackAPI/views/webhooks.py:454-465 | the milestone event stores a non-null description and otherwise the same row as the pull request path |
| Mirror.UpsertLabelsKeys | api/HackAPI/views/webhooks.py:124-135 | after the label loop every listed label is stored and no other key appears |
| Mirror.UpsertLabelsRows | api/HackAPI/views/webhooks.py:124-135 | an unlisted label keeps its row; a repeated label ends as its last occurrence |
| Mirror.LabelIds | api/HackAPI/views/webhooks.py:135 | `label_ids` lists the payload's label ids in order |
| Mirror.GetOrCreateMilestone | api/HackAPI/views/webhooks.py:138-152 | a new milestone is stored; a known one is left exactly as it was |
| Mirror.LabelOutcome | api/HackAPI/views/webhooks.py:427-444 | `deleted` removes the `(workspace, id)` row; any other action upserts it; no other label or table changes |
| Mirror.LabelEventIdempotent | api/HackAPI/views/webhooks.py:427-444 | delivering the same label event twice is the same as delivering it once |
| Mirror.LabelRecreated | api/HackAPI/views/webhooks.py:431-442 | a label deleted and then created again holds the new row |
| Mirror.MilestoneOutcome | api/HackAPI/views/webhooks.py:447-467 | `deleted` removes the milestone and, when it was stored, clears the milestone of exactly the workspace's pull requests that linked it (`on_delete=SET_NULL`); any other action upserts it; no other table changes |
| Mirror.MilestoneDeletionUnlinks | api/HackAPI/migrations/0005_pullrequest_commit_prreview_prcomment.py:45 | after a deletion no pull request of the workspace links the milestone, and re-creating it links none again |
| Mirror.MilestoneDescriptionPaths | api/HackAPI/views/webhooks.py:141-152 | a milestone first seen on a pull request keeps a null description, while the milestone event stores `''` |
| Mirror.SyncLabels | api/HackAPI/views/webhooks.py:123-135 | in place: the labels table becomes the upserted one and the ids are returned in order |
| Mirror.HandleLabel | api/HackAPI/views/webhooks.py:427-444 | in place: equal to `LabelOutcome` |
| Mirror.HandleMilestone | api/HackAPI/views/webhooks.py:447-467 | in place: equal to `MilestoneOutcome` |
| Pulls.FeatureStateOf | api/HackAPI/views/webhooks.py:189 | the feature is closed iff the pull request state is closed or merged |
| Pulls.MirrorPull | api/HackAPI/views/webhooks.py:123-185 | labels upserted, milestone got-or-created, the pull request row written, and nothing else changes |
| Pulls.MergedCompletion | api/HackAPI/views/webhooks.py:222-237 | only tasks change; when the workspace has an open task, exactly the open tasks whose title the inference step names become done with the head sha's first 12 characters, and every other task is kept |
| Pulls.PullFeatures | api/HackAPI/views/webhooks.py:187-240 | the feature step changes only features and tasks |
| Pulls.PullOutcome | api/HackAPI/views/webhooks.py:115-242 | workspaces, commits, reviews and comments are untouched; the reply is the pull request's number, action and state |
| Pulls.PullAlwaysMirrored | api/HackAPI/views/webhooks.py:123-185 | whatever the action, even when the handler then fails, the pull request, labels and milestone are mirrored |
| Pulls.PullFailsOnDuplicates | api/HackAPI/views/webhooks.py:191-217 | the handler fails exactly when `opened` or `edited` finds several features with the id |
| Pulls.PullOpenedCreatesFeature | api/HackAPI/views/webhooks.py:191-206 | an opened pull request with no feature gets one, in its state, and its checklist becomes that feature's tasks |
| Pulls.PullOpenedExisting | api/HackAPI/views/webhooks.py:191-206 | a redelivered "opened" leaves the feature as it is and merges the body's checklist into its tasks again |
| Pulls.PullEdited | api/HackAPI/views/webhooks.py:208-217 | an edit renames the feature (keeping its name when there is no title), makes the body its description and always merges the body's checklist; with no feature only the mirroring happens; several features fail |
| Pulls.PullClosed | api/HackAPI/views/webhooks.py:219-237 | closing closes exactly the features with the id; without a merge no task changes; with one, exactly the open tasks whose title the inference step names (given the open titles before the delivery) become done with the head sha's first 12 characters |
| Pulls.PullOtherAction | api/HackAPI/views/webhooks.py:187-242 | any action other than opened, edited, closed and reopened only mirrors the pull request; features and tasks are unchanged |
| Pulls.PullReopened | api/HackAPI/views/webhooks.py:239-240 | reopening reopens the features with the id and changes no task |
| Pulls.Lower | api/HackAPI/views/webhooks.py:260 | ASCII lower-casing, character by character |
| Pulls.ReviewStateOf | api/HackAPI/views/webhooks.py:254-260 | a state other than pending is the one whose name is the lower-cased input |
| Pulls.LowerOfSameLetters | api/HackAPI/views/webhooks.py:260 | lower-casing a lower-case word written in any case gives the word back |
| Pulls.ReviewStateAnyCase | api/HackAPI/views/webhooks.py:254-260 | each review state's name, in any letter case, maps back to that state |
| Pulls.ReviewOutcome | api/HackAPI/views/webhooks.py:245-276 | an unknown pull request gives `pr_not_found` and no change; otherwise only the review under its key changes, with the mapped state and the body (`''` when null), and the reply is exactly the review id and the state |
| Pulls.ReviewIdempotent | api/HackAPI/views/webhooks.py:262-274 | a redelivered review changes nothing more |
| Pulls.LinkedReview | api/HackAPI/views/webhooks.py:297-301 | a comment links a review iff it names a non-zero id of a stored review of the same pull request |
| Pulls.ReviewCommentOutcome | api/HackAPI/views/webhooks.py:279-322 | an unknown pull request gives `pr_not_found`; otherwise only the comment under `(pr, id, review)` can change: `deleted` removes it, any other action stores the payload's body with the linked review, and the reply names the comment and the action |
| Pulls.ReviewCommentKinds | api/HackAPI/views/webhooks.py:289-320 | a review-comment event never touches the issue comment with the same id, and links only a stored review |
| Pulls.IssueCommentOutcome | api/HackAPI/views/webhooks.py:325-361 | a comment on a plain issue is `ignored_issue_comment`; no pull request with the number gives `pr_not_found` with no write; the handler fails iff several share the number; with one, `deleted` removes exactly its issue-comment key and replies `deleted`, and any other action upserts that key (body and cosmetic fields from the payload, the review link kept) and replies with the comment id and action |
| Pulls.IssueCommentStored | api/HackAPI/views/webhooks.py:347-359 | a comment on the one pull request with that number is stored as an issue comment, keeping any review link |
| Pulls.HandlePullRequest | api/HackAPI/views/webhooks.py:115-242 | in place: equal to `PullOutcome` |
| Pulls.UpdatePullFeatures | api/HackAPI/views/webhooks.py:187-240 | in place: equal to `PullFeatures` |
| Pulls.HandleReview | api/HackAPI/views/webhooks.py:245-276 | in place: equal to `ReviewOutcome` |
| Pulls.HandleReviewComment | api/HackAPI/views/webhooks.py:279-322 | in place: equal to `ReviewCommentOutcome` |
| Pulls.HandleIssueComment | api/HackAPI/views/webhooks.py:325-361 | in place: equal to `IssueCommentOutcome` |
| Issues.FinishIssueTasks | api/HackAPI/views/webhooks.py:405-409 | exactly the unfinished tasks of the closed issue's features become done; `completed_by_commit` is untouched |
| Issues.IssuesOutcome | api/HackAPI/views/webhooks.py:364-416 | only features and tasks change, and the reply is the issue reply, possibly with `feature_not_found` |
| Issues.IssuesFailOnDuplicates | api/HackAPI/views/webhooks.py:370-393 | the handler fails exactly when `opened` meets several features with the id or `edited` several issue features with the number |
| Issues.IssueOpenedFound | api/HackAPI/views/webhooks.py:370-387 | an `opened` for an issue whose id a feature already has changes nothing and replies as usual |
| Issues.IssuesOtherAction | api/HackAPI/views/webhooks.py:364-416 | any action other than opened, edited, closed and reopened changes nothing and replies with the number and action |
| Issues.IssueOpenedOnce | api/HackAPI/views/webhooks.py:370-387 | a redelivered `opened` finds the feature it created and changes nothing |
| Issues.IssueOpenedCreatesFeature | api/HackAPI/views/webhooks.py:370-387 | an opened issue with no feature gets a new open issue feature, last in the table, and its checklist becomes that feature's tasks |
| Issues.IssueEditedFound | api/HackAPI/views/webhooks.py:389-398 | an edit of a tracked issue renames its feature (keeping the name when there is no title), makes the body its description and always merges the body's checklist |
| Issues.IssueClosed | api/HackAPI/views/webhooks.py:400-409 | closing closes the issue's features and finishes their unfinished tasks; nothing else changes |
| Issues.IssueReopenedKeepsTasks | api/HackAPI/views/webhooks.py:411-414 | reopening only reopens the features; finished tasks stay finished |
| Issues.IssueEditedUnknown | api/HackAPI/views/webhooks.py:389-393 | an edit of an untracked issue changes nothing and replies `feature_not_found` |
| Issues.HandleIssues | api/HackAPI/views/webhooks.py:364-416 | in place: equal to `IssuesOutcome` |
| Webhook.EventName | api/HackAPI/views/webhooks.py:486-497 | every payload shape belongs to one of the ten routed events |
| Webhook.RegisteredEventsRouted | api/HackAPI/services/github.py:136-147 | the hook subscribes to exactly the events the dispatcher has a handler for |
| Webhook.Handle | api/HackAPI/views/webhooks.py:486-503 | no handler changes the workspaces; `create` and `delete` change nothing |
| Webhook.Processed | api/HackAPI/views/webhooks.py:504 | the reply has the handler's keys plus `status`; the handler's own values win, and `status` is `processed` otherwise |
| Webhook.WebhookOutcome | api/HackAPI/views/webhooks.py:474-504 | status is 200, 403 or 500; 403 iff the signature is invalid; 500 iff the signature is valid and either several workspaces match or the routed handler fails; workspaces never change |
| Webhook.WebhookRouted | api/HackAPI/views/webhooks.py:482-504 | a signed delivery for a tracked repository with a handler gets exactly the handler's store and, unless it fails, a 200 reply of the handler's keys plus `status` |
| Webhook.UnsignedRefused | api/HackAPI/views/webhooks.py:476-477 | an unsigned or wrongly signed delivery gets 403 `Invalid signature` and changes nothing |
| Webhook.NothingToDo | api/HackAPI/views/webhooks.py:482-501 | an untracked repository gets 200 "no matching workspace", an unhandled event on a tracked one 200 "ignored"; neither changes anything |
| Webhook.ReviewOfUnknownPull | api/HackAPI/views/webhooks.py:245-252 | a review of an unknown pull request is answered `pr_not_found` (not `processed`) and changes nothing |
| Webhook.SharedRepositoryFails | api/HackAPI/views/webhooks.py:37-40 | two workspaces on one repository make every signed delivery for it a 500, with no write |
| Webhook.GithubWebhook | api/HackAPI/views/webhooks.py:474-504 | in place: the new store and the reply are those of `WebhookOutcome` |
| Webhook.Dispatch | api/HackAPI/views/webhooks.py:486-503 | in place: equal to `Handle` |
| Inference.AfterFirstNewline | api/HackAPI/services/gemini.py:31 | the text after the first `'\n'`, or all of it when there is none |
| Inference.BeforeLastFence | api/HackAPI/services/gemini.py:31 | the text before the last fence, or all of it when there is none |
| Inference.KeepKnown | api/HackAPI/services/gemini.py:36 | every kept element is an open title the reply listed, and the result is no longer than the reply |
| Inference.AnalyzeCommits | api/HackAPI/services/gemini.py:6-40 | every returned title is open; without an API key, or when the unwrapped reply does not decode to a JSON array, the result is empty; when it decodes to an array, the result is exactly the open titles that array lists as strings, in its order |
| Inference.KeepKnownMembers | api/HackAPI/services/gemini.py:36 | a title is kept iff it is open and listed as a string |
| Inference.KeepKnownConcat | api/HackAPI/services/gemini.py:36 | filtering preserves order: filtering a concatenation filters each part |
| Inference.KeepKnownAllOpen | api/HackAPI/services/gemini.py:33-36 | an array of open titles is kept as it stands, repeats included |
| Inference.Strings | api/HackAPI/services/gemini.py:34-35 | a list of titles as the JSON array of those strings |
| Inference.FencedReply | api/HackAPI/services/gemini.py:27-31 | a fenced reply unwraps to its stripped body |
| Inference.FencedArrayBelieved | api/HackAPI/services/gemini.py:26-36 | a fenced JSON array of open titles, as the prompt asks for, is returned in full |
| Slack.Digits | api/HackAPI/views/slack_events.py:24 | a number's decimal digits are non-empty and all digits |
| Slack.DigitsValueOfDigits | api/HackAPI/views/slack_events.py:24 | reading back the digits of a number gives the number |
| Slack.IntValueOfDecimal | api/HackAPI/views/slack_events.py:24 | `int(str(n)) == n` |
| Slack.VerifySlackSignature | api/HackAPI/views/slack_events.py:11-34 | missing secret, timestamp or signature fails; success iff within 300 s and the signature matches; None iff `int` raises or the value is too large to become a float (magnitude at least 2^1024 - 2^970) |
| Slack.OverflowingTimestampFails | api/HackAPI/views/slack_events.py:24 | a timestamp too large for a float makes the check raise, and the endpoint answers 500 |
| Slack.SignedAccepted | api/HackAPI/views/slack_events.py:11-34 | a request Slack signed, within five minutes, is accepted |
| Slack.WindowEdgeAccepted | api/HackAPI/views/slack_events.py:23-25 | a request exactly 300 seconds old is accepted |
| Slack.StaleRejected | api/HackAPI/views/slack_events.py:23-25 | a request more than 300 seconds off is rejected |
| Slack.BodyOfBaseString | api/HackAPI/views/slack_events.py:27 | under one timestamp the signed string determines the body |
| Slack.TimestampOfBaseString | api/HackAPI/views/slack_events.py:27 | for one body the signed string determines the timestamp |
| Slack.TamperedRejected | api/HackAPI/views/slack_events.py:27-34 | with an injective MAC, a signature does not cover another body or timestamp |
| Slack.SlackEvents | api/HackAPI/views/slack_events.py:39-56 | url_verification is answered with the challenge before any check; a bad signature gets 403; an unreadable or overflowing timestamp gives 500; a valid signature gives 200 `ok` when `event` is absent or an object; 200 means a valid signature and `ok` |
| Membership.Appended | api/HackAPI/views/workspaces.py:23-24 | the user is listed afterwards, nobody else is added, and the old list is a prefix |
| Membership.FirstIndex | api/HackAPI/views/workspaces.py:31-32 | the first position of the user, or the length when absent |
| Membership.AppendedDistinct | api/HackAPI/views/workspaces.py:23-24 | the guarded append never introduces a duplicate |
| Membership.AppendedIdempotent | api/HackAPI/views/workspaces.py:20-26 | joining twice is joining once |
| Membership.RemoveFirstSpec | api/HackAPI/views/workspaces.py:31-32 | remove deletes one occurrence of a listed user and keeps everyone else in order; an unlisted user changes nothing |
| Membership.RemoveFirstDistinct | api/HackAPI/views/workspaces.py:31-32 | in a list without repeats the user is gone after leaving |
| Membership.RemoveFirstOfAppended | api/HackAPI/views/workspaces.py:20-34 | on the member list, leaving undoes joining for a new member |
| Membership.Visible | api/HackAPI/views/workspaces.py:12-13 | exactly the workspaces whose member list holds the user, in table order |
| Membership.GetObject | api/HackAPI/views/workspaces.py:12-13 | `get_object` finds a workspace iff it is visible to the user |
| Membership.Created | api/HackAPI/views/workspaces.py:15-18 | a new workspace is appended with the creator as its only member |
| Membership.CreatorSeesCreated | api/HackAPI/views/workspaces.py:12-18 | the creator sees the workspace they created |
| Membership.JoinAsWrittenNeverAdds | api/HackAPI/views/workspaces.py:20-26 | as written, `join` never changes a member list, and answers 200 only to users already members |
| Membership.JoinAsWrittenLocksOut | api/HackAPI/views/workspaces.py:20-26 | a concrete non-member asking to join is refused with a 404 |
| Membership.Joined | api/HackAPI/views/workspaces.py:20-26 | corrected `join`: the user is a member of that workspace and sees it; no other workspace changes |
| Membership.FindById | api/HackAPI/views/workspaces.py:22 | lookup by id alone finds exactly the existing ids |
| Membership.JoinedIsJoinBody | api/HackAPI/views/workspaces.py:20-26 | the corrected `join` is the written body run on the unfiltered lookup |
| Membership.JoinedIdempotent | api/HackAPI/views/workspaces.py:20-26 | joining twice is joining once |
| Membership.LeftFrame | api/HackAPI/views/workspaces.py:28-34 | leaving only touches the member list of the workspace left |
| Membership.LeaveUndoesJoin | api/HackAPI/views/workspaces.py:20-34 | leaving right after joining restores the workspaces |
| Membership.CreateWorkspace | api/HackAPI/views/workspaces.py:15-18 | in place: the workspace table becomes `Created`, and the id is the new position |
| Membership.Join | api/HackAPI/views/workspaces.py:20-26 | in place: the corrected `join`; it answers `joined`, or 404 for an unknown id |
| Membership.Leave | api/HackAPI/views/workspaces.py:28-34 | in place: equal to `Left`; nothing but workspaces changes |
| Desktop.PriorityColor | desktop/src/renderer/src/components/main/types.ts:23-34 | grey exactly for strings that are not a known priority |
| Desktop.PriorityColorInjective | desktop/src/renderer/src/components/main/types.ts:23-34 | the three priorities get distinct colours |
| Desktop.StatusColor | desktop/src/renderer/src/components/main/types.ts:36-51 | grey exactly for unknown statuses, including the backend's `in_progress` |
| Desktop.StatusColorInjective | desktop/src/renderer/src/components/main/types.ts:36-51 | the five statuses get distinct colours |
| Desktop.Rank | desktop/src/renderer/src/components/main/types.ts:54-57 | ranks are at most 3, and 0 exactly for unknown priorities |
| Desktop.MaxRankSpec | desktop/src/renderer/src/components/main/types.ts:55-59 | the final `highest` bounds every task's rank and is 0 or some task's rank |
| Desktop.FeaturePriority | desktop/src/renderer/src/components/main/types.ts:53-64 | high iff some task is high; medium iff none is high and one is medium; low likewise; none iff no known priority |
| Desktop.FeatureProgress | desktop/src/renderer/src/components/main/types.ts:66-70 | `total` is the number of tasks and `done` the number of finished ones |
| Desktop.ProgressBounds | desktop/src/renderer/src/components/main/types.ts:66-70 | `0 <= done <= total`; done equals total iff every task is in review or done, and 0 iff none is |

## Left out

- HTTP to GitHub and the Gemini SDK are not modelled. Each response is reduced to the fields the code reads, and these are passed in. `fetch_repo_summary` (`api/HackAPI/services/github.py:197-253`) is only network calls and base64 decoding.
- HMAC-SHA256, hex digests and `hmac.compare_digest` are not modelled. The MAC is a function parameter, and the comparison is plain equality.
- `json.loads` is not modelled. It is a field of the `Engine` parameter, returning None where it raises.
- Exceptions raised by the model call itself are not modelled. They propagate in the code.
- `_parse_dt` ISO-8601 parsing is not modelled. Parsed timestamps are opaque values inside the cosmetic `Extra` field.
- Cosmetic payload fields are collapsed into one opaque `Extra` value: avatars, URLs, diff hunks, file lists, reviewer logins, counts, dates.
- Task `description` and `assigned_to` are not modelled, because no core function reads them.
- Concurrency and the atomicity of `get_or_create` and `update_or_create` are not modelled. Each upsert is one sequential step.
- Malformed payloads are not modelled, including raw indexing such as `label['id']` that raises `KeyError`. Payloads are well-formed typed records. `Webhook.Fits` requires the payload to have the shape of its event.
- A missing `title` key and a null `title` are not distinguished. `title` is None in both cases.
- A null payload id is not modelled: ids are integers.
- The Slack clock is a `real` parameter. Slack's `request.body.decode()` failing on invalid UTF-8 is not modelled; the body is text.
- Slack.VerifySlackSignature: compares the exact timestamp value with the clock reading. Python first rounds the value to a double, which differs from it only above 2^53 in magnitude, far outside the window around any real clock reading.
- Slack.IntValue: accepts ASCII digits only. Python's `int` also accepts underscores between digits and non-ASCII decimal digits.
- Pulls.Lower: lower-cases ASCII letters only. Python's `str.lower` is Unicode-wide, but every key of the review state table is ASCII.
- Reconcile.Run: its own ensures gives only the growth and count bounds, to keep its callers cheap. Which tasks it appends, what `updated` counts and how existing tasks end are stated by RunAppends, RunUpdates, RunFrame and LastMatchFinal.
- Pulls.PullOutcome: its own ensures gives only the frame and the reply. What each action does to features and tasks is stated by PullOpenedCreatesFeature, PullOpenedExisting, PullEdited, PullClosed, PullReopened, PullOtherAction and PullFailsOnDuplicates.
- Issues.IssuesOutcome: its own ensures gives only the frame and the reply. What each action does is stated by IssueOpenedCreatesFeature, IssueOpenedFound, IssueOpenedOnce, IssueEditedFound, IssueEditedUnknown, IssueClosed, IssueReopenedKeepsTasks and IssuesFailOnDuplicates.
- Reconcile.ResyncIssueBody: assumes the description does not end in `'\r'` and holds no task line. Otherwise the description's own checkboxes come first and shift every position.
- Desktop.Rank: does not model keys inherited from `Object.prototype` (such as `"toString"`). They yield a non-number that never compares greater, which has the same effect as rank 0.
- Ties in `created_at` are not modelled. Creation order is table order.
- Outbound Slack notifications, OAuth, the desktop main process, data encryption, settings and URL wiring are not modelled. They are I/O or configuration outside this core.
- `models.py` is not part of this model except for the task status and priority values. It no longer matches the migrations.
- `views/tasks.py` is not part of this model. It is plain CRUD and refers to a view set that does not exist.

## Findings

| source | as written | input that shows it | evidently intended | confidence | as-written member | corrected member |
|---|---|---|---|---|---|---|
| api/HackAPI/views/workspaces.py:20-26 | `join` looks the workspace up with `get_object`, which only searches `get_queryset`, the workspaces the user is already a member of. A non-member therefore gets a 404, and the append under `if user not in members` can never run. | workspace 0 with members `[1]`; user 2 posts to join workspace 0 | look the workspace up by id alone, then append the user if absent | high (not executed) | Membership.JoinAsWrittenLocksOut | Membership.Joined |

=== FILE: checkboxes.dfy ===
/**
 * The checkbox wire format between a Feature's tasks and the body of its
 * GitHub issue or pull request: one markdown task line per task.
 */
module Checkboxes {
  import opened Types
  import opened Text

  /** One parsed task line: its title and whether its box is ticked. */
  datatype Checkbox = Checkbox(title: string, checked: bool)

  /**
   * A title that survives the wire format: non-empty, no space at either end
   * (parsing strips titles) and no line break (rendering is one line per task).
   */
  predicate WellFormedTitle(t: string) {
    t != [] && !IsSpace(t[0]) && !IsSpace(t[|t| - 1]) && NoLineBreak(t)
  }

  // ---------------------------------------------------------------- parsing

  /**
   * The pattern `^- \[([ xX])\] (.+)$` on a line that holds no line break:
   * the group `(.+)` is everything after the six-character prefix and must
   * not be empty; its stripped text is the title.
   */
  function MatchLine(line: string): Option<Checkbox> {
    if |line| >= 7 && line[0] == '-' && line[1] == ' ' && line[2] == '['
       && (line[3] == ' ' || line[3] == 'x' || line[3] == 'X') && line[4] == ']' && line[5] == ' '
    then Some(Checkbox(Strip(line[6..]), line[3] != ' '))
    else None
  }

  /** One line of a body: it is stripped before the pattern is tried. */
  function ParseLine(line: string): Option<Checkbox> {
    MatchLine(Strip(line))
  }

  /** The checkboxes one line contributes: none or one. */
  function ParseLineSeq(line: string): seq<Checkbox> {
    match ParseLine(line)
    case Some(b) => [b]
    case None => []
  }

  function ParseLines(lines: seq<string>): seq<Checkbox> {
    if lines == [] then [] else ParseLineSeq(lines[0]) + ParseLines(lines[1..])
  }

  /** Lines of `s`, parsed: `Parse` without its guard for an empty body. */
  function ParseText(s: string): seq<Checkbox> {
    ParseLines(SplitLines(s))
  }

  /**
   * `parse_checkboxes_from_body`: an absent or empty body gives no checkbox;
   * otherwise one checkbox per matching line, in line order.
   */
  function Parse(body: Option<string>): seq<Checkbox> {
    if body.None? || body.value == "" then [] else ParseText(body.value)
  }

  lemma {:induction false} InfixKeepsNoLineBreak(s: string, r: string)
    requires NoLineBreak(s)
    requires exists i :: OccursAt(s, r, i)
    ensures NoLineBreak(r)
  {
    var i :| OccursAt(s, r, i);
    forall k | 0 <= k < |r| ensures !IsLineBreak(r[k]) {
      assert r[k] == s[i + k];
    }
  }

  /** Every title a line of a body yields is well formed. */
  lemma {:induction false} ParseLineTitle(line: string)
    requires NoLineBreak(line)
    ensures ParseLine(line).Some? ==> WellFormedTitle(ParseLine(line).value.title)
  {
    var s := Strip(line);
    if MatchLine(s).Some? {
      var t := s[6..];
      StripSpec(line);
      InfixKeepsNoLineBreak(line, s);
      assert t[|t| - 1] == s[|s| - 1];
      assert OccursAt(s, t, 6);
      InfixKeepsNoLineBreak(s, t);
      StripOfUnblank(t);
    }
  }

  /** A text without line breaks that ends in a non-space strips to a well-formed title. */
  lemma {:induction false} StripOfUnblank(t: string)
    requires t != [] && !IsSpace(t[|t| - 1]) && NoLineBreak(t)
    ensures WellFormedTitle(Strip(t))
  {
    StripSpec(t);
    InfixKeepsNoLineBreak(t, Strip(t));
  }

  lemma {:induction false} ParseLinesTitles(lines: seq<string>)
    requires forall i :: 0 <= i < |lines| ==> NoLineBreak(lines[i])
    ensures forall i :: 0 <= i < |ParseLines(lines)| ==> WellFormedTitle(ParseLines(lines)[i].title)
  {
    if lines != [] {
      ParseLinesTitles(lines[1..]);
      ParseLineTitle(lines[0]);
    }
  }

  /** Whatever body GitHub sends, every checkbox parsed from it has a well-formed title. */
  lemma {:induction false} ParseTitles(body: Option<string>)
    ensures forall i :: 0 <= i < |Parse(body)| ==> WellFormedTitle(Parse(body)[i].title)
  {
    if body.Some? && body.value != "" {
      SplitLinesNoBreak(body.value);
      ParseLinesTitles(SplitLines(body.value));
    }
  }

  /** A body has no more checkboxes than lines. */
  lemma {:induction false} ParseLinesLength(lines: seq<string>)
    ensures |ParseLines(lines)| <= |lines|
  {
    if lines != [] {
      ParseLinesLength(lines[1..]);
    }
  }

  // -------------------------------------------------------------- rendering

  /** The box of a task: ticked exactly when the task is done. */
  function Mark(t: Task): char {
    if t.status == Done then 'x' else ' '
  }

  function RenderLine(t: Task): string {
    "- [" + [Mark(t)] + "] " + t.title
  }

  function RenderLines(ts: seq<Task>): (r: seq<string>)
    ensures |r| == |ts|
  {
    if ts == [] then [] else [RenderLine(ts[0])] + RenderLines(ts[1..])
  }

  /** `render_tasks_as_checkboxes` on tasks already in render order. */
  function Render(ts: seq<Task>): string {
    JoinLines(RenderLines(ts))
  }

  /** What a list of tasks should read back as: its titles and whether each is done. */
  function CheckboxesOf(ts: seq<Task>): (r: seq<Checkbox>)
    ensures |r| == |ts|
    ensures forall i :: 0 <= i < |ts| ==> r[i] == Checkbox(ts[i].title, ts[i].status == Done)
  {
    if ts == [] then [] else [Checkbox(ts[0].title, ts[0].status == Done)] + CheckboxesOf(ts[1..])
  }

  predicate TitlesWellFormed(ts: seq<Task>) {
    forall i :: 0 <= i < |ts| ==> WellFormedTitle(ts[i].title)
  }

  lemma {:induction false} ParseRenderLine(t: Task)
    requires WellFormedTitle(t.title)
    ensures NoLineBreak(RenderLine(t)) && RenderLine(t) != []
    ensures ParseLine(RenderLine(t)) == Some(Checkbox(t.title, t.status == Done))
  {
    var l := RenderLine(t);
    assert l == ['-', ' ', '[', Mark(t), ']', ' '] + t.title;
    assert l[6..] == t.title;
    assert l[|l| - 1] == t.title[|t.title| - 1];
    StripTrimmed(l);
    StripTrimmed(t.title);
    forall k | 0 <= k < |l| ensures !IsLineBreak(l[k]) {
      if k >= 6 { assert l[k] == t.title[k - 6]; }
    }
  }

  lemma {:induction false} ParseRenderLines(ts: seq<Task>)
    requires TitlesWellFormed(ts)
    ensures forall i :: 0 <= i < |ts| ==> RenderLines(ts)[i] != [] && NoLineBreak(RenderLines(ts)[i])
    ensures ParseLines(RenderLines(ts)) == CheckboxesOf(ts)
  {
    if ts != [] {
      ParseRenderLine(ts[0]);
      ParseRenderLines(ts[1..]);
      var ls := RenderLines(ts);
      assert ls[1..] == RenderLines(ts[1..]);
      assert forall i :: 1 <= i < |ts| ==> ls[i] == RenderLines(ts[1..])[i - 1];
      assert CheckboxesOf(ts) == [Checkbox(ts[0].title, ts[0].status == Done)] + CheckboxesOf(ts[1..]);
    }
  }

  /**
   * Round trip of the wire format: parsing what was rendered gives back, in
   * render order, each task's title and whether it is done.
   */
  lemma {:induction false} ParseOfRender(ts: seq<Task>)
    requires TitlesWellFormed(ts)
    ensures Parse(Some(Render(ts))) == CheckboxesOf(ts)
  {
    ParseRenderLines(ts);
    SplitLinesOfJoin(RenderLines(ts));
    if ts != [] {
      ParseRenderLine(ts[0]);
      assert Render(ts) != "" by {
        if |ts| == 1 {
          assert Render(ts) == RenderLine(ts[0]);
        } else {
          assert Render(ts) == RenderLine(ts[0]) + "\n" + Render(ts[1..]);
        }
      }
    }
  }

  // ------------------------------------------------------------ render order

  /** Positions of the tasks of feature `f`, in creation order. */
  function FeatureTasks(ts: seq<Task>, f: FeatureId): (r: seq<nat>)
    ensures forall i :: 0 <= i < |r| ==> r[i] < |ts| && ts[r[i]].feature == f
    ensures forall p :: 0 <= p < |ts| && ts[p].feature == f ==> p in r
    ensures forall i, j :: 0 <= i < j < |r| ==> r[i] < r[j]
  {
    if ts == [] then []
    else
      var init := ts[..|ts| - 1];
      var r := FeatureTasks(init, f);
      assert forall p :: 0 <= p < |init| ==> init[p] == ts[p];
      if ts[|ts| - 1].feature == f then r + [|ts| - 1] else r
  }

  /**
   * `order_by('checkbox_index', 'created_at')`: ascending index, ties by
   * creation order; a task without an index sorts first (the store sorts null
   * before numbers).
   */
  predicate RenderBefore(ts: seq<Task>, p: nat, q: nat)
    requires p < |ts| && q < |ts|
  {
    match (ts[p].checkboxIndex, ts[q].checkboxIndex)
    case (None, None) => p <= q
    case (None, Some(_)) => true
    case (Some(_), None) => false
    case (Some(a), Some(b)) => a < b || (a == b && p <= q)
  }

  /** Any two positions are comparable in render order. */
  lemma {:induction false} RenderBeforeTotal(ts: seq<Task>, p: nat, q: nat)
    requires p < |ts| && q < |ts|
    ensures RenderBefore(ts, p, q) || RenderBefore(ts, q, p)
  {
  }

  /** Render order is antisymmetric: two positions that precede each other are one. */
  lemma {:induction false} RenderBeforeAntisymmetric(ts: seq<Task>, p: nat, q: nat)
    requires p < |ts| && q < |ts| && RenderBefore(ts, p, q) && RenderBefore(ts, q, p)
    ensures p == q
  {
  }

  lemma {:induction false} RenderBeforeTransitive(ts: seq<Task>, p: nat, q: nat, o: nat)
    requires p < |ts| && q < |ts| && o < |ts| && RenderBefore(ts, p, q) && RenderBefore(ts, q, o)
    ensures RenderBefore(ts, p, o)
  {
  }

  predicate InRange(ts: seq<Task>, ps: seq<nat>) {
    forall i :: 0 <= i < |ps| ==> ps[i] < |ts|
  }

  predicate SortedForRender(ts: seq<Task>, ps: seq<nat>)
    requires InRange(ts, ps)
  {
    forall i, j :: 0 <= i < j < |ps| ==> RenderBefore(ts, ps[i], ps[j])
  }

  /** Inserts `p` before the first position it renders before. */
  function Insert(ts: seq<Task>, p: nat, ps: seq<nat>): (r: seq<nat>)
    requires p < |ts| && InRange(ts, ps)
    ensures InRange(ts, r)
    ensures multiset(r) == multiset(ps) + multiset{p}
  {
    if ps == [] then [p]
    else if RenderBefore(ts, p, ps[0]) then [p] + ps
    else
      assert ps == [ps[0]] + ps[1..];
      [ps[0]] + Insert(ts, p, ps[1..])
  }

  lemma {:induction false} InsertSorted(ts: seq<Task>, p: nat, ps: seq<nat>)
    requires p < |ts| && InRange(ts, ps) && SortedForRender(ts, ps)
    ensures SortedForRender(ts, Insert(ts, p, ps))
  {
    if ps != [] {
      var r := Insert(ts, p, ps);
      if RenderBefore(ts, p, ps[0]) {
        forall i | 0 < i < |ps| ensures RenderBefore(ts, p, ps[i]) {
          RenderBeforeTransitive(ts, p, ps[0], ps[i]);
        }
        assert forall j :: 0 < j < |r| ==> r[j] == ps[j - 1];
      } else {
        var rest := Insert(ts, p, ps[1..]);
        InsertSorted(ts, p, ps[1..]);
        RenderBeforeTotal(ts, p, ps[0]);
        assert forall i :: 0 <= i < |ps[1..]| ==> ps[1..][i] == ps[i + 1];
        InsertAbove(ts, p, ps[1..], ps[0]);
        assert r == [ps[0]] + rest;
        assert forall j :: 0 < j < |r| ==> r[j] == rest[j - 1];
      }
    }
  }

  /** A position that renders before `p` and before every position of `ps` renders before all of `Insert(ts, p, ps)`. */
  lemma {:induction false} InsertAbove(ts: seq<Task>, p: nat, ps: seq<nat>, q: nat)
    requires p < |ts| && q < |ts| && InRange(ts, ps) && RenderBefore(ts, q, p)
    requires forall i :: 0 <= i < |ps| ==> RenderBefore(ts, q, ps[i])
    ensures forall i :: 0 <= i < |Insert(ts, p, ps)| ==> RenderBefore(ts, q, Insert(ts, p, ps)[i])
  {
    if ps != [] && !RenderBefore(ts, p, ps[0]) {
      InsertAbove(ts, p, ps[1..], q);
      assert Insert(ts, p, ps) == [ps[0]] + Insert(ts, p, ps[1..]);
    }
  }

  /** The given positions in render order (an insertion sort). */
  function SortForRender(ts: seq<Task>, ps: seq<nat>): (r: seq<nat>)
    requires InRange(ts, ps)
    ensures InRange(ts, r)
    ensures multiset(r) == multiset(ps)
  {
    if ps == [] then []
    else
      assert ps == [ps[0]] + ps[1..];
      Insert(ts, ps[0], SortForRender(ts, ps[1..]))
  }

  /** Sorting yields exactly the given positions, in render order. */
  lemma {:induction false} SortForRenderSorted(ts: seq<Task>, ps: seq<nat>)
    requires InRange(ts, ps)
    ensures SortedForRender(ts, SortForRender(ts, ps))
  {
    if ps != [] {
      var rest := SortForRender(ts, ps[1..]);
      SortForRenderSorted(ts, ps[1..]);
      InsertSorted(ts, ps[0], rest);
    }
  }

  /** Positions already in render order are left where they are. */
  lemma {:induction false} SortForRenderOfSorted(ts: seq<Task>, ps: seq<nat>)
    requires InRange(ts, ps) && SortedForRender(ts, ps)
    ensures SortForRender(ts, ps) == ps
  {
    if ps != [] {
      SortForRenderOfSorted(ts, ps[1..]);
      assert ps == [ps[0]] + ps[1..];
    }
  }

  /** The positions of the feature's tasks, in render order. */
  function RenderOrder(ts: seq<Task>, f: FeatureId): (r: seq<nat>)
    ensures InRange(ts, r)
  {
    SortForRender(ts, FeatureTasks(ts, f))
  }

  /** Render order lists each task of the feature exactly once, in order. */
  lemma {:induction false} RenderOrderSpec(ts: seq<Task>, f: FeatureId)
    ensures SortedForRender(ts, RenderOrder(ts, f))
    ensures forall p: nat :: p in RenderOrder(ts, f) <==> p < |ts| && ts[p].feature == f
    ensures |RenderOrder(ts, f)| == |FeatureTasks(ts, f)|
  {
    var ps := FeatureTasks(ts, f);
    SortForRenderSorted(ts, ps);
    var r := RenderOrder(ts, f);
    assert multiset(r) == multiset(ps);
    assert |r| == |multiset(r)|;
    forall p: nat ensures p in r <==> p < |ts| && ts[p].feature == f {
      assert p in r <==> p in multiset(r);
      assert p in ps <==> p in multiset(ps);
    }
  }

  /** When creation order already is render order, rendering keeps creation order. */
  lemma {:induction false} RenderOrderOfSorted(ts: seq<Task>, f: FeatureId)
    requires InRange(ts, FeatureTasks(ts, f)) && SortedForRender(ts, FeatureTasks(ts, f))
    ensures RenderOrder(ts, f) == FeatureTasks(ts, f)
  {
    SortForRenderOfSorted(ts, FeatureTasks(ts, f));
  }

  function Select(ts: seq<Task>, ps: seq<nat>): (r: seq<Task>)
    requires InRange(ts, ps)
    ensures |r| == |ps| && forall i :: 0 <= i < |ps| ==> r[i] == ts[ps[i]]
  {
    seq(|ps|, i requires 0 <= i < |ps| => ts[ps[i]])
  }

  /** The feature's tasks in render order. */
  function Ordered(ts: seq<Task>, f: FeatureId): seq<Task> {
    Select(ts, RenderOrder(ts, f))
  }

  /** `render_tasks_as_checkboxes(feature.tasks.all())`. */
  function Checklist(ts: seq<Task>, f: FeatureId): string {
    Render(Ordered(ts, f))
  }

  /**
   * The body `create_github_issue` and `update_issue_body` send: the
   * description and a blank line when there is a description, then the
   * checklist when the feature has tasks, all stripped.
   */
  function IssueBody(description: string, ts: seq<Task>, f: FeatureId): string {
    var head := if description != "" then description + "\n\n" else "";
    Strip(if FeatureTasks(ts, f) != [] then head + Checklist(ts, f) else head)
  }

  // ------------------------------------------- parsing a composed issue body

  /** A text that is a single line parses as that line. */
  lemma {:induction false} ParseTextLastLine(s: string)
    requires s != [] && LineEnd(s) == |s|
    ensures ParseText(s) == ParseLineSeq(s)
  {
    assert SplitLines(s) == [s];
    assert ParseLines([s]) == ParseLineSeq(s) + ParseLines([]);
  }

  /** A text with a line break parses as its first line, then the text after that break. */
  lemma {:induction false} ParseTextFirstLine(s: string)
    requires LineEnd(s) < |s|
    ensures ParseText(s) == ParseLineSeq(s[..LineEnd(s)]) + ParseText(s[LineEnd(s) + BreakLen(s, LineEnd(s))..])
  {
    ParseTextAt(s, LineEnd(s), BreakLen(s, LineEnd(s)));
  }

  /** `ParseTextFirstLine` with the first line's end and break length named. */
  lemma {:induction false} ParseTextAt(s: string, k: nat, n: nat)
    requires k == LineEnd(s) && k < |s| && n == BreakLen(s, k)
    ensures ParseText(s) == ParseLineSeq(s[..k]) + ParseText(s[k + n..])
  {
    SplitLinesFirst(s);
    ParseTextOfSplit(s, s[..k], SplitLines(s[k + n..]));
  }

  lemma {:induction false} ParseTextOfSplit(s: string, first: string, rest: seq<string>)
    requires SplitLines(s) == [first] + rest
    ensures ParseText(s) == ParseLineSeq(first) + ParseLines(rest)
  {
    ParseLinesCons(first, rest);
  }

  /** `ParseTextAt` with the first line and the text after its break named as well. */
  lemma {:induction false} ParseTextAtParts(s: string, k: nat, n: nat, first: string, rest: string)
    requires k == LineEnd(s) && k < |s| && n == BreakLen(s, k) && first == s[..k] && rest == s[k + n..]
    ensures ParseText(s) == ParseLineSeq(first) + ParseText(rest)
  {
    ParseTextAt(s, k, n);
  }

  lemma {:induction false} ParseLinesCons(line: string, rest: seq<string>)
    ensures ParseLines([line] + rest) == ParseLineSeq(line) + ParseLines(rest)
  {
    assert ([line] + rest)[0] == line && ([line] + rest)[1..] == rest;
  }

  lemma {:induction false} ParseLineSeqBlank(s: string)
    requires forall k :: 0 <= k < |s| ==> IsSpace(s[k])
    ensures ParseLineSeq(s) == []
  {
    StripSpec(s);
  }

  /** A leading line break only ends an empty line, which yields nothing. */
  lemma {:induction false} ParseTextLeadingBreak(c: char, y: string)
    requires IsLineBreak(c)
    ensures ParseText([c] + y) == ParseText(y)
  {
    var s := [c] + y;
    assert LineEnd(s) == 0;
    ParseTextFirstLine(s);
    assert s[..0] == [];
    if BreakLen(s, 0) == 2 {
      assert LineEnd(y) == 0 && BreakLen(y, 0) == 1;
      ParseTextFirstLine(y);
      assert s[2..] == y[1..] && y[..0] == [];
    } else {
      assert s[1..] == y;
    }
  }

  /** A leading blank that is not a line break is stripped off the first line. */
  lemma {:induction false} ParseTextLeadingBlank(c: char, y: string)
    requires IsSpace(c) && !IsLineBreak(c)
    ensures ParseText([c] + y) == ParseText(y)
  {
    var s := [c] + y;
    assert s[1..] == y;
    assert LineEnd(s) == 1 + LineEnd(y);
    if LineEnd(y) == |y| {
      LeadingBlankOneLine(c, y);
    } else {
      LeadingBlankBeforeBreak(c, y, LineEnd(y), BreakLen(y, LineEnd(y)));
    }
  }

  lemma {:induction false} LeadingBlankOneLine(c: char, y: string)
    requires IsSpace(c) && !IsLineBreak(c) && LineEnd([c] + y) == |[c] + y| && LineEnd(y) == |y|
    ensures ParseText([c] + y) == ParseText(y)
  {
    var s := [c] + y;
    ParseTextLastLine(s);
    if y == [] {
      ParseLineSeqBlank(s);
    } else {
      ParseTextLastLine(y);
      StripLeadingSpace(c, y);
    }
  }

  lemma {:induction false} LeadingBlankBeforeBreak(c: char, y: string, k: nat, n: nat)
    requires IsSpace(c) && !IsLineBreak(c)
    requires k == LineEnd(y) && k < |y| && n == BreakLen(y, k) && LineEnd([c] + y) == k + 1
    ensures ParseText([c] + y) == ParseText(y)
  {
    var s := [c] + y;
    ConsSlices(c, y, k, n);
    ParseTextAt(s, k + 1, n);
    ParseTextAt(y, k, n);
    ParseLineLeadingSpace(c, y[..k]);
  }

  /** One more character in front shifts the first break of `y` by one. */
  lemma {:induction false} ConsSlices(c: char, y: string, k: nat, n: nat)
    requires k < |y| && n == BreakLen(y, k)
    ensures BreakLen([c] + y, k + 1) == n
    ensures ([c] + y)[..k + 1] == [c] + y[..k] && ([c] + y)[k + 1 + n..] == y[k + n..]
  {
    var s := [c] + y;
    assert s[1..] == y;
  }

  lemma {:induction false} ParseLineLeadingSpace(c: char, line: string)
    requires IsSpace(c)
    ensures ParseLineSeq([c] + line) == ParseLineSeq(line)
  {
    StripLeadingSpace(c, line);
  }

  /** A leading space changes no parsed line. */
  lemma {:induction false} ParseTextLeadingSpace(c: char, y: string)
    requires IsSpace(c)
    ensures ParseText([c] + y) == ParseText(y)
  {
    if IsLineBreak(c) {
      ParseTextLeadingBreak(c, y);
    } else {
      ParseTextLeadingBlank(c, y);
    }
  }

  lemma {:induction false} ParseTextStripLeft(s: string)
    ensures ParseText(StripLeft(s)) == ParseText(s)
  {
    if s != [] && IsSpace(s[0]) {
      ParseTextStripLeft(s[1..]);
      ParseTextLeadingSpace(s[0], s[1..]);
      assert [s[0]] + s[1..] == s;
    }
  }

  lemma {:induction false} ParseTextOfSpace(c: char)
    requires IsSpace(c)
    ensures ParseText([c]) == []
  {
    ParseTextLeadingSpace(c, []);
    assert [c] + [] == [c];
  }

  /** A space after a text's last line either ends it or is stripped off it. */
  lemma {:induction false} TrailingSpaceAfterLastLine(x: string, c: char)
    requires x != [] && LineEnd(x) == |x| && IsSpace(c)
    ensures ParseText(x + [c]) == ParseText(x)
  {
    var s := x + [c];
    LineEndSpec(x);
    assert x[..|x|] == x;
    LineEndOfPlainPrefix(x, [c]);
    ParseTextLastLine(x);
    if IsLineBreak(c) {
      ParseTextFirstLine(s);
      assert s[..|x|] == x && s[|x| + 1..] == [];
    } else {
      ParseTextLastLine(s);
      StripTrailingSpace(x, c);
    }
  }

  /** A space after a final "\r" either completes it to "\r\n" or forms a blank line. */
  lemma {:induction false} TrailingSpaceAfterFinalReturn(x: string, c: char)
    requires LineEnd(x) + 1 == |x| && x[LineEnd(x)] == '\r' && IsSpace(c)
    ensures ParseText(x + [c]) == ParseText(x)
  {
    var s := x + [c];
    var k := LineEnd(x);
    LineEndOfExtension(x, [c]);
    ParseTextFirstLine(x);
    ParseTextFirstLine(s);
    assert s[..k] == x[..k] && x[k + 1..] == [];
    if c == '\n' {
      assert s[k + 2..] == [];
    } else {
      assert s[k + 1..] == [c];
      ParseTextOfSpace(c);
    }
  }

  /** A trailing space changes no parsed line. */
  lemma {:induction false} ParseTextTrailingSpace(x: string, c: char)
    requires IsSpace(c)
    ensures ParseText(x + [c]) == ParseText(x)
    decreases |x|
  {
    if x == [] {
      ParseTextOfSpace(c);
      assert x + [c] == [c];
    } else if LineEnd(x) == |x| {
      TrailingSpaceAfterLastLine(x, c);
    } else if x[LineEnd(x)] == '\r' && LineEnd(x) + 1 == |x| {
      TrailingSpaceAfterFinalReturn(x, c);
    } else {
      var k := LineEnd(x);
      var n := BreakLen(x, k);
      FirstLineOfExtension(x, [c]);
      ParseTextFirstLine(x);
      ParseTextFirstLine(x + [c]);
      ParseTextTrailingSpace(x[k + n..], c);
    }
  }

  lemma {:induction false} ParseTextStripRight(s: string)
    ensures ParseText(StripRight(s)) == ParseText(s)
    decreases |s|
  {
    if s != [] && IsSpace(s[|s| - 1]) {
      var init, c := s[..|s| - 1], s[|s| - 1];
      assert StripRight(s) == StripRight(init);
      ParseTextStripRight(init);
      ParseTextTrailingSpace(init, c);
      assert init + [c] == s;
    }
  }

  /** Stripping a body, as the issue body builder does, changes no parsed line. */
  lemma {:induction false} ParseTextStrip(s: string)
    ensures ParseText(Strip(s)) == ParseText(s)
  {
    ParseTextStripLeft(s);
    ParseTextStripRight(StripLeft(s));
  }

  /** A "\n" between two texts separates their lines, unless it would complete a "\r\n". */
  lemma {:induction false} ParseTextConcat(a: string, b: string)
    requires a == [] || a[|a| - 1] != '\r'
    ensures ParseText(a + "\n" + b) == ParseText(a) + ParseText(b)
  {
    NewlineBetween(a, b);
    ParseTextBeforeBreak(a, "\n" + b);
    ParseTextLeadingBreak('\n', b);
  }

  lemma {:induction false} NewlineBetween(a: string, b: string)
    ensures a + "\n" + b == a + ("\n" + b) && "\n" + b == ['\n'] + b
  {
  }

  /**
   * Text that starts with a "\n" begins a new line after `a`: the lines of `a`
   * stay as they are.
   */
  lemma {:induction false} ParseTextBeforeBreak(a: string, nb: string)
    requires a == [] || a[|a| - 1] != '\r'
    requires nb != [] && nb[0] == '\n'
    ensures ParseText(a + nb) == ParseText(a) + ParseText(nb)
    decreases |a|
  {
    if a == [] {
      assert a + nb == nb;
      assert ParseText(a) == [];
      assert [] + ParseText(nb) == ParseText(nb);
    } else if LineEnd(a) == |a| {
      BreakAfterLastLine(a, nb);
    } else {
      var k := LineEnd(a);
      var n := BreakLen(a, k);
      SuffixLast(a, k + n);
      ParseTextBeforeBreak(a[k + n..], nb);
      BreakAfterFirstLine(a, nb, k, n);
    }
  }

  lemma {:induction false} SuffixLast(a: string, i: nat)
    requires i <= |a|
    ensures a[i..] == [] || a[i..][|a[i..]| - 1] == a[|a| - 1]
  {
  }

  /** The inductive step of `ParseTextBeforeBreak`: the first line of `a` is kept. */
  lemma {:induction false} BreakAfterFirstLine(a: string, nb: string, k: nat, n: nat)
    requires k == LineEnd(a) && k < |a| && n == BreakLen(a, k) && a[|a| - 1] != '\r'
    requires ParseText(a[k + n..] + nb) == ParseText(a[k + n..]) + ParseText(nb)
    ensures ParseText(a + nb) == ParseText(a) + ParseText(nb)
  {
    ParseTextAt(a, k, n);
    FirstLineOfExtensionParsed(a, nb, k, n);
    PrefixOfConcat(ParseText(a + nb), ParseText(a), ParseLineSeq(a[..k]), ParseText(a[k + n..]), ParseText(a[k + n..] + nb), ParseText(nb));
  }

  /** Sequence algebra for `BreakAfterFirstLine`, kept apart from the definitions it is used on. */
  lemma {:induction false} PrefixOfConcat(whole: seq<Checkbox>, a: seq<Checkbox>, first: seq<Checkbox>, rest: seq<Checkbox>,
                       restb: seq<Checkbox>, b: seq<Checkbox>)
    requires whole == first + restb && a == first + rest && restb == rest + b
    ensures whole == a + b
  {
    assert first + (rest + b) == (first + rest) + b;
  }

  lemma {:induction false} FirstLineOfExtensionParsed(a: string, b: string, k: nat, n: nat)
    requires k == LineEnd(a) && k < |a| && n == BreakLen(a, k) && a[|a| - 1] != '\r'
    ensures ParseText(a + b) == ParseLineSeq(a[..k]) + ParseText(a[k + n..] + b)
  {
    FirstLineOfExtension(a, b);
    ParseTextAtParts(a + b, k, n, a[..k], a[k + n..] + b);
  }

  lemma {:induction false} BreakAfterLastLine(a: string, nb: string)
    requires a != [] && LineEnd(a) == |a|
    requires nb != [] && nb[0] == '\n'
    ensures ParseText(a + nb) == ParseText(a) + ParseText(nb)
  {
    var s := a + nb;
    LastLineThenBreak(a, nb);
    ParseTextAt(s, |a|, 1);
    ParseTextLastLine(a);
    assert ParseText(nb) == ParseText(nb[1..]) by {
      assert nb == ['\n'] + nb[1..];
      ParseTextLeadingBreak('\n', nb[1..]);
    }
  }

  /** Where the last line of `a` ends, a text starting with "\n" opens a new line. */
  lemma {:induction false} LastLineThenBreak(a: string, nb: string)
    requires LineEnd(a) == |a|
    requires nb != [] && nb[0] == '\n'
    ensures LineEnd(a + nb) == |a| && BreakLen(a + nb, |a|) == 1
    ensures (a + nb)[..|a|] == a && (a + nb)[|a| + 1..] == nb[1..]
  {
    LineEndSpec(a);
    assert a[..|a|] == a;
    LineEndOfPlainPrefix(a, nb);
    assert LineEnd(nb) == 0;
  }

  /** A blank line between a description and a checklist separates their lines. */
  lemma {:induction false} ParseTextParagraphs(d: string, t: string)
    requires d != [] && d[|d| - 1] != '\r'
    ensures ParseText(d + "\n\n" + t) == ParseText(d) + ParseText(t)
  {
    ParseTextConcat(d, "\n" + t);
    ParseTextLeadingBreak('\n', t);
    assert d + "\n\n" + t == d + "\n" + ("\n" + t);
    assert "\n" + t == ['\n'] + t;
  }

  /** The checklist part of an issue body reads back as the feature's tasks, in render order. */
  lemma {:induction false} ChecklistParse(ts: seq<Task>, f: FeatureId)
    requires TitlesWellFormed(Ordered(ts, f))
    ensures ParseText(if FeatureTasks(ts, f) != [] then Checklist(ts, f) else "") == CheckboxesOf(Ordered(ts, f))
  {
    var sel := Ordered(ts, f);
    RenderOrderSpec(ts, f);
    ParseOfRender(sel);
    if FeatureTasks(ts, f) == [] {
      assert sel == [];
    }
  }

  /** The guard for an empty body agrees with parsing it: no line, no checkbox. */
  lemma {:induction false} ParseSome(s: string)
    ensures Parse(Some(s)) == ParseText(s)
  {
    if s == "" {
      assert SplitLines(s) == [];
    }
  }

  /**
   * What GitHub's copy of a created issue reads back as: the checkboxes of
   * the description followed by one checkbox per task, in render order.
   */
  lemma {:induction false} IssueBodyParse(description: string, ts: seq<Task>, f: FeatureId)
    requires description == [] || description[|description| - 1] != '\r'
    requires TitlesWellFormed(Ordered(ts, f))
    ensures Parse(Some(IssueBody(description, ts, f))) == Parse(Some(description)) + CheckboxesOf(Ordered(ts, f))
  {
    var head := if description != "" then description + "\n\n" else "";
    var tail := if FeatureTasks(ts, f) != [] then Checklist(ts, f) else "";
    assert IssueBody(description, ts, f) == Strip(head + tail) by {
      assert head + "" == head;
    }
    ParseSome(Strip(head + tail));
    ParseSome(description);
    ParseTextStrip(head + tail);
    ChecklistParse(ts, f);
    HeadAndTail(description, tail);
  }

  /** The description, with its blank line when there is one, parses apart from what follows. */
  lemma {:induction false} HeadAndTail(description: string, tail: string)
    requires description == [] || description[|description| - 1] != '\r'
    ensures ParseText((if description != "" then description + "\n\n" else "") + tail) == ParseText(description) + ParseText(tail)
  {
    if description != "" {
      ParseTextParagraphs(description, tail);
    } else {
      assert "" + tail == tail;
      assert ParseText(description) == [] by {
        assert SplitLines(description) == [];
      }
    }
  }
}

=== FILE: desktop.dfy ===
/**
 * The summary helpers of the desktop client: the colour of a priority or a
 * status badge, the overall priority of a feature and its progress count.
 * The client sees tasks through the API as plain strings.
 */
module Desktop {

  /** A task as the client's `Task` interface holds it; only these two fields are read here. */
  datatype ClientTask = ClientTask(status: string, priority: string)

  predicate KnownPriority(p: string) {
    p == "high" || p == "medium" || p == "low"
  }

  /** `priorityColor`: one colour per known priority, grey for anything else. */
  function PriorityColor(priority: string): (r: string)
    ensures r == "#999" <==> !KnownPriority(priority)
  {
    match priority
    case "high" => "#d9534f"
    case "medium" => "#f0ad4e"
    case "low" => "#5cb85c"
    case _ => "#999"
  }

  /** Known priorities are told apart by their colour. */
  lemma PriorityColorInjective(a: string, b: string)
    requires KnownPriority(a) && KnownPriority(b) && PriorityColor(a) == PriorityColor(b)
    ensures a == b
  {
  }

  /** The statuses the badge knows; the backend's "in_progress" is not one of them. */
  predicate KnownStatus(s: string) {
    s == "todo" || s == "in progress" || s == "review" || s == "blocked" || s == "done"
  }

  /**
   * `statusColor`: one colour per known status, grey for anything else,
   * including every status the backend stores except "todo" and "done".
   */
  function StatusColor(status: string): (r: string)
    ensures r == "#999" <==> !KnownStatus(status)
  {
    match status
    case "todo" => "#6c757d"
    case "in progress" => "#0d6efd"
    case "review" => "#6f42c1"
    case "blocked" => "#d9534f"
    case "done" => "#5cb85c"
    case _ => "#999"
  }

  /** Known statuses are told apart by their colour. */
  lemma StatusColorInjective(a: string, b: string)
    requires KnownStatus(a) && KnownStatus(b) && StatusColor(a) == StatusColor(b)
    ensures a == b
  {
  }

  // ---------------------------------------------------------------- priority

  /**
   * `priorityRank[p] ?? 0`: 3, 2, 1 for the known priorities. Any other
   * string ranks 0 (a key inherited from `Object.prototype` yields a
   * non-number, which never compares greater, to the same effect).
   */
  function Rank(priority: string): (r: nat)
    ensures r <= 3 && (r == 0 <==> !KnownPriority(priority))
  {
    match priority
    case "high" => 3
    case "medium" => 2
    case "low" => 1
    case _ => 0
  }

  /** The highest rank among the tasks, 0 for none: the value `highest` ends with. */
  function MaxRank(tasks: seq<ClientTask>): nat {
    if tasks == [] then 0
    else
      var m := MaxRank(tasks[..|tasks| - 1]);
      var k := Rank(tasks[|tasks| - 1].priority);
      if k > m then k else m
  }

  /** `MaxRank` bounds every rank and is 0 or some task's rank. */
  lemma {:induction false} MaxRankSpec(tasks: seq<ClientTask>)
    ensures MaxRank(tasks) <= 3
    ensures forall i :: 0 <= i < |tasks| ==> Rank(tasks[i].priority) <= MaxRank(tasks)
    ensures MaxRank(tasks) == 0 || exists i :: 0 <= i < |tasks| && Rank(tasks[i].priority) == MaxRank(tasks)
  {
    if tasks != [] {
      var init := tasks[..|tasks| - 1];
      MaxRankSpec(init);
      assert forall i :: 0 <= i < |init| ==> init[i] == tasks[i];
    }
  }

  predicate HasPriority(tasks: seq<ClientTask>, p: string) {
    exists i :: 0 <= i < |tasks| && tasks[i].priority == p
  }

  /**
   * `featurePriority`: "high" if a task is high, else "medium" if one is
   * medium, else "low" if one is low, else "none" (no task, or none with a
   * known priority).
   */
  method FeaturePriority(tasks: seq<ClientTask>) returns (r: string)
    ensures r == "high" <==> HasPriority(tasks, "high")
    ensures r == "medium" <==> !HasPriority(tasks, "high") && HasPriority(tasks, "medium")
    ensures r == "low" <==> !HasPriority(tasks, "high") && !HasPriority(tasks, "medium") && HasPriority(tasks, "low")
    ensures r == "none" <==> forall i :: 0 <= i < |tasks| ==> !KnownPriority(tasks[i].priority)
  {
    var highest := 0;
    for i := 0 to |tasks|
      invariant highest == MaxRank(tasks[..i])
    {
      assert tasks[..i + 1][..i] == tasks[..i];
      var rank := Rank(tasks[i].priority);
      if rank > highest {
        highest := rank;
      }
    }
    assert tasks[..|tasks|] == tasks;
    MaxRankSpec(tasks);
    if highest == 3 {
      r := "high";
    } else if highest == 2 {
      r := "medium";
    } else if highest == 1 {
      r := "low";
    } else {
      r := "none";
    }
  }

  // ---------------------------------------------------------------- progress

  /** A task counts as done once it is in review or done. */
  predicate Finished(t: ClientTask) {
    t.status == "review" || t.status == "done"
  }

  /** `tasks.filter(finished).length`. */
  function CountFinished(tasks: seq<ClientTask>): nat {
    if tasks == [] then 0 else (if Finished(tasks[0]) then 1 else 0) + CountFinished(tasks[1..])
  }

  /** `featureProgress`: the finished tasks and all tasks. */
  datatype Progress = Progress(done: nat, total: nat)

  function FeatureProgress(tasks: seq<ClientTask>): (r: Progress)
    ensures r.total == |tasks|
    ensures r.done == CountFinished(tasks)
  {
    Progress(CountFinished(tasks), |tasks|)
  }

  /** Progress never exceeds the total; it is complete exactly when every task is finished, and 0 exactly when none is. */
  lemma {:induction false} ProgressBounds(tasks: seq<ClientTask>)
    ensures FeatureProgress(tasks).done <= FeatureProgress(tasks).total
    ensures FeatureProgress(tasks).done == |tasks| <==> forall i :: 0 <= i < |tasks| ==> Finished(tasks[i])
    ensures FeatureProgress(tasks).done == 0 <==> forall i :: 0 <= i < |tasks| ==> !Finished(tasks[i])
  {
    if tasks != [] {
      ProgressBounds(tasks[1..]);
      assert forall i :: 1 <= i < |tasks| ==> tasks[i] == tasks[1..][i - 1];
    }
  }
}

=== FILE: hooks.dfy ===
/**
 * What the GitHub webhook handlers share: the signature check, the lookups
 * by non-unique fields (which may find nothing, one row, or several), and
 * the bulk updates that `QuerySet.update` performs on features and tasks.
 */
module Hooks {
  import opened Types

  /** A hex HMAC-SHA256 digest of a message under a key; the hash itself is not modelled. */
  type Mac = (string, string) -> string

  /**
   * `verify_github_signature`: an empty header or secret fails; otherwise
   * the header must be "sha256=" followed by the digest of the raw body.
   */
  function VerifyGithubSignature(header: string, secret: string, body: string, mac: Mac): (r: bool)
    ensures header == "" || secret == "" ==> !r
    ensures r ==> header == "sha256=" + mac(secret, body)
  {
    if header == "" || secret == "" then false else header == "sha256=" + mac(secret, body)
  }

  /** A delivery GitHub signed with the shared secret passes. */
  lemma SignedDeliveryAccepted(secret: string, body: string, mac: Mac)
    requires secret != ""
    ensures VerifyGithubSignature("sha256=" + mac(secret, body), secret, body, mac)
  {
  }

  /** With a MAC that tells bodies apart, a signature does not cover another body. */
  lemma TamperedDeliveryRejected(secret: string, signed: string, body: string, mac: Mac)
    requires forall b1, b2 :: mac(secret, b1) == mac(secret, b2) ==> b1 == b2
    requires signed != body
    ensures !VerifyGithubSignature("sha256=" + mac(secret, signed), secret, body, mac)
  {
    var x, y := mac(secret, signed), mac(secret, body);
    assert x == ("sha256=" + x)[7..];
    assert y == ("sha256=" + y)[7..];
  }

  // ---------------------------------------------------------------- lookups

  /**
   * The outcome of `Model.objects.get(...)` on fields that are not a key:
   * no row (`DoesNotExist`), the one row, or several (`MultipleObjectsReturned`,
   * which no handler catches).
   */
  datatype Lookup = Missing | Found(at: nat) | Ambiguous

  /** The lookup outcome of a list of matching positions. */
  function Single(ps: seq<nat>): (r: Lookup)
    ensures r.Missing? <==> ps == []
    ensures r.Found? <==> |ps| == 1
    ensures r.Found? ==> r.at == ps[0]
  {
    if |ps| == 0 then Missing else if |ps| == 1 then Found(ps[0]) else Ambiguous
  }

  predicate IsRepo(w: Workspace, owner: string, repo: string) {
    w.owner == owner && w.repo == repo
  }

  /** Positions of the workspaces linked to repository `owner`/`repo`, in table order. */
  function RepoWorkspaces(ws: seq<Workspace>, owner: string, repo: string): (r: seq<nat>)
    ensures forall i :: 0 <= i < |r| ==> r[i] < |ws| && IsRepo(ws[r[i]], owner, repo)
    ensures forall p :: 0 <= p < |ws| && IsRepo(ws[p], owner, repo) ==> p in r
    ensures forall i, j :: 0 <= i < j < |r| ==> r[i] < r[j]
  {
    if ws == [] then []
    else
      var r := RepoWorkspaces(ws[..|ws| - 1], owner, repo);
      if IsRepo(ws[|ws| - 1], owner, repo) then r + [|ws| - 1] else r
  }

  /** `_get_workspace`: the workspace of the payload's repository. */
  function GetWorkspace(ws: seq<Workspace>, owner: string, repo: string): (r: Lookup)
    ensures r.Missing? <==> forall p :: 0 <= p < |ws| ==> !IsRepo(ws[p], owner, repo)
    ensures r.Found? ==> r.at < |ws| && IsRepo(ws[r.at], owner, repo)
    ensures r.Found? ==> forall p :: 0 <= p < |ws| && p != r.at ==> !IsRepo(ws[p], owner, repo)
  {
    var ps := RepoWorkspaces(ws, owner, repo);
    assert ps != [] ==> ps[0] in ps;
    Single(ps)
  }

  /** The two ways the handlers select features. */
  datatype FeatureQuery =
    | ByGithubId(w: WsId, id: int)          // workspace=..., github_id=...
    | IssueByNumber(w: WsId, number: int)   // workspace=..., github_number=..., type='issue'

  predicate Selects(q: FeatureQuery, ft: Feature) {
    match q
    case ByGithubId(w, id) => ft.workspace == w && ft.githubId == Some(id)
    case IssueByNumber(w, n) => ft.workspace == w && ft.githubNumber == Some(n) && ft.kind == IssueFeature
  }

  /** Positions of the features `q` selects, in table order. */
  function Selected(fs: seq<Feature>, q: FeatureQuery): (r: seq<nat>)
    ensures forall i :: 0 <= i < |r| ==> r[i] < |fs| && Selects(q, fs[r[i]])
    ensures forall p :: 0 <= p < |fs| && Selects(q, fs[p]) ==> p in r
    ensures forall i, j :: 0 <= i < j < |r| ==> r[i] < r[j]
  {
    if fs == [] then []
    else
      var r := Selected(fs[..|fs| - 1], q);
      if Selects(q, fs[|fs| - 1]) then r + [|fs| - 1] else r
  }

  /** `Feature.objects.get(...)` for the query `q`. */
  function GetFeature(fs: seq<Feature>, q: FeatureQuery): (r: Lookup)
    ensures r.Missing? <==> forall p :: 0 <= p < |fs| ==> !Selects(q, fs[p])
    ensures r.Found? ==> r.at < |fs| && Selects(q, fs[r.at])
    ensures r.Found? ==> forall p :: 0 <= p < |fs| && p != r.at ==> !Selects(q, fs[p])
    ensures r.Ambiguous? <==> exists p1, p2 :: 0 <= p1 < p2 < |fs| && Selects(q, fs[p1]) && Selects(q, fs[p2])
  {
    var ps := Selected(fs, q);
    assert ps != [] ==> ps[0] in ps;
    assert |ps| >= 2 ==> ps[0] < ps[1] && ps[0] in ps && ps[1] in ps;
    Single(ps)
  }

  // ----------------------------------------------------------- bulk updates

  /** `Feature.objects.filter(q).update(state=st)`. */
  function SetState(fs: seq<Feature>, q: FeatureQuery, st: FeatureState): (r: seq<Feature>)
    ensures |r| == |fs|
    ensures forall p :: 0 <= p < |fs| ==> r[p] == if Selects(q, fs[p]) then fs[p].(state := st) else fs[p]
  {
    if fs == [] then []
    else
      var last := fs[|fs| - 1];
      SetState(fs[..|fs| - 1], q, st) + [if Selects(q, last) then last.(state := st) else last]
  }

  /** A task of workspace `w`, seen through its feature (`feature__workspace=w`). */
  predicate InWorkspace(fs: seq<Feature>, t: Task, w: WsId) {
    t.feature < |fs| && fs[t.feature].workspace == w
  }

  /** A task that counts as open: in workspace `w` and not done. */
  predicate OpenIn(fs: seq<Feature>, t: Task, w: WsId) {
    InWorkspace(fs, t, w) && t.status != Done
  }

  /** Positions of the workspace's tasks that are not done, in table order. */
  function OpenAt(ts: seq<Task>, fs: seq<Feature>, w: WsId): (r: seq<nat>)
    ensures forall j :: 0 <= j < |r| ==> r[j] < |ts| && OpenIn(fs, ts[r[j]], w)
    ensures forall p :: 0 <= p < |ts| && OpenIn(fs, ts[p], w) ==> p in r
    ensures forall j, k :: 0 <= j < k < |r| ==> r[j] < r[k]
  {
    if ts == [] then []
    else
      var r := OpenAt(ts[..|ts| - 1], fs, w);
      if OpenIn(fs, ts[|ts| - 1], w) then r + [|ts| - 1] else r
  }

  /**
   * The titles of the workspace's tasks that are not done, in table order
   * (a title repeats when several open tasks share it).
   */
  function OpenTitles(ts: seq<Task>, fs: seq<Feature>, w: WsId): (r: seq<string>)
    ensures |r| == |OpenAt(ts, fs, w)|
    ensures forall j :: 0 <= j < |r| ==> r[j] == ts[OpenAt(ts, fs, w)[j]].title
  {
    if ts == [] then []
    else
      var r := OpenTitles(ts[..|ts| - 1], fs, w);
      var t := ts[|ts| - 1];
      if OpenIn(fs, t, w) then r + [t.title] else r
  }

  /** Two feature tables that agree on which tasks are open give the same open titles. */
  lemma {:induction false} OpenTitlesSameOpen(ts: seq<Task>, fs: seq<Feature>, fs': seq<Feature>, w: WsId)
    requires forall p :: 0 <= p < |ts| ==> (OpenIn(fs, ts[p], w) <==> OpenIn(fs', ts[p], w))
    ensures OpenTitles(ts, fs, w) == OpenTitles(ts, fs', w)
  {
    if ts != [] {
      var init := ts[..|ts| - 1];
      assert forall p :: 0 <= p < |init| ==> init[p] == ts[p];
      OpenTitlesSameOpen(init, fs, fs', w);
    }
  }

  /** The list of open titles is empty exactly when the workspace has no task left to do. */
  lemma {:induction false} OpenTitlesEmpty(ts: seq<Task>, fs: seq<Feature>, w: WsId)
    ensures OpenTitles(ts, fs, w) == [] <==> forall p :: 0 <= p < |ts| ==> !OpenIn(fs, ts[p], w)
  {
    if ts != [] {
      var init := ts[..|ts| - 1];
      OpenTitlesEmpty(init, fs, w);
      assert forall p :: 0 <= p < |init| ==> init[p] == ts[p];
    }
  }

  /** The tasks one inferred title completes: same title, in the workspace, to do or in progress. */
  predicate Completable(fs: seq<Feature>, t: Task, w: WsId, title: string) {
    InWorkspace(fs, t, w) && t.title == title && (t.status == Todo || t.status == InProgress)
  }

  /** `Task.objects.filter(...).update(status='done', completed_by_commit=sha)` for one title. */
  function CompleteTitle(ts: seq<Task>, fs: seq<Feature>, w: WsId, title: string, sha: string): (r: seq<Task>)
    ensures |r| == |ts|
    ensures forall p :: 0 <= p < |ts| ==>
      r[p] == if Completable(fs, ts[p], w, title) then ts[p].(status := Done, completedByCommit := sha) else ts[p]
  {
    if ts == [] then []
    else
      var t := ts[|ts| - 1];
      CompleteTitle(ts[..|ts| - 1], fs, w, title, sha)
        + [if Completable(fs, t, w, title) then t.(status := Done, completedByCommit := sha) else t]
  }

  /** The row count that `update` returns for one title. */
  function CountCompletable(ts: seq<Task>, fs: seq<Feature>, w: WsId, title: string): (n: nat)
    ensures n <= |ts|
    ensures n == 0 <==> forall p :: 0 <= p < |ts| ==> !Completable(fs, ts[p], w, title)
  {
    if ts == [] then 0
    else
      var n := CountCompletable(ts[..|ts| - 1], fs, w, title);
      assert forall p :: 0 <= p < |ts| - 1 ==> ts[..|ts| - 1][p] == ts[p];
      n + if Completable(fs, ts[|ts| - 1], w, title) then 1 else 0
  }

  /** Python's `s[:n]`. */
  function Prefix(s: string, n: nat): (r: string)
    ensures |r| <= n && |r| <= |s| && r == s[..|r|]
    ensures |s| <= n ==> r == s
    ensures n <= |s| ==> |r| == n
  {
    if |s| <= n then s else s[..n]
  }
}

=== FILE: inference.dfy ===
/**
 * `analyze_commits`: a language model is asked which open task titles a
 * batch of commit messages completes; its reply is unwrapped from a markdown
 * code fence if it has one, decoded as JSON, and only the open titles in a
 * JSON array are believed.
 */
module Inference {
  import opened Types
  import opened Text

  /**
   * What the step depends on outside this model: the configured API key, the
   * model's reply text for a given list of commit messages and open titles,
   * and `json.loads` (None where it raises `JSONDecodeError`).
   */
  datatype Engine = Engine(
    apiKey: string,
    reply: (seq<string>, seq<string>) -> string,
    decode: string -> Option<Json>)

  /** `s.split('\n', 1)[-1]`: the text after the first "\n", or all of `s` when it has none. */
  function AfterFirstNewline(s: string): (r: string)
    ensures '\n' !in s ==> r == s
    ensures '\n' in s ==> exists k :: 0 <= k < |s| && s[k] == '\n' && '\n' !in s[..k] && r == s[k + 1..]
  {
    var k := FindChar(s, '\n');
    if k == -1 then s else s[k + 1..]
  }

  /** `s.rsplit('```', 1)[0]`: the text before the last fence, or all of `s` when it has none. */
  function BeforeLastFence(s: string): (r: string)
    ensures (forall i :: !OccursAt(s, "```", i)) ==> r == s
    ensures r != s ==> exists i :: OccursAt(s, "```", i) && r == s[..i]
  {
    var k := FindLast(s, "```");
    if k == -1 then s else s[..k]
  }

  /**
   * The fence removal applied to the already stripped reply: a reply that
   * starts with "```" loses its first line and everything from its last
   * "```" on, and what is left is stripped again.
   */
  function StripFences(text: string): string {
    if StartsWith(text, "```") then Strip(BeforeLastFence(AfterFirstNewline(text))) else text
  }

  /** The list comprehension `[t for t in result if t in open_tasks]`: order and repeats kept. */
  function KeepKnown(items: seq<Json>, open: seq<string>): (r: seq<string>)
    ensures |r| <= |items|
    ensures forall i :: 0 <= i < |r| ==> r[i] in open && JStr(r[i]) in items
  {
    if items == [] then []
    else
      var rest := KeepKnown(items[1..], open);
      if items[0].JStr? && items[0].s in open then [items[0].s] + rest else rest
  }

  /**
   * `analyze_commits(commit_messages, open_tasks)`: nothing without an API
   * key; otherwise the titles the decoded reply lists that are open, and
   * nothing when the reply is not a JSON array.
   */
  function AnalyzeCommits(e: Engine, messages: seq<string>, openTasks: seq<string>): (r: seq<string>)
    ensures forall i :: 0 <= i < |r| ==> r[i] in openTasks
    ensures e.apiKey == "" ==> r == []
    ensures var decoded := e.decode(StripFences(Strip(e.reply(messages, openTasks))));
      e.apiKey != "" ==>
        && (decoded.Some? && decoded.value.JList? ==> r == KeepKnown(decoded.value.items, openTasks))
        && (decoded.None? || !decoded.value.JList? ==> r == [])
  {
    if e.apiKey == "" then []
    else
      match e.decode(StripFences(Strip(e.reply(messages, openTasks))))
      case Some(JList(items)) => KeepKnown(items, openTasks)
      case _ => []
  }

  /** A title is kept exactly when it is open and the array lists it as a string. */
  lemma {:induction false} KeepKnownMembers(items: seq<Json>, open: seq<string>, t: string)
    ensures t in KeepKnown(items, open) <==> t in open && JStr(t) in items
  {
    if items != [] {
      KeepKnownMembers(items[1..], open, t);
      assert items == [items[0]] + items[1..];
    }
  }

  /** Filtering a concatenation filters each part. */
  lemma {:induction false} KeepKnownConcat(a: seq<Json>, b: seq<Json>, open: seq<string>)
    ensures KeepKnown(a + b, open) == KeepKnown(a, open) + KeepKnown(b, open)
  {
    if a == [] {
      assert a + b == b;
    } else {
      assert (a + b)[1..] == a[1..] + b;
      KeepKnownConcat(a[1..], b, open);
    }
  }

  /** An array of open titles, all of them strings, is believed as it stands. */
  lemma {:induction false} KeepKnownAllOpen(titles: seq<string>, open: seq<string>)
    requires forall i :: 0 <= i < |titles| ==> titles[i] in open
    ensures KeepKnown(Strings(titles), open) == titles
  {
    if titles != [] {
      KeepKnownAllOpen(titles[1..], open);
      assert Strings(titles)[1..] == Strings(titles[1..]);
    }
  }

  /** A list of titles as the JSON array of strings that lists them. */
  function Strings(titles: seq<string>): (r: seq<Json>)
    ensures |r| == |titles| && forall i :: 0 <= i < |r| ==> r[i] == JStr(titles[i])
  {
    if titles == [] then [] else [JStr(titles[0])] + Strings(titles[1..])
  }

  /** The fenced reply `"```" + lang + "\n" + body + "\n```"` unwraps to its stripped body. */
  lemma FencedReply(lang: string, body: string)
    requires '\n' !in lang
    ensures StripFences("```" + lang + "\n" + body + "\n```") == Strip(body)
  {
    var text := "```" + lang + "\n" + body + "\n```";
    var k := |lang| + 3;
    assert text[..3] == "```";
    assert text[k] == '\n';
    assert text[..k] == "```" + lang;
    var r := FindChar(text, '\n');
    assert r == k;
    var rest := text[k + 1..];
    assert rest == body + "\n```";
    assert OccursAt(rest, "```", |body| + 1);
    var l := FindLast(rest, "```");
    assert l == |body| + 1;
    assert rest[..l] == body + "\n";
    StripTrailingSpace(body, '\n');
  }

  /**
   * A fenced JSON array of open titles, the form the prompt asks for, is
   * believed in full.
   */
  lemma FencedArrayBelieved(e: Engine, messages: seq<string>, openTasks: seq<string>,
                            lang: string, json: string, titles: seq<string>)
    requires e.apiKey != "" && '\n' !in lang
    requires Strip(e.reply(messages, openTasks)) == "```" + lang + "\n" + json + "\n```"
    requires e.decode(Strip(json)) == Some(JList(Strings(titles)))
    requires forall i :: 0 <= i < |titles| ==> titles[i] in openTasks
    ensures AnalyzeCommits(e, messages, openTasks) == titles
  {
    FencedReply(lang, json);
    KeepKnownAllOpen(titles, openTasks);
  }
}

=== FILE: issues.dfy ===
/**
 * The `issues` event: an opened issue becomes a feature (its checklist its
 * tasks), an edit rewrites the feature and merges the checklist again, and
 * closing or reopening sets the feature's state, closing also finishing its
 * tasks.
 */
module Issues {
  import opened Types
  import opened Checkboxes
  import opened Reconcile
  import opened EntityStore
  import opened Hooks
  import opened Pulls

  /** An issue as the payload describes it; `title` is None when the key is absent, `body` when null or absent. */
  datatype IssueData = IssueData(id: int, number: int, title: Option<string>, body: Option<string>, htmlUrl: string)

  datatype IssuesPayload = IssuesPayload(action: string, issue: IssueData)

  /** The feature an opened issue creates when none has its id. */
  function IssueFeatureRow(w: WsId, d: IssueData): Feature {
    Feature(w, d.title.GetOr(""), d.body.GetOr(""), IssueFeature, Some(d.number), Some(d.id), d.htmlUrl, Open)
  }

  /** A task of the workspace's issue feature numbered `n`. */
  predicate OfIssue(fs: seq<Feature>, t: Task, w: WsId, n: int) {
    t.feature < |fs| && Selects(IssueByNumber(w, n), fs[t.feature])
  }

  /** The bulk update that finishes the tasks of the closed issue; `completed_by_commit` is not touched. */
  function FinishIssueTasks(ts: seq<Task>, fs: seq<Feature>, w: WsId, n: int): (r: seq<Task>)
    ensures |r| == |ts|
    ensures forall p :: 0 <= p < |ts| ==>
      r[p] == if OfIssue(fs, ts[p], w, n) && ts[p].status != Done then ts[p].(status := Done) else ts[p]
  {
    if ts == [] then []
    else
      var t := ts[|ts| - 1];
      FinishIssueTasks(ts[..|ts| - 1], fs, w, n) + [if OfIssue(fs, t, w, n) && t.status != Done then t.(status := Done) else t]
  }

  function IssueReply(p: IssuesPayload): map<string, Json> {
    map["issue_number" := JInt(p.issue.number), "action" := JStr(p.action)]
  }

  /** `handle_issues`; None where `get` meets several features. */
  function IssuesOutcome(db: Records, w: WsId, p: IssuesPayload): (r: (Records, Option<map<string, Json>>))
    ensures r.0 == db.(features := r.0.features, tasks := r.0.tasks)
    ensures r.1.Some? ==> r.1.value == IssueReply(p) || r.1.value == IssueReply(p)["status" := JStr("feature_not_found")]
  {
    var d := p.issue;
    if p.action == "opened" then
      match GetFeature(db.features, ByGithubId(w, d.id))
      case Ambiguous => (db, None)
      case Found(_) => (db, Some(IssueReply(p)))
      case Missing => (SyncedIfAny(db.(features := db.features + [IssueFeatureRow(w, d)]), |db.features|, Parse(d.body)), Some(IssueReply(p)))
    else if p.action == "edited" then
      match GetFeature(db.features, IssueByNumber(w, d.number))
      case Ambiguous => (db, None)
      case Missing => (db, Some(IssueReply(p)["status" := JStr("feature_not_found")]))
      case Found(f) =>
        var ft := db.features[f];
        (Synced(db.(features := db.features[f := ft.(name := d.title.GetOr(ft.name), description := d.body.GetOr(""))]), f, Parse(d.body)),
         Some(IssueReply(p)))
    else if p.action == "closed" then
      var fs := SetState(db.features, IssueByNumber(w, d.number), Closed);
      (db.(features := fs, tasks := FinishIssueTasks(db.tasks, fs, w, d.number)), Some(IssueReply(p)))
    else if p.action == "reopened" then
      (db.(features := SetState(db.features, IssueByNumber(w, d.number), Open)), Some(IssueReply(p)))
    else
      (db, Some(IssueReply(p)))
  }

  /**
   * The handler fails exactly when an "opened" delivery finds several
   * features with the issue's id, or an "edited" one several issue features
   * with its number.
   */
  lemma IssuesFailOnDuplicates(db: Records, w: WsId, p: IssuesPayload)
    ensures IssuesOutcome(db, w, p).1.None? <==>
      || (p.action == "opened" && GetFeature(db.features, ByGithubId(w, p.issue.id)).Ambiguous?)
      || (p.action == "edited" && GetFeature(db.features, IssueByNumber(w, p.issue.number)).Ambiguous?)
  {
  }

  /** One more feature extends the selection by its position when it is selected. */
  lemma {:induction false} SelectedSnoc(fs: seq<Feature>, x: Feature, q: FeatureQuery)
    ensures Selected(fs + [x], q) == Selected(fs, q) + (if Selects(q, x) then [|fs|] else [])
  {
    assert (fs + [x])[..|fs|] == fs;
  }

  /** Merging a checklist changes tasks only. */
  lemma SyncedIfAnyFeatures(db: Records, f: FeatureId, boxes: seq<Checkbox>)
    ensures SyncedIfAny(db, f, boxes) == db.(tasks := SyncedIfAny(db, f, boxes).tasks)
  {
  }

  /**
   * An "opened" delivery creates the issue's feature once: delivered again,
   * it finds that feature and changes nothing.
   */
  lemma IssueOpenedOnce(db: Records, w: WsId, p: IssuesPayload)
    requires p.action == "opened" && IssuesOutcome(db, w, p).1.Some?
    ensures var db1 := IssuesOutcome(db, w, p).0;
      IssuesOutcome(db1, w, p) == (db1, Some(IssueReply(p)))
  {
    var q := ByGithubId(w, p.issue.id);
    if GetFeature(db.features, q).Missing? {
      SelectedSnoc(db.features, IssueFeatureRow(w, p.issue), q);
      var db1 := db.(features := db.features + [IssueFeatureRow(w, p.issue)]);
      SyncedIfAnyFeatures(db1, |db.features|, Parse(p.issue.body));
      assert Selected(db.features, q) == [];
    }
  }

  /**
   * An "opened" delivery for an issue some feature already tracks (by its
   * github id) changes nothing and replies as usual.
   */
  lemma IssueOpenedFound(db: Records, w: WsId, p: IssuesPayload, f: nat)
    requires p.action == "opened" && GetFeature(db.features, ByGithubId(w, p.issue.id)) == Found(f)
    ensures IssuesOutcome(db, w, p) == (db, Some(IssueReply(p)))
  {
  }

  /**
   * Any other action ("labeled", "assigned", ...) changes nothing and
   * replies with the issue's number and the action.
   */
  lemma IssuesOtherAction(db: Records, w: WsId, p: IssuesPayload)
    requires p.action !in {"opened", "edited", "closed", "reopened"}
    ensures IssuesOutcome(db, w, p) == (db, Some(IssueReply(p)))
  {
  }

  /**
   * An "opened" issue without a feature gets a new open issue feature, last
   * in the table, and its checklist becomes that feature's tasks.
   */
  lemma IssueOpenedCreatesFeature(db: Records, w: WsId, p: IssuesPayload)
    requires p.action == "opened"
    requires forall i :: 0 <= i < |db.features| ==> !Selects(ByGithubId(w, p.issue.id), db.features[i])
    ensures IssuesOutcome(db, w, p)
      == (db.(features := db.features + [IssueFeatureRow(w, p.issue)],
              tasks := Sync(db.tasks, |db.features|, Parse(p.issue.body)).tasks),
          Some(IssueReply(p)))
    ensures IssueFeatureRow(w, p.issue).state == Open && IssueFeatureRow(w, p.issue).kind == IssueFeature
  {
    var boxes := Parse(p.issue.body);
    if boxes == [] {
      assert Sync(db.tasks, |db.features|, boxes) == Outcome(db.tasks, 0, 0);
    }
  }

  /**
   * An edit of a tracked issue renames its feature (keeping the name when
   * the payload has no title), makes the body its description and merges
   * the body's checklist, even an empty one.
   */
  lemma IssueEditedFound(db: Records, w: WsId, p: IssuesPayload, f: nat)
    requires p.action == "edited" && GetFeature(db.features, IssueByNumber(w, p.issue.number)) == Found(f)
    ensures var r, d := IssuesOutcome(db, w, p), p.issue;
      && r.1 == Some(IssueReply(p))
      && r.0.features == db.features[f := db.features[f].(name := d.title.GetOr(db.features[f].name), description := d.body.GetOr(""))]
      && r.0.tasks == Sync(db.tasks, f, Parse(d.body)).tasks
  {
  }

  /**
   * Closing an issue closes its features and finishes every unfinished task
   * of them; no other feature or task changes.
   */
  lemma IssueClosed(db: Records, w: WsId, p: IssuesPayload)
    requires p.action == "closed"
    ensures var r := IssuesOutcome(db, w, p).0;
      var q := IssueByNumber(w, p.issue.number);
      && |r.features| == |db.features| && |r.tasks| == |db.tasks|
      && (forall i :: 0 <= i < |db.features| ==>
            r.features[i] == if Selects(q, db.features[i]) then db.features[i].(state := Closed) else db.features[i])
      && (forall i :: 0 <= i < |db.tasks| ==>
            r.tasks[i] == if OfIssue(db.features, db.tasks[i], w, p.issue.number) then db.tasks[i].(status := Done) else db.tasks[i])
  {
    var fs := SetState(db.features, IssueByNumber(w, p.issue.number), Closed);
    assert forall i :: 0 <= i < |db.tasks| ==>
      (OfIssue(fs, db.tasks[i], w, p.issue.number) <==> OfIssue(db.features, db.tasks[i], w, p.issue.number));
  }

  /** Reopening an issue reopens its features but leaves its finished tasks finished. */
  lemma IssueReopenedKeepsTasks(db: Records, w: WsId, p: IssuesPayload)
    requires p.action == "reopened"
    ensures IssuesOutcome(db, w, p).0 == db.(features := SetState(db.features, IssueByNumber(w, p.issue.number), Open))
  {
  }

  /** An edit of an issue no feature tracks changes nothing and says so. */
  lemma IssueEditedUnknown(db: Records, w: WsId, p: IssuesPayload)
    requires p.action == "edited"
    requires forall i :: 0 <= i < |db.features| ==> !Selects(IssueByNumber(w, p.issue.number), db.features[i])
    ensures IssuesOutcome(db, w, p) == (db, Some(IssueReply(p)["status" := JStr("feature_not_found")]))
  {
  }

  /** `handle_issues` on the store. */
  method HandleIssues(s: Store, w: WsId, p: IssuesPayload) returns (result: Option<map<string, Json>>)
    modifies s
    ensures (s.Contents(), result) == IssuesOutcome(old(s.Contents()), w, p)
  {
    var d := p.issue;
    result := Some(IssueReply(p));
    if p.action == "opened" {
      match GetFeature(s.features, ByGithubId(w, d.id)) {
        case Ambiguous =>
          return None;
        case Found(_) =>
        case Missing =>
          var f := |s.features|;
          s.features := s.features + [IssueFeatureRow(w, d)];
          var boxes := Parse(d.body);
          if boxes != [] {
            var created, updated := s.SyncTasks(f, boxes);
          }
      }
    } else if p.action == "edited" {
      match GetFeature(s.features, IssueByNumber(w, d.number)) {
        case Ambiguous =>
          return None;
        case Missing =>
          return Some(IssueReply(p)["status" := JStr("feature_not_found")]);
        case Found(f) =>
          var ft := s.features[f];
          s.features := s.features[f := ft.(name := d.title.GetOr(ft.name), description := d.body.GetOr(""))];
          var created, updated := s.SyncTasks(f, Parse(d.body));
      }
    } else if p.action == "closed" {
      s.features := SetState(s.features, IssueByNumber(w, d.number), Closed);
      s.tasks := FinishIssueTasks(s.tasks, s.features, w, d.number);
    } else if p.action == "reopened" {
      s.features := SetState(s.features, IssueByNumber(w, d.number), Open);
    }
  }
}

=== FILE: membership.dfy ===
/**
 * The member list of a workspace, as the workspace API manages it: the
 * workspaces a user may see, the creator joining on creation, and the
 * `join` and `leave` actions that append to and remove from the list in
 * place.
 */
module Membership {
  import opened Types
  import opened EntityStore

  // ------------------------------------------------------------ member lists

  /** `members.append(user)` behind the guard `user not in members`. */
  function Appended(members: seq<UserId>, user: UserId): (r: seq<UserId>)
    ensures user in r
    ensures forall u :: u in r <==> u in members || u == user
    ensures |members| <= |r| && r[..|members|] == members
  {
    if user in members then members else members + [user]
  }

  /** Index of the first occurrence of `user`, or `|members|`. */
  function FirstIndex(members: seq<UserId>, user: UserId): (i: nat)
    ensures i <= |members| && user !in members[..i]
    ensures i < |members| <==> user in members
    ensures i < |members| ==> members[i] == user
  {
    if members == [] then 0
    else if members[0] == user then 0
    else
      var i := FirstIndex(members[1..], user);
      assert members[1..][..i] == members[1..i + 1];
      1 + i
  }

  /** Python's `members.remove(user)` behind the guard `user in members`: the first occurrence goes. */
  function RemoveFirst(members: seq<UserId>, user: UserId): seq<UserId> {
    var i := FirstIndex(members, user);
    if i < |members| then members[..i] + members[i + 1..] else members
  }

  /** No user is listed twice. */
  predicate Distinct(members: seq<UserId>) {
    forall i, j :: 0 <= i < j < |members| ==> members[i] != members[j]
  }

  /** Appending a user that is not yet listed keeps a list free of repeats. */
  lemma AppendedDistinct(members: seq<UserId>, user: UserId)
    requires Distinct(members)
    ensures Distinct(Appended(members, user))
  {
    if user !in members {
      var r := members + [user];
      forall i, j | 0 <= i < j < |r| ensures r[i] != r[j] {
        if j == |members| {
          assert r[i] == members[i];
        }
      }
    }
  }

  /** Joining twice is joining once. */
  lemma AppendedIdempotent(members: seq<UserId>, user: UserId)
    ensures Appended(Appended(members, user), user) == Appended(members, user)
  {
  }

  /**
   * `remove` takes out exactly one occurrence of a listed user and keeps
   * everyone else, in order; an unlisted user leaves the list as it was.
   */
  lemma RemoveFirstSpec(members: seq<UserId>, user: UserId)
    ensures user !in members ==> RemoveFirst(members, user) == members
    ensures user in members ==>
      multiset(RemoveFirst(members, user)) == multiset(members) - multiset{user}
    ensures forall u :: u != user ==> (u in RemoveFirst(members, user) <==> u in members)
  {
    if user in members {
      var i := FirstIndex(members, user);
      assert members == members[..i] + [user] + members[i + 1..];
      assert multiset(members) == multiset(members[..i]) + multiset{user} + multiset(members[i + 1..]);
    }
  }

  /** In a list without repeats, the user is gone after leaving. */
  lemma RemoveFirstDistinct(members: seq<UserId>, user: UserId)
    requires Distinct(members)
    ensures user !in RemoveFirst(members, user)
  {
    var i := FirstIndex(members, user);
    if i < |members| {
      var r := RemoveFirst(members, user);
      forall k | 0 <= k < |r| ensures r[k] != user {
        if k >= i {
          assert r[k] == members[k + 1];
        }
      }
    }
  }

  /** Leaving undoes joining, for a user who was not a member before. */
  lemma RemoveFirstOfAppended(members: seq<UserId>, user: UserId)
    requires user !in members
    ensures RemoveFirst(Appended(members, user), user) == members
  {
    var r := members + [user];
    assert FirstIndex(r, user) == |members| by {
      assert r[..|members|] == members;
    }
  }

  // ------------------------------------------------------------ the queryset

  /** `get_queryset`: the workspaces whose member list holds `user`, in table order. */
  function Visible(ws: seq<Workspace>, user: UserId): (r: seq<WsId>)
    ensures forall w: WsId :: w in r <==> w < |ws| && user in ws[w].members
    ensures forall i :: 0 <= i < |r| ==> r[i] < |ws|
    ensures forall i, j :: 0 <= i < j < |r| ==> r[i] < r[j]
  {
    if ws == [] then []
    else
      var init := ws[..|ws| - 1];
      var r := Visible(init, user);
      assert forall w: WsId :: w < |init| ==> init[w] == ws[w];
      if user in ws[|ws| - 1].members then r + [|ws| - 1] else r
  }

  /** `get_object`: the workspace `pk`, looked up within the queryset; None is a 404. */
  function GetObject(ws: seq<Workspace>, pk: int, user: UserId): (r: Option<WsId>)
    ensures r.Some? <==> pk in Visible(ws, user)
    ensures r.Some? ==> r.value == pk
  {
    if 0 <= pk < |ws| && user in ws[pk].members then Some(pk) else None
  }

  /** DRF's answer when `get_object` finds nothing. */
  const NotFound := Response(404, map["detail" := JStr("Not found.")])

  // ------------------------------------------------------------ the actions

  /** The workspace table after `perform_create`: the creator is its only member. */
  function Created(ws: seq<Workspace>, name: string, owner: string, repo: string, token: string,
                   user: UserId): (r: seq<Workspace>)
    ensures |r| == |ws| + 1 && r[..|ws|] == ws
    ensures r[|ws|].members == [user] && r[|ws|].createdBy == user && r[|ws|].webhookId == ""
  {
    ws + [Workspace(name, owner, repo, token, "", user, [user])]
  }

  /** The creator sees the workspace they created. */
  lemma CreatorSeesCreated(ws: seq<Workspace>, name: string, owner: string, repo: string, token: string,
                           user: UserId)
    ensures |ws| in Visible(Created(ws, name, owner, repo, token, user), user)
  {
  }

  /**
   * The body of `join` once `get_object` has answered: a 404 when it found
   * nothing, otherwise the user is appended unless already listed.
   */
  function JoinBody(ws: seq<Workspace>, found: Option<WsId>, user: UserId): (seq<Workspace>, Response)
    requires found.Some? ==> found.value < |ws|
  {
    match found
    case None => (ws, NotFound)
    case Some(w) =>
      if user !in ws[w].members then (ws[w := ws[w].(members := ws[w].members + [user])], Ok(map["status" := JStr("joined")]))
      else (ws, Ok(map["status" := JStr("joined")]))
  }

  /**
   * `join` as written: `get_object` looks only among the workspaces the
   * user is already a member of.
   */
  function JoinAsWritten(ws: seq<Workspace>, pk: int, user: UserId): (seq<Workspace>, Response) {
    JoinBody(ws, GetObject(ws, pk, user), user)
  }

  /** The append in `join` can never run: no call adds a member. */
  lemma JoinAsWrittenNeverAdds(ws: seq<Workspace>, pk: int, user: UserId)
    ensures JoinAsWritten(ws, pk, user).0 == ws
    ensures JoinAsWritten(ws, pk, user).1.status == 200 <==> pk in Visible(ws, user)
  {
  }

  /** A user invited to workspace 0 and asking to join it is refused with a 404. */
  lemma JoinAsWrittenLocksOut()
    ensures var ws := [Workspace("team", "octo", "repo", "", "", 1, [1])];
      JoinAsWritten(ws, 0, 2) == (ws, NotFound) && 2 !in JoinAsWritten(ws, 0, 2).0[0].members
  {
    var ws := [Workspace("team", "octo", "repo", "", "", 1, [1])];
    assert 2 !in ws[0].members;
  }

  /** `join` as intended: the workspace is found by id alone and the user appended if absent. */
  function Joined(ws: seq<Workspace>, pk: int, user: UserId): (r: seq<Workspace>)
    ensures |r| == |ws|
    ensures 0 <= pk < |ws| ==> user in r[pk].members && pk in Visible(r, user)
    ensures forall w :: 0 <= w < |ws| && w != pk ==> r[w] == ws[w]
  {
    if 0 <= pk < |ws| then ws[pk := ws[pk].(members := Appended(ws[pk].members, user))] else ws
  }

  /** The workspace `pk` looked up among all workspaces: what `join` needs. */
  function FindById(ws: seq<Workspace>, pk: int): (r: Option<WsId>)
    ensures r.Some? <==> 0 <= pk < |ws|
    ensures r.Some? ==> r.value == pk
  {
    if 0 <= pk < |ws| then Some(pk) else None
  }

  /** The intended `join` is the same body run on the unfiltered lookup. */
  lemma JoinedIsJoinBody(ws: seq<Workspace>, pk: int, user: UserId)
    ensures JoinBody(ws, FindById(ws, pk), user).0 == Joined(ws, pk, user)
  {
  }

  /** Joining a second time changes nothing. */
  lemma JoinedIdempotent(ws: seq<Workspace>, pk: int, user: UserId)
    ensures Joined(Joined(ws, pk, user), pk, user) == Joined(ws, pk, user)
  {
    if 0 <= pk < |ws| {
      AppendedIdempotent(ws[pk].members, user);
    }
  }

  /** `leave`: a non-member gets a 404; a member's first listing is removed. */
  function Left(ws: seq<Workspace>, pk: int, user: UserId): (seq<Workspace>, Response) {
    match GetObject(ws, pk, user)
    case None => (ws, NotFound)
    case Some(w) =>
      (ws[w := ws[w].(members := RemoveFirst(ws[w].members, user))], Ok(map["status" := JStr("left")]))
  }

  /** Leaving only touches the member list of the workspace left. */
  lemma LeftFrame(ws: seq<Workspace>, pk: int, user: UserId)
    ensures var r := Left(ws, pk, user).0;
      |r| == |ws| && forall w :: 0 <= w < |ws| && (w != pk || user !in ws[w].members) ==> r[w] == ws[w]
  {
  }

  /** Leaving right after joining restores the workspace, when the user was not a member. */
  lemma LeaveUndoesJoin(ws: seq<Workspace>, pk: int, user: UserId)
    requires 0 <= pk < |ws| && user !in ws[pk].members
    ensures Left(Joined(ws, pk, user), pk, user).0 == ws
  {
    var m := ws[pk].members;
    var j := ws[pk := ws[pk].(members := m + [user])];
    assert Joined(ws, pk, user) == j;
    assert GetObject(j, pk, user) == Some(pk);
    RemoveFirstOfAppended(m, user);
    assert j[pk := j[pk].(members := m)] == ws;
  }

  // ------------------------------------------------------------ the view

  /** `perform_create`: the workspace is saved with no member, then its creator is appended. */
  method CreateWorkspace(s: Store, name: string, owner: string, repo: string, token: string, user: UserId)
    returns (id: WsId)
    modifies s
    ensures id == |old(s.workspaces)|
    ensures s.Contents() == old(s.Contents()).(workspaces := Created(old(s.workspaces), name, owner, repo, token, user))
  {
    s.workspaces := s.workspaces + [Workspace(name, owner, repo, token, "", user, [])];
    id := |s.workspaces| - 1;
    var w := s.workspaces[id];
    assert w.members + [user] == [user];
    s.workspaces := s.workspaces[id := w.(members := w.members + [user])];
    assert s.workspaces == Created(old(s.workspaces), name, owner, repo, token, user);
  }

  /** `join`, with the workspace looked up by id alone (see `JoinAsWritten` for the code as it stands). */
  method Join(s: Store, pk: int, user: UserId) returns (r: Response)
    modifies s
    ensures r == if 0 <= pk < |old(s.workspaces)| then Ok(map["status" := JStr("joined")]) else NotFound
    ensures s.Contents() == old(s.Contents()).(workspaces := Joined(old(s.workspaces), pk, user))
  {
    if !(0 <= pk < |s.workspaces|) {
      return NotFound;
    }
    var w := s.workspaces[pk];
    if user !in w.members {
      s.workspaces := s.workspaces[pk := w.(members := w.members + [user])];
    }
    r := Ok(map["status" := JStr("joined")]);
  }

  /** `leave`. */
  method Leave(s: Store, pk: int, user: UserId) returns (r: Response)
    modifies s
    ensures (s.workspaces, r) == Left(old(s.workspaces), pk, user)
    ensures s.Contents() == old(s.Contents()).(workspaces := s.workspaces)
  {
    if !(0 <= pk < |s.workspaces|) || user !in s.workspaces[pk].members {
      return NotFound;
    }
    var w := s.workspaces[pk];
    if user in w.members {
      s.workspaces := s.workspaces[pk := w.(members := RemoveFirst(w.members, user))];
    }
    r := Ok(map["status" := JStr("left")]);
  }
}

=== FILE: mirror.dfy ===
/**
 * Mirrored labels and milestones. They arrive with pull requests (labels
 * are upserted, a milestone is created only when it is new) and through
 * their own `label` and `milestone` events (upserted, or deleted).
 */
module Mirror {
  import opened Types
  import opened EntityStore

  datatype LabelData = LabelData(id: int, name: string, color: string, description: Option<string>)

  datatype MilestoneData = MilestoneData(
    id: int,
    number: int,
    title: string,
    description: Option<string>,
    state: string,
    dueOn: Option<Timestamp>,
    htmlUrl: string)

  /** The row `update_or_create` writes for a label, its description as sent (null included). */
  function LabelRow(d: LabelData): Label {
    Label(d.name, d.color, d.description)
  }

  /** The row a pull request's milestone creates: the description as sent. */
  function MilestoneRow(d: MilestoneData): Milestone {
    Milestone(d.number, d.title, d.description, d.state, d.dueOn, d.htmlUrl)
  }

  /** The row a `milestone` event writes: a null description becomes ''. */
  function MilestoneEventRow(d: MilestoneData): (r: Milestone)
    ensures r.description.Some?
    ensures r == MilestoneRow(d).(description := r.description)
  {
    MilestoneRow(d).(description := Some(d.description.GetOr("")))
  }

  // ------------------------------------------------ labels of a pull request

  /** The loop over a pull request's labels: each one upserted under (w, id), in order. */
  function UpsertLabels(labels: map<MirrorKey, Label>, w: WsId, ls: seq<LabelData>): map<MirrorKey, Label> {
    if ls == [] then labels
    else UpsertLabels(labels, w, ls[..|ls| - 1])[(w, ls[|ls| - 1].id) := LabelRow(ls[|ls| - 1])]
  }

  function LabelKeys(w: WsId, ls: seq<LabelData>): set<MirrorKey> {
    set i | 0 <= i < |ls| :: (w, ls[i].id)
  }

  /** `j` is the last position of a label with id `id`. */
  predicate LastWith(ls: seq<LabelData>, id: int, j: int) {
    0 <= j < |ls| && ls[j].id == id && forall k :: j < k < |ls| ==> ls[k].id != id
  }

  /** After the loop every listed label is stored and no other key appears. */
  lemma {:induction false} UpsertLabelsKeys(labels: map<MirrorKey, Label>, w: WsId, ls: seq<LabelData>)
    ensures UpsertLabels(labels, w, ls).Keys == labels.Keys + LabelKeys(w, ls)
  {
    if ls != [] {
      var init := ls[..|ls| - 1];
      UpsertLabelsKeys(labels, w, init);
      assert LabelKeys(w, ls) == LabelKeys(w, init) + {(w, ls[|ls| - 1].id)} by {
        forall k | k in LabelKeys(w, ls) ensures k in LabelKeys(w, init) + {(w, ls[|ls| - 1].id)} {
          var i :| 0 <= i < |ls| && k == (w, ls[i].id);
          if i < |init| {
            assert init[i] == ls[i];
          }
        }
        forall k | k in LabelKeys(w, init) ensures k in LabelKeys(w, ls) {
          var i :| 0 <= i < |init| && k == (w, init[i].id);
          assert ls[i] == init[i];
        }
      }
    }
  }

  /**
   * A label repeated in the list ends as its last occurrence says; a stored
   * label that is not listed keeps its row.
   */
  lemma {:induction false} UpsertLabelsRows(labels: map<MirrorKey, Label>, w: WsId, ls: seq<LabelData>)
    ensures forall k :: k in labels && k !in LabelKeys(w, ls) ==>
      k in UpsertLabels(labels, w, ls) && UpsertLabels(labels, w, ls)[k] == labels[k]
    ensures forall j :: 0 <= j < |ls| && LastWith(ls, ls[j].id, j) ==>
      (w, ls[j].id) in UpsertLabels(labels, w, ls) && UpsertLabels(labels, w, ls)[(w, ls[j].id)] == LabelRow(ls[j])
  {
    if ls != [] {
      var init := ls[..|ls| - 1];
      var last := ls[|ls| - 1];
      UpsertLabelsRows(labels, w, init);
      UpsertLabelsKeys(labels, w, init);
      forall k | k in labels && k !in LabelKeys(w, ls)
        ensures k in UpsertLabels(labels, w, ls) && UpsertLabels(labels, w, ls)[k] == labels[k]
      {
        assert k != (w, last.id) by {
          assert (w, ls[|ls| - 1].id) in LabelKeys(w, ls);
        }
      }
      forall j | 0 <= j < |ls| && LastWith(ls, ls[j].id, j)
        ensures (w, ls[j].id) in UpsertLabels(labels, w, ls) && UpsertLabels(labels, w, ls)[(w, ls[j].id)] == LabelRow(ls[j])
      {
        if j < |init| {
          assert LastWith(init, init[j].id, j);
        }
      }
    }
  }

  /** The label ids a pull request row records, in payload order. */
  function LabelIds(ls: seq<LabelData>): (r: seq<int>)
    ensures |r| == |ls| && forall i :: 0 <= i < |ls| ==> r[i] == ls[i].id
  {
    if ls == [] then [] else LabelIds(ls[..|ls| - 1]) + [ls[|ls| - 1].id]
  }

  /**
   * `get_or_create` of a pull request's milestone: a new milestone is
   * stored; a known one is left exactly as it was.
   */
  function GetOrCreateMilestone(ms: map<MirrorKey, Milestone>, w: WsId, d: MilestoneData): (r: map<MirrorKey, Milestone>)
    ensures r.Keys == ms.Keys + {(w, d.id)}
    ensures forall k :: k in ms ==> r[k] == ms[k]
    ensures (w, d.id) !in ms ==> r[(w, d.id)] == MilestoneRow(d)
  {
    if (w, d.id) in ms then ms else ms[(w, d.id) := MilestoneRow(d)]
  }

  // ------------------------------------------------------ label and milestone events

  datatype LabelPayload = LabelPayload(action: string, data: LabelData)

  /** The reply of `handle_label`. */
  function LabelReply(p: LabelPayload): map<string, Json> {
    map["label_id" := JInt(p.data.id), "action" := JStr(p.action)]
  }

  /** `handle_label`: "deleted" removes the label; any other action upserts it. */
  function LabelOutcome(db: Records, w: WsId, p: LabelPayload): (r: (Records, map<string, Json>))
    ensures r.0 == db.(labels := r.0.labels) && r.1 == LabelReply(p)
    ensures p.action == "deleted" ==> (w, p.data.id) !in r.0.labels
    ensures p.action != "deleted" ==> (w, p.data.id) in r.0.labels && r.0.labels[(w, p.data.id)] == LabelRow(p.data)
    ensures forall k :: k != (w, p.data.id) ==> (k in r.0.labels <==> k in db.labels)
    ensures forall k :: k != (w, p.data.id) && k in db.labels ==> r.0.labels[k] == db.labels[k]
  {
    var key := (w, p.data.id);
    if p.action == "deleted" then (db.(labels := db.labels - {key}), LabelReply(p))
    else (db.(labels := db.labels[key := LabelRow(p.data)]), LabelReply(p))
  }

  /** A redelivered label event changes nothing more. */
  lemma LabelEventIdempotent(db: Records, w: WsId, p: LabelPayload)
    ensures LabelOutcome(LabelOutcome(db, w, p).0, w, p) == LabelOutcome(db, w, p)
  {
    var key := (w, p.data.id);
    if p.action == "deleted" {
      assert db.labels - {key} - {key} == db.labels - {key};
    } else {
      assert db.labels[key := LabelRow(p.data)][key := LabelRow(p.data)] == db.labels[key := LabelRow(p.data)];
    }
  }

  /** A label deleted and then created again holds the new row, wherever it stood before. */
  lemma LabelRecreated(db: Records, w: WsId, gone: LabelData, back: LabelData)
    requires gone.id == back.id
    ensures var db1 := LabelOutcome(db, w, LabelPayload("deleted", gone)).0;
      LabelOutcome(db1, w, LabelPayload("created", back)).0 == db.(labels := db.labels[(w, back.id) := LabelRow(back)])
  {
    var db1 := LabelOutcome(db, w, LabelPayload("deleted", gone)).0;
    assert db1.labels[(w, back.id) := LabelRow(back)] == db.labels[(w, back.id) := LabelRow(back)];
  }

  datatype MilestonePayload = MilestonePayload(action: string, milestone: MilestoneData)

  function MilestoneReply(p: MilestonePayload): map<string, Json> {
    map["milestone_id" := JInt(p.milestone.id), "action" := JStr(p.action)]
  }

  /**
   * The pull requests once milestone `m` of workspace `w` is deleted: the
   * foreign key is `on_delete=SET_NULL`, so every link to it is cleared.
   */
  function Unlinked(pulls: map<MirrorKey, PullRequest>, w: WsId, m: int): map<MirrorKey, PullRequest> {
    map k | k in pulls :: if k.0 == w && pulls[k].milestone == Some(m) then pulls[k].(milestone := None) else pulls[k]
  }

  /**
   * `handle_milestone`: "deleted" removes the milestone, and the deletion
   * clears the milestone of the pull requests that linked it; any other
   * action upserts it, overwriting what a pull request may have created.
   */
  function MilestoneOutcome(db: Records, w: WsId, p: MilestonePayload): (r: (Records, map<string, Json>))
    ensures r.0 == db.(milestones := r.0.milestones, pulls := r.0.pulls) && r.1 == MilestoneReply(p)
    ensures p.action != "deleted" || (w, p.milestone.id) !in db.milestones ==> r.0.pulls == db.pulls
    ensures p.action == "deleted" && (w, p.milestone.id) in db.milestones ==>
      && r.0.pulls.Keys == db.pulls.Keys
      && forall k :: k in db.pulls ==>
           r.0.pulls[k] == if k.0 == w && db.pulls[k].milestone == Some(p.milestone.id)
                           then db.pulls[k].(milestone := None) else db.pulls[k]
    ensures p.action == "deleted" ==> (w, p.milestone.id) !in r.0.milestones
    ensures p.action != "deleted" ==>
      (w, p.milestone.id) in r.0.milestones && r.0.milestones[(w, p.milestone.id)] == MilestoneEventRow(p.milestone)
    ensures forall k :: k != (w, p.milestone.id) ==> (k in r.0.milestones <==> k in db.milestones)
    ensures forall k :: k != (w, p.milestone.id) && k in db.milestones ==> r.0.milestones[k] == db.milestones[k]
  {
    var key := (w, p.milestone.id);
    if p.action == "deleted" then
      var pulls := if key in db.milestones then Unlinked(db.pulls, w, p.milestone.id) else db.pulls;
      (db.(milestones := db.milestones - {key}, pulls := pulls), MilestoneReply(p))
    else (db.(milestones := db.milestones[key := MilestoneEventRow(p.milestone)]), MilestoneReply(p))
  }

  /**
   * A milestone first seen on a pull request keeps a null description, and
   * a later `milestone` event for it stores '' instead.
   */
  lemma MilestoneDescriptionPaths(db: Records, w: WsId, d: MilestoneData)
    requires (w, d.id) !in db.milestones && d.description.None?
    ensures GetOrCreateMilestone(db.milestones, w, d)[(w, d.id)].description == None
    ensures var db1 := db.(milestones := GetOrCreateMilestone(db.milestones, w, d));
      MilestoneOutcome(db1, w, MilestonePayload("edited", d)).0.milestones[(w, d.id)].description == Some("")
  {
  }

  /**
   * Once a milestone is deleted no pull request of the workspace links it,
   * and a milestone re-created with the same id is not linked again.
   */
  lemma MilestoneDeletionUnlinks(db: Records, w: WsId, gone: MilestoneData, back: MilestoneData)
    requires (w, gone.id) in db.milestones && back.id == gone.id
    ensures var db1 := MilestoneOutcome(db, w, MilestonePayload("deleted", gone)).0;
      var db2 := MilestoneOutcome(db1, w, MilestonePayload("created", back)).0;
      && (forall k :: k in db1.pulls && k.0 == w ==> db1.pulls[k].milestone != Some(gone.id))
      && db2.pulls == db1.pulls
      && (w, back.id) in db2.milestones
  {
  }

  // ---------------------------------------------------------------- methods

  /** The label loop of `handle_pull_request`. */
  method SyncLabels(s: Store, w: WsId, ls: seq<LabelData>) returns (ids: seq<int>)
    modifies s
    ensures s.Contents() == old(s.Contents()).(labels := UpsertLabels(old(s.labels), w, ls))
    ensures ids == LabelIds(ls)
  {
    ids := [];
    for i := 0 to |ls|
      invariant s.labels == UpsertLabels(old(s.labels), w, ls[..i]) && ids == LabelIds(ls[..i])
      invariant s.workspaces == old(s.workspaces) && s.features == old(s.features) && s.tasks == old(s.tasks)
      invariant s.commits == old(s.commits) && s.milestones == old(s.milestones) && s.pulls == old(s.pulls)
      invariant s.reviews == old(s.reviews) && s.comments == old(s.comments)
    {
      assert ls[..i + 1][..i] == ls[..i];
      s.labels := s.labels[(w, ls[i].id) := LabelRow(ls[i])];
      ids := ids + [ls[i].id];
    }
    assert ls[..|ls|] == ls;
  }

  method HandleLabel(s: Store, w: WsId, p: LabelPayload) returns (result: map<string, Json>)
    modifies s
    ensures (s.Contents(), result) == LabelOutcome(old(s.Contents()), w, p)
  {
    if p.action == "deleted" {
      s.labels := s.labels - {(w, p.data.id)};
    } else {
      s.labels := s.labels[(w, p.data.id) := LabelRow(p.data)];
    }
    result := LabelReply(p);
  }

  method HandleMilestone(s: Store, w: WsId, p: MilestonePayload) returns (result: map<string, Json>)
    modifies s
    ensures (s.Contents(), result) == MilestoneOutcome(old(s.Contents()), w, p)
  {
    if p.action == "deleted" {
      if (w, p.milestone.id) in s.milestones {
        s.pulls := Unlinked(s.pulls, w, p.milestone.id);
      }
      s.milestones := s.milestones - {(w, p.milestone.id)};
    } else {
      s.milestones := s.milestones[(w, p.milestone.id) := MilestoneEventRow(p.milestone)];
    }
    result := MilestoneReply(p);
  }
}

=== FILE: pulls.dfy ===
/**
 * The pull request events: `pull_request` (mirror the pull request with its
 * labels and milestone, then keep its feature in step with the action),
 * `pull_request_review`, `pull_request_review_comment` and `issue_comment`.
 * A handler that meets several rows where it expects one stops with an
 * uncaught error (reply `None`); what it wrote before stays written.
 */
module Pulls {
  import opened Types
  import opened Checkboxes
  import opened Reconcile
  import opened Inference
  import opened EntityStore
  import opened Hooks
  import opened Push
  import opened Mirror

  /** A pull request as the payload describes it; `title` is None when the key is absent. */
  datatype PullData = PullData(
    id: int,
    number: int,
    title: Option<string>,
    body: Option<string>,
    state: string,
    merged: bool,
    headSha: string,
    htmlUrl: string,
    labels: seq<LabelData>,
    milestone: Option<MilestoneData>,
    extra: Extra)

  datatype PullPayload = PullPayload(action: string, pull: PullData)

  /** The stored state: "merged" for a merged pull request, else the payload's state. */
  function PrState(d: PullData): string {
    if d.merged then "merged" else d.state
  }

  /** A closed or merged pull request makes a closed feature. */
  function FeatureStateOf(state: string): (r: FeatureState)
    ensures r == Closed <==> state == "closed" || state == "merged"
  {
    if state == "closed" || state == "merged" then Closed else Open
  }

  /** The pull request row `update_or_create` writes. */
  function PullRow(d: PullData): PullRequest {
    PullRequest(d.number, d.title.GetOr(""), d.body.GetOr(""), PrState(d), d.headSha, LabelIds(d.labels),
                if d.milestone.Some? then Some(d.milestone.value.id) else None, d.extra)
  }

  /** The feature an opened pull request creates when none has its id. */
  function PullFeature(w: WsId, d: PullData): Feature {
    Feature(w, d.title.GetOr(""), d.body.GetOr(""), PullRequestFeature, Some(d.number), Some(d.id), d.htmlUrl,
            FeatureStateOf(PrState(d)))
  }

  /** The checklist merged into the tasks of feature `f`. */
  function Synced(db: Records, f: FeatureId, boxes: seq<Checkbox>): Records {
    db.(tasks := Sync(db.tasks, f, boxes).tasks)
  }

  /** `if checkboxes: sync_tasks_from_checkboxes(...)`. */
  function SyncedIfAny(db: Records, f: FeatureId, boxes: seq<Checkbox>): Records {
    if boxes == [] then db else Synced(db, f, boxes)
  }

  /** What every `pull_request` delivery writes first: its labels, its milestone and its row. */
  function MirrorPull(db: Records, w: WsId, d: PullData): (r: Records)
    ensures r == db.(labels := r.labels, milestones := r.milestones, pulls := r.pulls)
    ensures r.labels == UpsertLabels(db.labels, w, d.labels)
    ensures r.pulls == db.pulls[(w, d.id) := PullRow(d)]
    ensures d.milestone.None? ==> r.milestones == db.milestones
    ensures d.milestone.Some? ==> r.milestones == GetOrCreateMilestone(db.milestones, w, d.milestone.value)
  {
    var milestones := if d.milestone.Some? then GetOrCreateMilestone(db.milestones, w, d.milestone.value) else db.milestones;
    db.(labels := UpsertLabels(db.labels, w, d.labels), milestones := milestones, pulls := db.pulls[(w, d.id) := PullRow(d)])
  }

  /**
   * A merged pull request completes the open tasks its title and body name,
   * recording the first 12 characters of its head sha.
   */
  function MergedCompletion(db: Records, w: WsId, d: PullData, e: Engine): (r: Records)
    ensures r == db.(tasks := r.tasks)
    ensures |r.tasks| == |db.tasks|
    ensures var open := OpenTitles(db.tasks, db.features, w);
      forall q :: 0 <= q < |db.tasks| ==>
        r.tasks[q] == if open != [] && OpenIn(db.features, db.tasks[q], w)
                         && db.tasks[q].title in AnalyzeCommits(e, [d.title.GetOr("") + "\n" + d.body.GetOr("")], open)
                      then db.tasks[q].(status := Done, completedByCommit := Prefix(d.headSha, 12))
                      else db.tasks[q]
  {
    MergedCompletionTasks(db, w, d, e);
    var open := OpenTitles(db.tasks, db.features, w);
    if open == [] then db
    else
      var titles := AnalyzeCommits(e, [d.title.GetOr("") + "\n" + d.body.GetOr("")], open);
      db.(tasks := CompleteAll(db.tasks, db.features, w, titles, Prefix(d.headSha, 12)).0)
  }

  /** The feature part of `handle_pull_request`; false where `get` meets several features. */
  function PullFeatures(db: Records, w: WsId, p: PullPayload, e: Engine): (r: (Records, bool))
    ensures r.0 == db.(features := r.0.features, tasks := r.0.tasks)
  {
    var d := p.pull;
    var q := ByGithubId(w, d.id);
    var body := d.body.GetOr("");
    if p.action == "opened" then
      match GetFeature(db.features, q)
      case Ambiguous => (db, false)
      case Found(f) => (SyncedIfAny(db, f, Parse(Some(body))), true)
      case Missing => (SyncedIfAny(db.(features := db.features + [PullFeature(w, d)]), |db.features|, Parse(Some(body))), true)
    else if p.action == "edited" then
      match GetFeature(db.features, q)
      case Ambiguous => (db, false)
      case Missing => (db, true)
      case Found(f) =>
        var ft := db.features[f];
        (Synced(db.(features := db.features[f := ft.(name := d.title.GetOr(ft.name), description := body)]), f, Parse(Some(body))), true)
    else if p.action == "closed" then
      var db1 := db.(features := SetState(db.features, q, Closed));
      (if d.merged then MergedCompletion(db1, w, d, e) else db1, true)
    else if p.action == "reopened" then
      (db.(features := SetState(db.features, q, Open)), true)
    else
      (db, true)
  }

  function PullReply(p: PullPayload): map<string, Json> {
    map["pr_number" := JInt(p.pull.number), "action" := JStr(p.action), "state" := JStr(PrState(p.pull))]
  }

  /** `handle_pull_request`. */
  function PullOutcome(db: Records, w: WsId, p: PullPayload, e: Engine): (r: (Records, Option<map<string, Json>>))
    ensures r.0.workspaces == db.workspaces && r.0.commits == db.commits
    ensures r.0.reviews == db.reviews && r.0.comments == db.comments
    ensures r.1.Some? ==> r.1.value == PullReply(p)
  {
    var (db2, ok) := PullFeatures(MirrorPull(db, w, p.pull), w, p, e);
    (db2, if ok then Some(PullReply(p)) else None)
  }

  /**
   * Whatever the action, and even when the handler then fails, the pull
   * request, its labels and its milestone are mirrored.
   */
  lemma PullAlwaysMirrored(db: Records, w: WsId, p: PullPayload, e: Engine)
    ensures var r := PullOutcome(db, w, p, e).0;
      && r.pulls == db.pulls[(w, p.pull.id) := PullRow(p.pull)]
      && r.labels == UpsertLabels(db.labels, w, p.pull.labels)
      && r.milestones == MirrorPull(db, w, p.pull).milestones
  {
  }

  /**
   * The handler fails exactly when an "opened" or "edited" delivery finds
   * several features of the workspace with the pull request's id.
   */
  lemma PullFailsOnDuplicates(db: Records, w: WsId, p: PullPayload, e: Engine)
    ensures PullOutcome(db, w, p, e).1.None? <==>
      (p.action == "opened" || p.action == "edited") && GetFeature(db.features, ByGithubId(w, p.pull.id)).Ambiguous?
  {
  }

  /**
   * An opened pull request without a feature gets a new one, last in the
   * table and in the pull request's state, and its checklist becomes that
   * feature's tasks.
   */
  lemma PullOpenedCreatesFeature(db: Records, w: WsId, p: PullPayload, e: Engine)
    requires p.action == "opened"
    requires forall i :: 0 <= i < |db.features| ==> !Selects(ByGithubId(w, p.pull.id), db.features[i])
    ensures var r := PullOutcome(db, w, p, e);
      && r.1 == Some(PullReply(p))
      && r.0.features == db.features + [PullFeature(w, p.pull)]
      && r.0.tasks == Sync(db.tasks, |db.features|, Parse(Some(p.pull.body.GetOr("")))).tasks
      && r.0.features[|db.features|].state == (if p.pull.merged || p.pull.state == "closed" || p.pull.state == "merged" then Closed else Open)
  {
    var boxes := Parse(Some(p.pull.body.GetOr("")));
    if boxes == [] {
      assert Sync(db.tasks, |db.features|, boxes) == Outcome(db.tasks, 0, 0);
    }
  }

  /**
   * A redelivered "opened" finds the pull request's feature, leaves it as it
   * is and merges the body's checklist into its tasks again.
   */
  lemma PullOpenedExisting(db: Records, w: WsId, p: PullPayload, e: Engine, f: nat)
    requires p.action == "opened" && GetFeature(db.features, ByGithubId(w, p.pull.id)) == Found(f)
    ensures var r := PullOutcome(db, w, p, e);
      && r.1 == Some(PullReply(p))
      && r.0.features == db.features
      && r.0.tasks == Sync(db.tasks, f, Parse(Some(p.pull.body.GetOr("")))).tasks
  {
    var boxes := Parse(Some(p.pull.body.GetOr("")));
    if boxes == [] {
      assert Sync(db.tasks, f, boxes) == Outcome(db.tasks, 0, 0);
    }
  }

  /**
   * An edit renames the pull request's feature (keeping its name when the
   * payload has no title), makes the body its description and merges the
   * body's checklist, even an empty one; with no feature, only the pull
   * request is mirrored.
   */
  lemma PullEdited(db: Records, w: WsId, p: PullPayload, e: Engine)
    requires p.action == "edited"
    ensures var r, d := PullOutcome(db, w, p, e), p.pull;
      match GetFeature(db.features, ByGithubId(w, d.id))
      case Ambiguous => r.1.None?
      case Missing => r == (MirrorPull(db, w, d), Some(PullReply(p)))
      case Found(f) =>
        var body := d.body.GetOr("");
        && r.1 == Some(PullReply(p))
        && r.0.features == db.features[f := db.features[f].(name := d.title.GetOr(db.features[f].name), description := body)]
        && r.0.tasks == Sync(db.tasks, f, Parse(Some(body))).tasks
  {
  }

  /**
   * Closing marks closed every feature of the workspace with the pull
   * request's id and nothing else; only a merge then completes tasks, and
   * only open ones of the workspace.
   */
  lemma PullClosed(db: Records, w: WsId, p: PullPayload, e: Engine)
    requires p.action == "closed"
    ensures var r := PullOutcome(db, w, p, e).0;
      && |r.features| == |db.features|
      && (forall i :: 0 <= i < |db.features| ==>
            r.features[i] == if Selects(ByGithubId(w, p.pull.id), db.features[i]) then db.features[i].(state := Closed) else db.features[i])
      && (!p.pull.merged ==> r.tasks == db.tasks)
      && |r.tasks| == |db.tasks|
      && var open := OpenTitles(db.tasks, db.features, w);
         forall q :: 0 <= q < |db.tasks| ==>
           r.tasks[q] == if p.pull.merged && open != [] && OpenIn(db.features, db.tasks[q], w)
                            && db.tasks[q].title in AnalyzeCommits(e, [p.pull.title.GetOr("") + "\n" + p.pull.body.GetOr("")], open)
                         then db.tasks[q].(status := Done, completedByCommit := Prefix(p.pull.headSha, 12))
                         else db.tasks[q]
  {
    var d, q := p.pull, ByGithubId(w, p.pull.id);
    var db1 := MirrorPull(db, w, d);
    var db2 := db1.(features := SetState(db1.features, q, Closed));
    assert PullOutcome(db, w, p, e).0 == if d.merged then MergedCompletion(db2, w, d, e) else db2;
    if d.merged {
      SetStateKeepsOpen(db.features, q, Closed, db.tasks, w);
      OpenTitlesSameOpen(db.tasks, db.features, db2.features, w);
    }
  }

  /**
   * The completion loop of a merge: with an open task in the workspace, the
   * open tasks whose title the inference step names are marked done with
   * the head sha's prefix, and no other task changes.
   */
  lemma {:induction false} MergedCompletionTasks(db: Records, w: WsId, d: PullData, e: Engine)
    ensures var open := OpenTitles(db.tasks, db.features, w);
      var r := if open == [] then db.tasks
               else CompleteAll(db.tasks, db.features, w, AnalyzeCommits(e, [d.title.GetOr("") + "\n" + d.body.GetOr("")], open), Prefix(d.headSha, 12)).0;
      && |r| == |db.tasks|
      && forall q :: 0 <= q < |db.tasks| ==>
           r[q] == if open != [] && OpenIn(db.features, db.tasks[q], w)
                      && db.tasks[q].title in AnalyzeCommits(e, [d.title.GetOr("") + "\n" + d.body.GetOr("")], open)
                   then db.tasks[q].(status := Done, completedByCommit := Prefix(d.headSha, 12))
                   else db.tasks[q]
  {
    var open := OpenTitles(db.tasks, db.features, w);
    if open != [] {
      var titles := AnalyzeCommits(e, [d.title.GetOr("") + "\n" + d.body.GetOr("")], open);
      CompleteAllTasks(db.tasks, db.features, w, titles, Prefix(d.headSha, 12));
    }
  }

  /** Setting feature states moves no task out of its workspace and changes no task's status. */
  lemma {:induction false} SetStateKeepsOpen(fs: seq<Feature>, q: FeatureQuery, st: FeatureState, ts: seq<Task>, w: WsId)
    ensures forall i :: 0 <= i < |ts| ==> (OpenIn(SetState(fs, q, st), ts[i], w) <==> OpenIn(fs, ts[i], w))
  {
  }

  /** Reopening marks open every feature of the workspace with the pull request's id, and changes no task. */
  lemma PullReopened(db: Records, w: WsId, p: PullPayload, e: Engine)
    requires p.action == "reopened"
    ensures var r := PullOutcome(db, w, p, e).0;
      && r.features == SetState(db.features, ByGithubId(w, p.pull.id), Open)
      && r.tasks == db.tasks
  {
  }

  /**
   * Any other action ("synchronize", "labeled", "assigned", ...) only
   * mirrors the pull request: features and tasks stay as they were.
   */
  lemma PullOtherAction(db: Records, w: WsId, p: PullPayload, e: Engine)
    requires p.action !in {"opened", "edited", "closed", "reopened"}
    ensures PullOutcome(db, w, p, e) == (MirrorPull(db, w, p.pull), Some(PullReply(p)))
    ensures PullOutcome(db, w, p, e).0.features == db.features && PullOutcome(db, w, p, e).0.tasks == db.tasks
  {
  }

  // ----------------------------------------------------------------- reviews

  /** ASCII lower-casing; the review state keys are all ASCII letters and '_'. */
  function Lower(s: string): (r: string)
    ensures |r| == |s|
    ensures forall i :: 0 <= i < |s| ==> r[i] == if 'A' <= s[i] <= 'Z' then (s[i] - 'A' + 'a') as char else s[i]
  {
    if s == [] then [] else [if 'A' <= s[0] <= 'Z' then (s[0] - 'A' + 'a') as char else s[0]] + Lower(s[1..])
  }

  /** `state_map.get(state.lower(), PENDING)`. */
  function ReviewStateOf(state: string): (r: ReviewState)
    ensures r != Pending ==> Lower(state) == ReviewStateValue(r)
  {
    match Lower(state)
    case "approved" => Approved
    case "changes_requested" => ChangesRequested
    case "commented" => Commented
    case "dismissed" => Dismissed
    case _ => Pending
  }

  /** `up` is `low` with any of its letters in upper case. */
  predicate SameLetters(up: string, low: string) {
    |up| == |low| && forall i :: 0 <= i < |up| ==>
      up[i] == low[i] || ('a' <= low[i] <= 'z' && up[i] == (low[i] - 'a' + 'A') as char)
  }

  /** Lower-casing a word of lower-case letters, digits and '_', written in any case, gives the word back. */
  lemma LowerOfSameLetters(up: string, low: string)
    requires SameLetters(up, low)
    requires forall i :: 0 <= i < |low| ==> !('A' <= low[i] <= 'Z')
    ensures Lower(up) == low
  {
    assert forall i :: 0 <= i < |up| ==> Lower(up)[i] == low[i];
  }

  /** Each stored state value, written in any letter case (GitHub sends "APPROVED"), reads back as that state. */
  lemma ReviewStateAnyCase(st: ReviewState, s: string)
    requires SameLetters(s, ReviewStateValue(st))
    ensures ReviewStateOf(s) == st
  {
    LowerOfSameLetters(s, ReviewStateValue(st));
  }

  datatype ReviewData = ReviewData(id: int, state: string, body: Option<string>, extra: Extra)

  /** A review and the github id of its pull request. */
  datatype ReviewPayload = ReviewPayload(pullId: int, review: ReviewData)

  function PrNotFound(): map<string, Json> {
    map["status" := JStr("pr_not_found")]
  }

  /** `handle_pull_request_review`: upsert the review of a known pull request. */
  function ReviewOutcome(db: Records, w: WsId, p: ReviewPayload): (r: (Records, map<string, Json>))
    ensures r.0 == db.(reviews := r.0.reviews)
    ensures (w, p.pullId) !in db.pulls ==> r == (db, PrNotFound())
    ensures (w, p.pullId) in db.pulls ==>
      && ((w, p.pullId), p.review.id) in r.0.reviews && "state" in r.1
      && r.0.reviews == db.reviews[((w, p.pullId), p.review.id) := r.0.reviews[((w, p.pullId), p.review.id)]]
      && r.0.reviews[((w, p.pullId), p.review.id)].state == ReviewStateOf(p.review.state)
      && r.1["state"] == JStr(ReviewStateValue(ReviewStateOf(p.review.state)))
    ensures (w, p.pullId) in db.pulls ==>
      && r.0.reviews[((w, p.pullId), p.review.id)].body == p.review.body.GetOr("")
      && r.0.reviews[((w, p.pullId), p.review.id)].extra == p.review.extra
      && r.1 == map["review_id" := JInt(p.review.id), "state" := r.1["state"]]
  {
    var pr := (w, p.pullId);
    if pr !in db.pulls then (db, PrNotFound())
    else
      var st := ReviewStateOf(p.review.state);
      (db.(reviews := db.reviews[(pr, p.review.id) := Review(st, p.review.body.GetOr(""), p.review.extra)]),
       map["review_id" := JInt(p.review.id), "state" := JStr(ReviewStateValue(st))])
  }

  /** A redelivered review changes nothing more. */
  lemma ReviewIdempotent(db: Records, w: WsId, p: ReviewPayload)
    ensures ReviewOutcome(ReviewOutcome(db, w, p).0, w, p) == ReviewOutcome(db, w, p)
  {
    var key := ((w, p.pullId), p.review.id);
    if (w, p.pullId) in db.pulls {
      var row := Review(ReviewStateOf(p.review.state), p.review.body.GetOr(""), p.review.extra);
      assert db.reviews[key := row][key := row] == db.reviews[key := row];
    }
  }

  // ---------------------------------------------------------------- comments

  /** A comment; `reviewId` is `pull_request_review_id`, None when null or absent. */
  datatype CommentData = CommentData(id: int, reviewId: Option<int>, body: string, extra: Extra)

  datatype ReviewCommentPayload = ReviewCommentPayload(action: string, pullId: int, comment: CommentData)

  /** The review a review comment links to: a non-zero id of a stored review of the same pull request. */
  function LinkedReview(reviews: map<ReviewKey, Review>, pr: MirrorKey, reviewId: Option<int>): (r: Option<int>)
    ensures r.Some? <==> reviewId.Some? && reviewId.value != 0 && (pr, reviewId.value) in reviews
    ensures r.Some? ==> r == reviewId
  {
    if reviewId.Some? && reviewId.value != 0 && (pr, reviewId.value) in reviews then reviewId else None
  }

  function CommentReply(id: int, action: string): map<string, Json> {
    map["comment_id" := JInt(id), "action" := JStr(action)]
  }

  /** `handle_pull_request_review_comment`: delete, or upsert with the linked review. */
  function ReviewCommentOutcome(db: Records, w: WsId, p: ReviewCommentPayload): (r: (Records, map<string, Json>))
    ensures r.0 == db.(comments := r.0.comments)
    ensures (w, p.pullId) !in db.pulls ==> r == (db, PrNotFound())
    ensures forall k :: k != ((w, p.pullId), p.comment.id, ReviewComment) ==>
      (k in r.0.comments <==> k in db.comments) && (k in db.comments ==> r.0.comments[k] == db.comments[k])
    ensures var key := ((w, p.pullId), p.comment.id, ReviewComment);
      (w, p.pullId) in db.pulls && p.action == "deleted" ==>
        key !in r.0.comments && r.1 == CommentReply(p.comment.id, "deleted")
    ensures var pr := (w, p.pullId);
      pr in db.pulls && p.action != "deleted" ==>
        && (pr, p.comment.id, ReviewComment) in r.0.comments
        && r.0.comments[(pr, p.comment.id, ReviewComment)]
           == Comment(LinkedReview(db.reviews, pr, p.comment.reviewId), p.comment.body, p.comment.extra)
        && r.1 == CommentReply(p.comment.id, p.action)
  {
    var pr := (w, p.pullId);
    var key := (pr, p.comment.id, ReviewComment);
    if pr !in db.pulls then (db, PrNotFound())
    else if p.action == "deleted" then (db.(comments := db.comments - {key}), CommentReply(p.comment.id, "deleted"))
    else
      var row := Comment(LinkedReview(db.reviews, pr, p.comment.reviewId), p.comment.body, p.comment.extra);
      (db.(comments := db.comments[key := row]), CommentReply(p.comment.id, p.action))
  }

  /**
   * Review and issue comments live apart: deleting a review comment keeps
   * the issue comment with the same id, and upserting one links only a
   * review the store holds.
   */
  lemma ReviewCommentKinds(db: Records, w: WsId, p: ReviewCommentPayload)
    requires (w, p.pullId) in db.pulls
    ensures var key := ((w, p.pullId), p.comment.id, IssueComment);
      key in db.comments ==> key in ReviewCommentOutcome(db, w, p).0.comments
    ensures var key := ((w, p.pullId), p.comment.id, ReviewComment);
      p.action != "deleted" ==>
        key in ReviewCommentOutcome(db, w, p).0.comments
        && var link := ReviewCommentOutcome(db, w, p).0.comments[key].review;
           link.Some? ==> ((w, p.pullId), link.value) in db.reviews
  {
  }

  /** An issue comment: `onPull` says whether the issue is a pull request. */
  datatype IssueCommentPayload = IssueCommentPayload(action: string, onPull: bool, number: int, comment: CommentData)

  /** The keys of the workspace's pull requests numbered `n`. */
  function Numbered(pulls: map<MirrorKey, PullRequest>, w: WsId, n: int): set<MirrorKey> {
    set k | k in pulls && k.0 == w && pulls[k].number == n
  }

  /** The element of a one-element set. */
  function Only(ks: set<MirrorKey>): (k: MirrorKey)
    requires |ks| == 1
    ensures ks == {k}
  {
    OnlyUnique(ks);
    var k :| k in ks;
    k
  }

  lemma OnlyUnique(ks: set<MirrorKey>)
    requires |ks| == 1
    ensures forall a, b :: a in ks && b in ks ==> a == b
  {
    var a :| a in ks;
    var rest := ks - {a};
    assert |rest| == 0;
    assert forall b :: b in ks ==> b == a || b in rest;
  }

  /**
   * `handle_issue_comment`: only comments on pull requests are kept; the
   * pull request is found by number, and several with that number fail.
   * An upsert leaves the review link of an existing comment as it is.
   */
  function IssueCommentOutcome(db: Records, w: WsId, p: IssueCommentPayload): (r: (Records, Option<map<string, Json>>))
    ensures r.0 == db.(comments := r.0.comments)
    ensures !p.onPull ==> r == (db, Some(map["status" := JStr("ignored_issue_comment")]))
    ensures r.1.None? <==> p.onPull && |Numbered(db.pulls, w, p.number)| > 1
    ensures p.onPull && |Numbered(db.pulls, w, p.number)| == 0 ==> r == (db, Some(PrNotFound()))
    ensures p.onPull && |Numbered(db.pulls, w, p.number)| == 1 && p.action == "deleted" ==>
      var key := (Only(Numbered(db.pulls, w, p.number)), p.comment.id, IssueComment);
      r == (db.(comments := db.comments - {key}), Some(CommentReply(p.comment.id, "deleted")))
    ensures p.onPull && |Numbered(db.pulls, w, p.number)| == 1 && p.action != "deleted" ==>
      var key := (Only(Numbered(db.pulls, w, p.number)), p.comment.id, IssueComment);
      && r.1 == Some(CommentReply(p.comment.id, p.action))
      && key in r.0.comments
      && r.0.comments == db.comments[key := r.0.comments[key]]
      && r.0.comments[key].body == p.comment.body && r.0.comments[key].extra == p.comment.extra
      && r.0.comments[key].review == (if key in db.comments then db.comments[key].review else None)
  {
    if !p.onPull then (db, Some(map["status" := JStr("ignored_issue_comment")]))
    else
      var ks := Numbered(db.pulls, w, p.number);
      if |ks| == 0 then (db, Some(PrNotFound()))
      else if |ks| > 1 then (db, None)
      else
        var key := (Only(ks), p.comment.id, IssueComment);
        if p.action == "deleted" then (db.(comments := db.comments - {key}), Some(CommentReply(p.comment.id, "deleted")))
        else
          var review := if key in db.comments then db.comments[key].review else None;
          (db.(comments := db.comments[key := Comment(review, p.comment.body, p.comment.extra)]), Some(CommentReply(p.comment.id, p.action)))
  }

  /**
   * A comment on the one pull request with that number is stored under it
   * as an issue comment, keeping any review link it had.
   */
  lemma IssueCommentStored(db: Records, w: WsId, p: IssueCommentPayload, k: MirrorKey)
    requires p.onPull && p.action != "deleted"
    requires Numbered(db.pulls, w, p.number) == {k}
    ensures var key := (k, p.comment.id, IssueComment);
      var r := IssueCommentOutcome(db, w, p).0;
      && k in db.pulls && k.0 == w && db.pulls[k].number == p.number
      && key in r.comments && r.comments[key].body == p.comment.body
      && (key in db.comments ==> r.comments[key].review == db.comments[key].review)
      && (key !in db.comments ==> r.comments[key].review == None)
  {
    assert k in Numbered(db.pulls, w, p.number);
  }

  // ---------------------------------------------------------------- methods

  /** `handle_pull_request` on the store. */
  method HandlePullRequest(s: Store, w: WsId, p: PullPayload, e: Engine) returns (result: Option<map<string, Json>>)
    modifies s
    ensures (s.Contents(), result) == PullOutcome(old(s.Contents()), w, p, e)
  {
    var d := p.pull;
    var ids := SyncLabels(s, w, d.labels);
    if d.milestone.Some? {
      s.milestones := GetOrCreateMilestone(s.milestones, w, d.milestone.value);
    }
    s.pulls := s.pulls[(w, d.id) := PullRow(d)];
    assert s.Contents() == MirrorPull(old(s.Contents()), w, d);
    var ok := UpdatePullFeatures(s, w, p, e);
    result := if ok then Some(PullReply(p)) else None;
  }

  /** The feature part of `handle_pull_request`. */
  method UpdatePullFeatures(s: Store, w: WsId, p: PullPayload, e: Engine) returns (ok: bool)
    modifies s
    ensures (s.Contents(), ok) == PullFeatures(old(s.Contents()), w, p, e)
  {
    var d := p.pull;
    var q := ByGithubId(w, d.id);
    var body := d.body.GetOr("");
    ok := true;
    if p.action == "opened" {
      var f: FeatureId;
      match GetFeature(s.features, q) {
        case Ambiguous =>
          return false;
        case Found(at) =>
          f := at;
        case Missing =>
          f := |s.features|;
          s.features := s.features + [PullFeature(w, d)];
      }
      var boxes := Parse(Some(body));
      if boxes != [] {
        var created, updated := s.SyncTasks(f, boxes);
      }
    } else if p.action == "edited" {
      match GetFeature(s.features, q) {
        case Ambiguous =>
          return false;
        case Missing =>
        case Found(f) =>
          var ft := s.features[f];
          s.features := s.features[f := ft.(name := d.title.GetOr(ft.name), description := body)];
          var created, updated := s.SyncTasks(f, Parse(Some(body)));
      }
    } else if p.action == "closed" {
      s.features := SetState(s.features, q, Closed);
      if d.merged {
        var open := OpenTitles(s.tasks, s.features, w);
        if open != [] {
          var titles := AnalyzeCommits(e, [d.title.GetOr("") + "\n" + d.body.GetOr("")], open);
          var marked := CompleteTitles(s, w, titles, Prefix(d.headSha, 12));
        }
      }
    } else if p.action == "reopened" {
      s.features := SetState(s.features, q, Open);
    }
  }

  method HandleReview(s: Store, w: WsId, p: ReviewPayload) returns (result: map<string, Json>)
    modifies s
    ensures (s.Contents(), result) == ReviewOutcome(old(s.Contents()), w, p)
  {
    if (w, p.pullId) !in s.pulls {
      return PrNotFound();
    }
    var st := ReviewStateOf(p.review.state);
    s.reviews := s.reviews[((w, p.pullId), p.review.id) := Review(st, p.review.body.GetOr(""), p.review.extra)];
    result := map["review_id" := JInt(p.review.id), "state" := JStr(ReviewStateValue(st))];
  }

  method HandleReviewComment(s: Store, w: WsId, p: ReviewCommentPayload) returns (result: map<string, Json>)
    modifies s
    ensures (s.Contents(), result) == ReviewCommentOutcome(old(s.Contents()), w, p)
  {
    var pr := (w, p.pullId);
    if pr !in s.pulls {
      return PrNotFound();
    }
    var key := (pr, p.comment.id, ReviewComment);
    if p.action == "deleted" {
      s.comments := s.comments - {key};
      return CommentReply(p.comment.id, "deleted");
    }
    var review := LinkedReview(s.reviews, pr, p.comment.reviewId);
    s.comments := s.comments[key := Comment(review, p.comment.body, p.comment.extra)];
    result := CommentReply(p.comment.id, p.action);
  }

  method HandleIssueComment(s: Store, w: WsId, p: IssueCommentPayload) returns (result: Option<map<string, Json>>)
    modifies s
    ensures (s.Contents(), result) == IssueCommentOutcome(old(s.Contents()), w, p)
  {
    if !p.onPull {
      return Some(map["status" := JStr("ignored_issue_comment")]);
    }
    var ks := Numbered(s.pulls, w, p.number);
    if |ks| == 0 {
      return Some(PrNotFound());
    }
    if |ks| > 1 {
      return None;
    }
    var key := (Only(ks), p.comment.id, IssueComment);
    if p.action == "deleted" {
      s.comments := s.comments - {key};
      return Some(CommentReply(p.comment.id, "deleted"));
    }
    var review := if key in s.comments then s.comments[key].review else None;
    s.comments := s.comments[key := Comment(review, p.comment.body, p.comment.extra)];
    result := Some(CommentReply(p.comment.id, p.action));
  }
}

=== FILE: push.dfy ===
/**
 * The `push` event: every commit with an id is mirrored once, and the
 * inference step decides which open task titles the pushed messages
 * complete; each such title marks its open tasks done, recording the
 * first pushed commit.
 */
module Push {
  import opened Types
  import opened Text
  import opened Inference
  import opened EntityStore
  import opened Hooks

  /** A pushed commit: its sha ('' when absent), message, and the cosmetic fields. */
  datatype CommitData = CommitData(id: string, message: string, extra: Extra)

  datatype PushPayload = PushPayload(ref: string, commits: seq<CommitData>)

  /** The branch name: the ref with every "refs/heads/" removed. */
  function Branch(ref: string): (r: string)
    ensures |r| <= |ref|
  {
    RemoveAll(ref, "refs/heads/")
  }

  /** A ref that is "refs/heads/" followed by a name holding no "refs/heads/" gives that name. */
  lemma BranchOfHead(name: string)
    requires forall i :: !OccursAt(name, "refs/heads/", i)
    ensures Branch("refs/heads/" + name) == name
  {
    var ref := "refs/heads/" + name;
    assert ref[..11] == "refs/heads/" && ref[11..] == name;
    PlainRemoveAll(name, "refs/heads/");
  }

  /** A string without an occurrence of `p` is left as it is by removing `p`. */
  lemma {:induction false} PlainRemoveAll(s: string, p: string)
    requires p != []
    requires forall i :: !OccursAt(s, p, i)
    ensures RemoveAll(s, p) == s
    decreases |s|
  {
    if |s| >= |p| {
      assert !OccursAt(s, p, 0);
      forall i ensures !OccursAt(s[1..], p, i) {
        if OccursAt(s[1..], p, i) {
          assert s[1..][i..i + |p|] == s[i + 1..i + 1 + |p|];
          assert OccursAt(s, p, i + 1);
        }
      }
      PlainRemoveAll(s[1..], p);
    }
  }

  /** The default branch is named after the ref. */
  lemma BranchOfMaster()
    ensures Branch("refs/heads/master") == "master"
  {
    forall i ensures !OccursAt("master", "refs/heads/", i) {
    }
    BranchOfHead("master");
  }

  /** Every commit's message, the id-less ones included. */
  function Messages(cs: seq<CommitData>): (r: seq<string>)
    ensures |r| == |cs| && forall i :: 0 <= i < |cs| ==> r[i] == cs[i].message
  {
    if cs == [] then [] else Messages(cs[..|cs| - 1]) + [cs[|cs| - 1].message]
  }

  // --------------------------------------------------------------- commits

  /**
   * The commits table after `get_or_create(sha=...)` for each commit with an
   * id, in order, and the number of rows created.
   */
  function StoreCommits(stored: map<string, Commit>, w: WsId, branch: string, cs: seq<CommitData>): (r: (map<string, Commit>, nat))
    ensures r.1 <= |cs|
  {
    if cs == [] then (stored, 0)
    else
      var (m, n) := StoreCommits(stored, w, branch, cs[..|cs| - 1]);
      var c := cs[|cs| - 1];
      if c.id == "" || c.id in m then (m, n) else (m[c.id := Commit(w, c.message, branch, c.extra)], n + 1)
  }

  /** The shas of the commits that have one. */
  function Shas(cs: seq<CommitData>): set<string> {
    set i | 0 <= i < |cs| && cs[i].id != "" :: cs[i].id
  }

  /** The first position of a commit with id `sha`. */
  predicate FirstWith(cs: seq<CommitData>, sha: string, i: int) {
    0 <= i < |cs| && cs[i].id == sha && forall j :: 0 <= j < i ==> cs[j].id != sha
  }

  /** One more commit: its sha joins the stored ones when it has one. */
  lemma ShasSnoc(cs: seq<CommitData>, c: CommitData)
    ensures Shas(cs + [c]) == Shas(cs) + (if c.id == "" then {} else {c.id})
  {
    var all := cs + [c];
    forall sha | sha in Shas(all) ensures sha in Shas(cs) + (if c.id == "" then {} else {c.id}) {
      var i :| 0 <= i < |all| && all[i].id != "" && all[i].id == sha;
      if i < |cs| {
        assert sha in Shas(cs);
      }
    }
    forall sha | sha in Shas(cs) ensures sha in Shas(all) {
      var i :| 0 <= i < |cs| && cs[i].id != "" && cs[i].id == sha;
      assert all[i] == cs[i];
    }
    if c.id != "" {
      assert all[|cs|] == c;
    }
  }

  /** Mirroring commits never rewrites a stored one, and afterwards every pushed sha is stored. */
  lemma {:induction false} StoreCommitsKeys(stored: map<string, Commit>, w: WsId, branch: string, cs: seq<CommitData>)
    ensures forall sha :: sha in stored ==>
      sha in StoreCommits(stored, w, branch, cs).0 && StoreCommits(stored, w, branch, cs).0[sha] == stored[sha]
    ensures StoreCommits(stored, w, branch, cs).0.Keys == stored.Keys + Shas(cs)
  {
    if cs != [] {
      var init := cs[..|cs| - 1];
      var c := cs[|cs| - 1];
      assert cs == init + [c];
      StoreCommitsKeys(stored, w, branch, init);
      ShasSnoc(init, c);
    }
  }

  /** The reported count is the number of rows the push created. */
  lemma {:induction false} StoreCommitsCount(stored: map<string, Commit>, w: WsId, branch: string, cs: seq<CommitData>)
    ensures StoreCommits(stored, w, branch, cs).1 == |StoreCommits(stored, w, branch, cs).0.Keys - stored.Keys|
  {
    if cs != [] {
      var init := cs[..|cs| - 1];
      var c := cs[|cs| - 1];
      StoreCommitsCount(stored, w, branch, init);
      StoreCommitsKeys(stored, w, branch, init);
      var m := StoreCommits(stored, w, branch, init).0;
      if c.id != "" && c.id !in m {
        NewKey(m, stored.Keys, c.id, Commit(w, c.message, branch, c.extra));
      }
    }
  }

  /** Adding a key not yet present adds one key to those beyond `before`. */
  lemma NewKey<V>(m: map<string, V>, before: set<string>, k: string, v: V)
    requires k !in m && before <= m.Keys
    ensures |m[k := v].Keys - before| == |m.Keys - before| + 1
  {
    assert m[k := v].Keys - before == (m.Keys - before) + {k};
  }

  /** A row the push creates holds the first pushed commit with that sha. */
  lemma {:induction false} StoreCommitsRows(stored: map<string, Commit>, w: WsId, branch: string, cs: seq<CommitData>)
    ensures var m := StoreCommits(stored, w, branch, cs).0;
      forall sha :: sha in m && sha !in stored ==>
        exists i :: FirstWith(cs, sha, i) && m[sha] == Commit(w, cs[i].message, branch, cs[i].extra)
  {
    if cs != [] {
      var init := cs[..|cs| - 1];
      var c := cs[|cs| - 1];
      StoreCommitsRows(stored, w, branch, init);
      StoreCommitsKeys(stored, w, branch, init);
      var m := StoreCommits(stored, w, branch, init).0;
      forall sha | sha in m && sha !in stored
        ensures exists i :: FirstWith(cs, sha, i) && m[sha] == Commit(w, cs[i].message, branch, cs[i].extra)
      {
        var i :| FirstWith(init, sha, i) && m[sha] == Commit(w, init[i].message, branch, init[i].extra);
        assert FirstWith(cs, sha, i);
      }
      if c.id != "" && c.id !in m {
        forall j | 0 <= j < |init| && init[j].id != "" ensures init[j].id in Shas(init) {
        }
        assert FirstWith(cs, c.id, |init|);
      }
    }
  }

  /** Commits whose shas are all stored create nothing and change nothing. */
  lemma {:induction false} StoreCommitsKnown(stored: map<string, Commit>, w: WsId, branch: string, cs: seq<CommitData>)
    requires Shas(cs) <= stored.Keys
    ensures StoreCommits(stored, w, branch, cs) == (stored, 0)
  {
    if cs != [] {
      var init := cs[..|cs| - 1];
      assert Shas(init) <= Shas(cs) by {
        forall sha | sha in Shas(init) ensures sha in Shas(cs) {
          var i :| 0 <= i < |init| && init[i].id != "" && init[i].id == sha;
          assert cs[i] == init[i];
        }
      }
      StoreCommitsKnown(stored, w, branch, init);
      assert cs[|cs| - 1].id != "" ==> cs[|cs| - 1].id in Shas(cs);
    }
  }

  // ------------------------------------------------------------ completion

  /**
   * The loop over the inferred titles: each title's bulk update in turn,
   * and the titles whose update changed a row, in order.
   */
  function CompleteAll(ts: seq<Task>, fs: seq<Feature>, w: WsId, titles: seq<string>, sha: string): (r: (seq<Task>, seq<string>))
  {
    if titles == [] then (ts, [])
    else
      var (ts', marked) := CompleteAll(ts, fs, w, titles[..|titles| - 1], sha);
      var t := titles[|titles| - 1];
      (CompleteTitle(ts', fs, w, t, sha), if CountCompletable(ts', fs, w, t) > 0 then marked + [t] else marked)
  }

  /** One more title of the list: its bulk update on what the earlier ones left. */
  lemma CompleteAllStep(ts: seq<Task>, fs: seq<Feature>, w: WsId, titles: seq<string>, j: nat, sha: string)
    requires j < |titles|
    ensures var (ts', marked) := CompleteAll(ts, fs, w, titles[..j], sha);
      CompleteAll(ts, fs, w, titles[..j + 1], sha)
        == (CompleteTitle(ts', fs, w, titles[j], sha), if CountCompletable(ts', fs, w, titles[j]) > 0 then marked + [titles[j]] else marked)
  {
    assert titles[..j + 1][..j] == titles[..j];
  }

  predicate Distinct(xs: seq<string>) {
    forall i, j :: 0 <= i < j < |xs| ==> xs[i] != xs[j]
  }

  /**
   * Completing a list of titles marks done, with `sha`, exactly the open
   * tasks whose title is listed, and leaves every other task as it was.
   */
  lemma {:induction false} CompleteAllTasks(ts: seq<Task>, fs: seq<Feature>, w: WsId, titles: seq<string>, sha: string)
    ensures var r := CompleteAll(ts, fs, w, titles, sha).0;
      && |r| == |ts|
      && forall p :: 0 <= p < |ts| ==>
           r[p] == if OpenIn(fs, ts[p], w) && ts[p].title in titles then ts[p].(status := Done, completedByCommit := sha) else ts[p]
  {
    if titles != [] {
      var init := titles[..|titles| - 1];
      assert titles == init + [titles[|titles| - 1]];
      CompleteAllTasks(ts, fs, w, init, sha);
    }
  }

  /** The open tasks of `ts` titled `t`. */
  predicate HasOpen(ts: seq<Task>, fs: seq<Feature>, w: WsId, t: string) {
    exists p :: 0 <= p < |ts| && OpenIn(fs, ts[p], w) && ts[p].title == t
  }

  /**
   * After the titles `init`, the bulk update for `t` changes a row exactly
   * when `t` had an open task and is not among `init`.
   */
  lemma CompleteNext(ts: seq<Task>, fs: seq<Feature>, w: WsId, init: seq<string>, t: string, sha: string)
    ensures CountCompletable(CompleteAll(ts, fs, w, init, sha).0, fs, w, t) > 0 <==> HasOpen(ts, fs, w, t) && t !in init
  {
    var ts' := CompleteAll(ts, fs, w, init, sha).0;
    CompleteAllTasks(ts, fs, w, init, sha);
    if CountCompletable(ts', fs, w, t) > 0 {
      var p :| 0 <= p < |ts'| && Completable(fs, ts'[p], w, t);
      assert OpenIn(fs, ts[p], w) && ts[p].title == t;
    } else if HasOpen(ts, fs, w, t) {
      var p :| 0 <= p < |ts| && OpenIn(fs, ts[p], w) && ts[p].title == t;
      assert !Completable(fs, ts'[p], w, t);
    }
  }

  /** The reported titles are the listed ones that had an open task, each once. */
  lemma {:induction false} CompleteAllMarked(ts: seq<Task>, fs: seq<Feature>, w: WsId, titles: seq<string>, sha: string)
    ensures var marked := CompleteAll(ts, fs, w, titles, sha).1;
      && (forall x :: x in marked <==> x in titles && HasOpen(ts, fs, w, x))
      && Distinct(marked)
  {
    if titles != [] {
      var init := titles[..|titles| - 1];
      var t := titles[|titles| - 1];
      assert titles == init + [t];
      CompleteAllMarked(ts, fs, w, init, sha);
      MarkedStep(ts, fs, w, titles, sha);
      var before := CompleteAll(ts, fs, w, init, sha).1;
      if HasOpen(ts, fs, w, t) && t !in init {
        DistinctSnoc(before, t);
      }
    }
  }

  /** The last title is reported when it had an open task and was not listed before. */
  lemma {:induction false} MarkedStep(ts: seq<Task>, fs: seq<Feature>, w: WsId, titles: seq<string>, sha: string)
    requires titles != []
    ensures var init, t := titles[..|titles| - 1], titles[|titles| - 1];
      CompleteAll(ts, fs, w, titles, sha).1
        == CompleteAll(ts, fs, w, init, sha).1 + if HasOpen(ts, fs, w, t) && t !in init then [t] else []
  {
    CompleteNext(ts, fs, w, titles[..|titles| - 1], titles[|titles| - 1], sha);
  }

  lemma {:induction false} DistinctSnoc(xs: seq<string>, x: string)
    requires Distinct(xs) && x !in xs
    ensures Distinct(xs + [x])
  {
  }

  // --------------------------------------------------------------- handler

  /** The reply of the push handler. */
  function PushReply(stored: nat, marked: seq<string>): map<string, Json> {
    map["commits_stored" := JInt(stored), "completed_tasks" := JList(Strings(marked))]
  }

  /**
   * `handle_push` on the store `db` for workspace `w`: mirror the commits;
   * with no commit or no open task, reply at once; otherwise complete the
   * titles the inference step names, with the first 12 characters of the
   * first commit's id.
   */
  function PushOutcome(db: Records, w: WsId, p: PushPayload, e: Engine): (r: (Records, map<string, Json>))
    ensures r.0 == db.(commits := r.0.commits, tasks := r.0.tasks)
    ensures "commits_stored" in r.1
    ensures (r.0.commits, r.1["commits_stored"]) == (StoreCommits(db.commits, w, Branch(p.ref), p.commits).0,
                                                    JInt(StoreCommits(db.commits, w, Branch(p.ref), p.commits).1))
  {
    var (commits, stored) := StoreCommits(db.commits, w, Branch(p.ref), p.commits);
    var db1 := db.(commits := commits);
    if p.commits == [] then (db1, PushReply(stored, []))
    else
      var open := OpenTitles(db.tasks, db.features, w);
      if open == [] then (db1, PushReply(stored, []))
      else
        var titles := AnalyzeCommits(e, Messages(p.commits), open);
        var (ts, marked) := CompleteAll(db.tasks, db.features, w, titles, Prefix(p.commits[0].id, 12));
        (db1.(tasks := ts), PushReply(stored, marked))
  }

  /**
   * The tasks a push completes are open tasks of the workspace; each is
   * marked done with the first commit's short sha, and a task already done
   * is never touched.
   */
  lemma PushCompletesOpenTasks(db: Records, w: WsId, p: PushPayload, e: Engine)
    ensures var ts := PushOutcome(db, w, p, e).0.tasks;
      && |ts| == |db.tasks|
      && forall q :: 0 <= q < |ts| && ts[q] != db.tasks[q] ==>
           OpenIn(db.features, db.tasks[q], w) && p.commits != []
           && ts[q] == db.tasks[q].(status := Done, completedByCommit := Prefix(p.commits[0].id, 12))
  {
    if p.commits != [] && OpenTitles(db.tasks, db.features, w) != [] {
      var titles := AnalyzeCommits(e, Messages(p.commits), OpenTitles(db.tasks, db.features, w));
      CompleteAllTasks(db.tasks, db.features, w, titles, Prefix(p.commits[0].id, 12));
    }
  }

  /** Without an API key no task changes and no title is reported. */
  lemma PushWithoutKey(db: Records, w: WsId, p: PushPayload, e: Engine)
    requires e.apiKey == ""
    ensures PushOutcome(db, w, p, e).0.tasks == db.tasks
    ensures PushOutcome(db, w, p, e).1["completed_tasks"] == JList([])
  {
  }

  /**
   * Once there are commits and open tasks: the open tasks whose title the
   * inference step names become done, no other task changes status, and
   * the reply lists the named titles that had an open task, once each.
   */
  lemma PushCompletion(db: Records, w: WsId, p: PushPayload, e: Engine)
    requires p.commits != [] && OpenTitles(db.tasks, db.features, w) != []
    ensures var titles := AnalyzeCommits(e, Messages(p.commits), OpenTitles(db.tasks, db.features, w));
      var (ts, marked) := CompleteAll(db.tasks, db.features, w, titles, Prefix(p.commits[0].id, 12));
      && PushOutcome(db, w, p, e) == (db.(commits := PushOutcome(db, w, p, e).0.commits, tasks := ts),
                                      PushReply(StoreCommits(db.commits, w, Branch(p.ref), p.commits).1, marked))
      && (forall x :: x in marked <==> x in titles && HasOpen(db.tasks, db.features, w, x))
      && Distinct(marked)
      && |ts| == |db.tasks|
      && forall q :: 0 <= q < |ts| ==>
           (ts[q].status == Done <==> db.tasks[q].status == Done || (InWorkspace(db.features, db.tasks[q], w) && db.tasks[q].title in titles))
  {
    var titles := AnalyzeCommits(e, Messages(p.commits), OpenTitles(db.tasks, db.features, w));
    CompleteAllTasks(db.tasks, db.features, w, titles, Prefix(p.commits[0].id, 12));
    CompleteAllMarked(db.tasks, db.features, w, titles, Prefix(p.commits[0].id, 12));
  }

  /**
   * Delivering the same push twice stores its commits once: the second
   * delivery creates no row and leaves the commits table as it was.
   */
  lemma PushRedelivery(db: Records, w: WsId, p: PushPayload, e: Engine, e': Engine)
    ensures var once := PushOutcome(db, w, p, e).0;
      var twice := PushOutcome(once, w, p, e');
      twice.0.commits == once.commits && twice.1["commits_stored"] == JInt(0)
  {
    var once := PushOutcome(db, w, p, e).0;
    StoreCommitsKeys(db.commits, w, Branch(p.ref), p.commits);
    StoreCommitsKnown(once.commits, w, Branch(p.ref), p.commits);
  }

  /** A method view of `handle_push` on the store. */
  method HandlePush(s: Store, w: WsId, p: PushPayload, e: Engine) returns (result: map<string, Json>)
    modifies s
    ensures (s.Contents(), result) == PushOutcome(old(s.Contents()), w, p, e)
  {
    var messages := Messages(p.commits);
    var stored := MirrorCommits(s, w, Branch(p.ref), p.commits);
    if messages == [] {
      return PushReply(stored, []);
    }
    var open := OpenTitles(s.tasks, s.features, w);
    if open == [] {
      return PushReply(stored, []);
    }
    var titles := AnalyzeCommits(e, messages, open);
    var marked := CompleteTitles(s, w, titles, Prefix(p.commits[0].id, 12));
    result := PushReply(stored, marked);
  }

  /** The commit loop of `handle_push`. */
  method MirrorCommits(s: Store, w: WsId, branch: string, cs: seq<CommitData>) returns (stored: nat)
    modifies s
    ensures (s.commits, stored) == StoreCommits(old(s.commits), w, branch, cs)
    ensures s.Contents() == old(s.Contents()).(commits := s.commits)
  {
    stored := 0;
    for i := 0 to |cs|
      invariant (s.commits, stored) == StoreCommits(old(s.commits), w, branch, cs[..i])
      invariant s.workspaces == old(s.workspaces) && s.features == old(s.features) && s.tasks == old(s.tasks)
      invariant s.labels == old(s.labels) && s.milestones == old(s.milestones) && s.pulls == old(s.pulls)
      invariant s.reviews == old(s.reviews) && s.comments == old(s.comments)
    {
      assert cs[..i + 1][..i] == cs[..i];
      var c := cs[i];
      if c.id != "" && c.id !in s.commits {
        s.commits := s.commits[c.id := Commit(w, c.message, branch, c.extra)];
        stored := stored + 1;
      }
    }
    assert cs[..|cs|] == cs;
  }

  /** The completion loop of `handle_push`: one bulk update per inferred title. */
  method CompleteTitles(s: Store, w: WsId, titles: seq<string>, sha: string) returns (marked: seq<string>)
    modifies s
    ensures (s.tasks, marked) == CompleteAll(old(s.tasks), old(s.features), w, titles, sha)
    ensures s.Contents() == old(s.Contents()).(tasks := s.tasks)
  {
    var ts := s.tasks;
    marked := [];
    for j := 0 to |titles|
      invariant (ts, marked) == CompleteAll(s.tasks, s.features, w, titles[..j], sha)
      modifies {}
    {
      CompleteAllStep(s.tasks, s.features, w, titles, j, sha);
      var updated := CountCompletable(ts, s.features, w, titles[j]);
      ts := CompleteTitle(ts, s.features, w, titles[j], sha);
      if updated > 0 {
        marked := marked + [titles[j]];
      }
    }
    assert titles[..|titles|] == titles;
    s.tasks := ts;
  }
}

=== FILE: reconcile.dfy ===
/**
 * Merging a parsed checklist into the tasks of one Feature
 * (`sync_tasks_from_checkboxes`), as a function of the task table before
 * the merge. Each checkbox position is processed in turn; the lookup tables
 * that match a position to a task are built once, from the tasks as they
 * were before the first position.
 */
module Reconcile {
  import opened Types
  import opened Checkboxes

  // ----------------------------------------------------------- lookup tables

  /**
   * `existing_by_index` (checkbox_index -> task, over the feature's tasks
   * that have an index) and `existing_by_title` (title -> task, over those
   * that have none). Tasks are named by their position in the task table.
   */
  datatype Tables = Tables(byIndex: map<int, nat>, byTitle: map<string, nat>)

  /** Every task a table names is one of the first `n` tasks. */
  predicate Bounded(tb: Tables, n: nat) {
    (forall k :: k in tb.byIndex ==> tb.byIndex[k] < n)
    && (forall t :: t in tb.byTitle ==> tb.byTitle[t] < n)
  }

  /** Both dictionaries, built in task order: a later task overwrites an earlier one with the same key. */
  function BuildTables(ts: seq<Task>, f: FeatureId): (tb: Tables)
    ensures Bounded(tb, |ts|)
    decreases |ts|
  {
    if ts == [] then Tables(map[], map[])
    else
      var p := |ts| - 1;
      var tb := BuildTables(ts[..p], f);
      if ts[p].feature != f then tb
      else match ts[p].checkboxIndex
        case Some(k) => tb.(byIndex := tb.byIndex[k := p])
        case None => tb.(byTitle := tb.byTitle[ts[p].title := p])
  }

  /** Task `p` belongs to `f` and carries checkbox index `k`. */
  predicate IndexedAt(ts: seq<Task>, f: FeatureId, p: int, k: int) {
    0 <= p < |ts| && ts[p].feature == f && ts[p].checkboxIndex == Some(k)
  }

  /** Task `p` belongs to `f`, has no checkbox index and is called `title`. */
  predicate TitledAt(ts: seq<Task>, f: FeatureId, p: int, title: string) {
    0 <= p < |ts| && ts[p].feature == f && ts[p].checkboxIndex.None? && ts[p].title == title
  }

  predicate LastIndexed(ts: seq<Task>, f: FeatureId, p: int, k: int) {
    IndexedAt(ts, f, p, k) && forall q :: p < q < |ts| ==> !IndexedAt(ts, f, q, k)
  }

  predicate LastTitled(ts: seq<Task>, f: FeatureId, p: int, title: string) {
    TitledAt(ts, f, p, title) && forall q :: p < q < |ts| ==> !TitledAt(ts, f, q, title)
  }

  lemma IndexedAtPrefix(ts: seq<Task>, f: FeatureId, n: nat)
    requires n <= |ts|
    ensures forall p, k :: p < n ==> (IndexedAt(ts[..n], f, p, k) <==> IndexedAt(ts, f, p, k))
  {
  }

  lemma TitledAtPrefix(ts: seq<Task>, f: FeatureId, n: nat)
    requires n <= |ts|
    ensures forall p, t :: p < n ==> (TitledAt(ts[..n], f, p, t) <==> TitledAt(ts, f, p, t))
  {
  }

  /** The index table holds exactly the indices in use, each naming the last task that uses it. */
  lemma {:induction false} ByIndexSpec(ts: seq<Task>, f: FeatureId)
    ensures forall k :: k in BuildTables(ts, f).byIndex <==> exists p :: IndexedAt(ts, f, p, k)
    ensures forall k :: k in BuildTables(ts, f).byIndex ==> LastIndexed(ts, f, BuildTables(ts, f).byIndex[k], k)
    decreases |ts|
  {
    if ts != [] {
      var n := |ts| - 1;
      ByIndexSpec(ts[..n], f);
      IndexedAtPrefix(ts, f, n);
    }
  }

  /** The title table holds exactly the titles of unindexed tasks, each naming the last such task. */
  lemma {:induction false} ByTitleSpec(ts: seq<Task>, f: FeatureId)
    ensures forall t :: t in BuildTables(ts, f).byTitle <==> exists p :: TitledAt(ts, f, p, t)
    ensures forall t :: t in BuildTables(ts, f).byTitle ==> LastTitled(ts, f, BuildTables(ts, f).byTitle[t], t)
    decreases |ts|
  {
    if ts != [] {
      var n := |ts| - 1;
      ByTitleSpec(ts[..n], f);
      TitledAtPrefix(ts, f, n);
    }
  }

  /** `existing_by_index.get(i) or existing_by_title.get(title)`. */
  function Lookup(tb: Tables, i: int, title: string): Option<nat> {
    if i in tb.byIndex then Some(tb.byIndex[i])
    else if title in tb.byTitle then Some(tb.byTitle[title])
    else None
  }

  /**
   * The task matched at position `i`: the last task of the feature holding
   * index `i` if there is one; otherwise the last unindexed task with the
   * title; otherwise none.
   */
  lemma MatchRule(ts: seq<Task>, f: FeatureId, i: int, title: string)
    ensures (exists p :: IndexedAt(ts, f, p, i)) ==>
              Lookup(BuildTables(ts, f), i, title).Some? && LastIndexed(ts, f, Lookup(BuildTables(ts, f), i, title).value, i)
    ensures (!exists p :: IndexedAt(ts, f, p, i)) && (exists p :: TitledAt(ts, f, p, title)) ==>
              Lookup(BuildTables(ts, f), i, title).Some? && LastTitled(ts, f, Lookup(BuildTables(ts, f), i, title).value, title)
    ensures (!exists p :: IndexedAt(ts, f, p, i)) && (!exists p :: TitledAt(ts, f, p, title)) ==>
              Lookup(BuildTables(ts, f), i, title).None?
  {
    ByIndexSpec(ts, f);
    ByTitleSpec(ts, f);
  }

  // ------------------------------------------------------------- one position

  /**
   * Status after a matched checkbox: ticked means done, an unticked box
   * reopens a done task as todo, and leaves todo and in-progress alone.
   */
  function NewStatus(checked: bool, s: Status): (r: Status)
    ensures (r == Done) == checked
    ensures !checked && s != Done ==> r == s
  {
    if checked then Done else if s == Done then Todo else s
  }

  /** The task created for an unmatched position: default priority, no completing commit. */
  function NewTask(f: FeatureId, b: Checkbox, i: nat): Task {
    Task(f, b.title, if b.checked then Done else Todo, Medium, Some(i), "")
  }

  /** Task table and the two counters the merge returns. */
  datatype Outcome = Outcome(tasks: seq<Task>, created: nat, updated: nat)

  /** Position `i`, holding box `b`, merged into `o`. */
  function Step(tb: Tables, f: FeatureId, o: Outcome, i: nat, b: Checkbox): Outcome
    requires Bounded(tb, |o.tasks|)
  {
    match Lookup(tb, i, b.title)
    case Some(p) =>
      var t := o.tasks[p];
      var status := NewStatus(b.checked, t.status);
      var changed := t.checkboxIndex != Some(i) || status != t.status;
      if changed then Outcome(o.tasks[p := t.(checkboxIndex := Some(i), status := status)], o.created, o.updated + 1)
      else o
    case None =>
      Outcome(o.tasks + [NewTask(f, b, i)], o.created + 1, o.updated)
  }

  /**
   * The first `n` positions merged into `ts`. Only creations grow the
   * table, and each position counts at most once.
   */
  function Run(ts: seq<Task>, f: FeatureId, boxes: seq<Checkbox>, n: nat): (o: Outcome)
    requires n <= |boxes|
    ensures |o.tasks| == |ts| + o.created
    ensures o.created + o.updated <= n
    decreases n
  {
    if n == 0 then Outcome(ts, 0, 0)
    else Step(BuildTables(ts, f), f, Run(ts, f, boxes, n - 1), n - 1, boxes[n - 1])
  }

  /**
   * `sync_tasks_from_checkboxes(feature, boxes)`: every position merged.
   * Nothing is deleted; each unmatched position appends its own task, in
   * position order, and is counted in `created`; `updated` counts the
   * positions whose matched task really changed.
   */
  function Sync(ts: seq<Task>, f: FeatureId, boxes: seq<Checkbox>): (o: Outcome)
    ensures o.created + o.updated <= |boxes|
    ensures var u := Unmatched(BuildTables(ts, f), boxes, |boxes|);
      && o.created == |u| && |o.tasks| == |ts| + |u|
      && (forall j :: 0 <= j < |u| ==> o.tasks[|ts| + j] == NewTask(f, boxes[u[j]], u[j]))
    ensures o.updated == Rewriting(ts, f, boxes, |boxes|)
  {
    RunAppends(ts, f, boxes, |boxes|);
    RunUpdates(ts, f, boxes, |boxes|);
    Run(ts, f, boxes, |boxes|)
  }

  // ------------------------------------------------------------------ frame

  /** `u` is `t` with at most its checkbox index and status changed. */
  predicate SameButIndexAndStatus(t: Task, u: Task) {
    u == t.(checkboxIndex := u.checkboxIndex, status := u.status)
  }

  /** Some position among the first `n` is matched to task `p`. */
  predicate MatchedBy(ts: seq<Task>, f: FeatureId, boxes: seq<Checkbox>, n: nat, p: nat)
    requires n <= |boxes|
  {
    exists i :: 0 <= i < n && Lookup(BuildTables(ts, f), i, boxes[i].title) == Some(p)
  }

  lemma MatchedInFeature(ts: seq<Task>, f: FeatureId, i: int, title: string)
    ensures Lookup(BuildTables(ts, f), i, title).Some? ==> ts[Lookup(BuildTables(ts, f), i, title).value].feature == f
  {
    ByIndexSpec(ts, f);
    ByTitleSpec(ts, f);
  }

  /**
   * Existing tasks keep their feature, title, priority and completing
   * commit; a task of another feature, or one no position matches, is left
   * exactly as it was; nothing is deleted.
   */
  lemma RunFrame(ts: seq<Task>, f: FeatureId, boxes: seq<Checkbox>, n: nat)
    requires n <= |boxes|
    ensures forall p :: 0 <= p < |ts| ==> SameButIndexAndStatus(ts[p], Run(ts, f, boxes, n).tasks[p])
    ensures forall p :: 0 <= p < |ts| && ts[p].feature != f ==> Run(ts, f, boxes, n).tasks[p] == ts[p]
    ensures forall p: nat :: p < |ts| && !MatchedBy(ts, f, boxes, n, p) ==> Run(ts, f, boxes, n).tasks[p] == ts[p]
  {
    RunKeepsFields(ts, f, boxes, n);
    RunKeepsUnmatched(ts, f, boxes, n);
    forall p: nat | p < |ts| && ts[p].feature != f
      ensures !MatchedBy(ts, f, boxes, n, p)
    {
      forall i | 0 <= i < n ensures Lookup(BuildTables(ts, f), i, boxes[i].title) != Some(p) {
        MatchedInFeature(ts, f, i, boxes[i].title);
      }
    }
  }

  /** Only index and status of existing tasks ever change. */
  lemma {:induction false} RunKeepsFields(ts: seq<Task>, f: FeatureId, boxes: seq<Checkbox>, n: nat)
    requires n <= |boxes|
    ensures forall p :: 0 <= p < |ts| ==> SameButIndexAndStatus(ts[p], Run(ts, f, boxes, n).tasks[p])
    decreases n
  {
    if n > 0 {
      RunKeepsFields(ts, f, boxes, n - 1);
      StepFrame(ts, f, boxes, n);
    }
  }

  /** An existing task no position matches is never written. */
  lemma {:induction false} RunKeepsUnmatched(ts: seq<Task>, f: FeatureId, boxes: seq<Checkbox>, n: nat)
    requires n <= |boxes|
    ensures forall p: nat :: p < |ts| && !MatchedBy(ts, f, boxes, n, p) ==> Run(ts, f, boxes, n).tasks[p] == ts[p]
    decreases n
  {
    if n > 0 {
      RunKeepsUnmatched(ts, f, boxes, n - 1);
      StepFrame(ts, f, boxes, n);
      MatchedBySnoc(ts, f, boxes, n);
    }
  }

  /** A task no position up to `n` matches is matched neither before `n - 1` nor at it. */
  lemma MatchedBySnoc(ts: seq<Task>, f: FeatureId, boxes: seq<Checkbox>, n: nat)
    requires 0 < n <= |boxes|
    ensures forall p: nat :: !MatchedBy(ts, f, boxes, n, p) ==>
      !MatchedBy(ts, f, boxes, n - 1, p) && Lookup(BuildTables(ts, f), n - 1, boxes[n - 1].title) != Some(p)
  {
  }

  /** Position `n - 1` changes at most the task it matches, and only that task's index and status. */
  lemma {:induction false} StepFrame(ts: seq<Task>, f: FeatureId, boxes: seq<Checkbox>, n: nat)
    requires 0 < n <= |boxes|
    ensures var o, r := Run(ts, f, boxes, n - 1), Run(ts, f, boxes, n);
      forall p :: 0 <= p < |ts| ==>
        && SameButIndexAndStatus(o.tasks[p], r.tasks[p])
        && (r.tasks[p] != o.tasks[p] ==> Lookup(BuildTables(ts, f), n - 1, boxes[n - 1].title) == Some(p))
  {
  }

  /** `t` is the task created for one of the first `n` positions, none of which matched. */
  predicate CreatedFor(ts: seq<Task>, f: FeatureId, boxes: seq<Checkbox>, n: nat, t: Task)
    requires n <= |boxes|
  {
    exists i :: 0 <= i < n && Lookup(BuildTables(ts, f), i, boxes[i].title).None? && t == NewTask(f, boxes[i], i)
  }

  /** Each task the merge appends is the one created for some unmatched position. */
  lemma {:induction false} RunCreated(ts: seq<Task>, f: FeatureId, boxes: seq<Checkbox>, n: nat)
    requires n <= |boxes|
    ensures forall q :: |ts| <= q < |Run(ts, f, boxes, n).tasks| ==> CreatedFor(ts, f, boxes, n, Run(ts, f, boxes, n).tasks[q])
    decreases n
  {
    if n > 0 {
      RunCreated(ts, f, boxes, n - 1);
      var o := Run(ts, f, boxes, n - 1);
      var r := Run(ts, f, boxes, n);
      forall q | |ts| <= q < |r.tasks| ensures CreatedFor(ts, f, boxes, n, r.tasks[q]) {
        if q < |o.tasks| {
          assert CreatedFor(ts, f, boxes, n - 1, o.tasks[q]);
          assert r.tasks[q] == o.tasks[q];
        } else {
          assert r.tasks[q] == NewTask(f, boxes[n - 1], n - 1);
        }
      }
    }
  }

  /** The positions among the first `n` that match no task, in order. */
  function Unmatched(tb: Tables, boxes: seq<Checkbox>, n: nat): (r: seq<nat>)
    requires n <= |boxes|
    ensures forall j :: 0 <= j < |r| ==> r[j] < n && Lookup(tb, r[j], boxes[r[j]].title).None?
    ensures forall i :: 0 <= i < n && Lookup(tb, i, boxes[i].title).None? ==> i in r
    ensures forall j, k :: 0 <= j < k < |r| ==> r[j] < r[k]
    decreases n
  {
    if n == 0 then []
    else Unmatched(tb, boxes, n - 1) + if Lookup(tb, n - 1, boxes[n - 1].title).None? then [n - 1] else []
  }

  /**
   * The merge appends, in position order, one task per unmatched position,
   * with that position's title, index and status, and nothing else;
   * `created` counts them.
   */
  lemma {:induction false} RunAppends(ts: seq<Task>, f: FeatureId, boxes: seq<Checkbox>, n: nat)
    requires n <= |boxes|
    ensures var o, u := Run(ts, f, boxes, n), Unmatched(BuildTables(ts, f), boxes, n);
      && o.created == |u|
      && |o.tasks| == |ts| + |u|
      && forall j :: 0 <= j < |u| ==> o.tasks[|ts| + j] == NewTask(f, boxes[u[j]], u[j])
    decreases n
  {
    if n > 0 {
      RunAppends(ts, f, boxes, n - 1);
      var tb, i := BuildTables(ts, f), n - 1;
      StepAppends(tb, f, Run(ts, f, boxes, i), i, boxes[i], |ts|);
      assert Unmatched(tb, boxes, n) == Unmatched(tb, boxes, i) + if Lookup(tb, i, boxes[i].title).None? then [i] else [];
    }
  }

  /** One position leaves the tasks from `k` on as they were, and appends its new task if it matches none. */
  lemma StepAppends(tb: Tables, f: FeatureId, o: Outcome, i: nat, b: Checkbox, k: nat)
    requires Bounded(tb, k) && k <= |o.tasks|
    ensures var r, unmatched := Step(tb, f, o, i, b), Lookup(tb, i, b.title).None?;
      && r.created == o.created + (if unmatched then 1 else 0)
      && r.tasks[k..] == o.tasks[k..] + (if unmatched then [NewTask(f, b, i)] else [])
  {
  }

  /** Merging position `i` changes the row of the task it matches. */
  predicate Rewrites(ts: seq<Task>, f: FeatureId, boxes: seq<Checkbox>, i: nat)
    requires i < |boxes|
  {
    match Lookup(BuildTables(ts, f), i, boxes[i].title)
    case None => false
    case Some(p) => Run(ts, f, boxes, i + 1).tasks[p] != Run(ts, f, boxes, i).tasks[p]
  }

  /** How many of the first `n` positions rewrite the task they match. */
  function Rewriting(ts: seq<Task>, f: FeatureId, boxes: seq<Checkbox>, n: nat): (c: nat)
    requires n <= |boxes|
    ensures c <= n
    decreases n
  {
    if n == 0 then 0 else Rewriting(ts, f, boxes, n - 1) + if Rewrites(ts, f, boxes, n - 1) then 1 else 0
  }

  /** `updated` counts exactly the positions whose matched task really changed. */
  lemma {:induction false} RunUpdates(ts: seq<Task>, f: FeatureId, boxes: seq<Checkbox>, n: nat)
    requires n <= |boxes|
    ensures Run(ts, f, boxes, n).updated == Rewriting(ts, f, boxes, n)
    decreases n
  {
    if n > 0 {
      RunUpdates(ts, f, boxes, n - 1);
    }
  }

  /**
   * Whether matched by index or by title, a task ends with the index of the
   * last position matched to it, and is done exactly when that position's
   * box is ticked; earlier positions decide only which of todo and
   * in progress an unticked box leaves.
   */
  lemma {:induction false} LastMatchFinal(ts: seq<Task>, f: FeatureId, boxes: seq<Checkbox>, n: nat, p: nat, m: nat)
    requires m < n <= |boxes| && p < |ts|
    requires Lookup(BuildTables(ts, f), m, boxes[m].title) == Some(p)
    requires forall i :: m < i < n ==> Lookup(BuildTables(ts, f), i, boxes[i].title) != Some(p)
    ensures Run(ts, f, boxes, n).tasks[p]
      == ts[p].(checkboxIndex := Some(m), status := NewStatus(boxes[m].checked, Run(ts, f, boxes, m).tasks[p].status))
    ensures (Run(ts, f, boxes, n).tasks[p].status == Done) == boxes[m].checked
    decreases n
  {
    if n == m + 1 {
      MatchAt(ts, f, boxes, p, m);
    } else {
      LastMatchFinal(ts, f, boxes, n - 1, p, m);
      StepFrame(ts, f, boxes, n);
    }
  }

  /** Position `m` gives the task it matches index `m` and the status its box dictates. */
  lemma MatchAt(ts: seq<Task>, f: FeatureId, boxes: seq<Checkbox>, p: nat, m: nat)
    requires m < |boxes| && p < |ts|
    requires Lookup(BuildTables(ts, f), m, boxes[m].title) == Some(p)
    ensures Run(ts, f, boxes, m + 1).tasks[p]
      == ts[p].(checkboxIndex := Some(m), status := NewStatus(boxes[m].checked, Run(ts, f, boxes, m).tasks[p].status))
  {
    RunFrame(ts, f, boxes, m);
    var t := Run(ts, f, boxes, m).tasks[p];
    assert SameButIndexAndStatus(ts[p], t);
  }

  /**
   * A task matched by its checkbox index is touched at that position only,
   * so after the merge it holds that index and the status its box dictates.
   */
  lemma {:induction false} IndexMatchFinal(ts: seq<Task>, f: FeatureId, boxes: seq<Checkbox>, n: nat, p: nat, i: nat)
    requires n <= |boxes| && i < |boxes| && LastIndexed(ts, f, p, i)
    ensures i < n ==> Run(ts, f, boxes, n).tasks[p] == ts[p].(status := NewStatus(boxes[i].checked, ts[p].status))
    ensures n <= i ==> Run(ts, f, boxes, n).tasks[p] == ts[p]
    decreases n
  {
    if n > 0 {
      IndexMatchFinal(ts, f, boxes, n - 1, p, i);
      LookupOfIndexed(ts, f, p, i, n - 1, boxes[n - 1].title);
    }
  }

  /** A task holding index `i` is matched at position `i` and at no other. */
  lemma LookupOfIndexed(ts: seq<Task>, f: FeatureId, p: int, i: int, j: int, title: string)
    requires LastIndexed(ts, f, p, i)
    ensures Lookup(BuildTables(ts, f), j, title) == Some(p) <==> j == i
  {
    ByIndexSpec(ts, f);
    ByTitleSpec(ts, f);
    if j != i && j in BuildTables(ts, f).byIndex {
      assert BuildTables(ts, f).byIndex[j] != p;
    }
    if j == i {
      LastIndexedUnique(ts, f, BuildTables(ts, f).byIndex[i], p, i);
    }
  }

  // ------------------------------------------------------------ re-syncing

  /** Position `i` already has a task holding index `i` whose done-ness agrees with its box. */
  predicate SettledAt(ts: seq<Task>, f: FeatureId, boxes: seq<Checkbox>, i: int)
    requires 0 <= i < |boxes|
  {
    exists p :: 0 <= p < |ts| && LastIndexed(ts, f, p, i) && (ts[p].status == Done) == boxes[i].checked
  }

  /** Every position is settled. */
  predicate Settled(ts: seq<Task>, f: FeatureId, boxes: seq<Checkbox>) {
    forall i :: 0 <= i < |boxes| ==> SettledAt(ts, f, boxes, i)
  }

  /** Merging a checklist the tasks already agree with changes nothing and counts nothing. */
  lemma {:induction false} RunSettled(ts: seq<Task>, f: FeatureId, boxes: seq<Checkbox>, n: nat)
    requires n <= |boxes| && Settled(ts, f, boxes)
    ensures Run(ts, f, boxes, n) == Outcome(ts, 0, 0)
    decreases n
  {
    if n > 0 {
      RunSettled(ts, f, boxes, n - 1);
      StepSettled(ts, f, boxes, n - 1);
    }
  }

  /** A settled position matches its own task by index and leaves it as it is. */
  lemma StepSettled(ts: seq<Task>, f: FeatureId, boxes: seq<Checkbox>, i: nat)
    requires i < |boxes| && Settled(ts, f, boxes)
    ensures Step(BuildTables(ts, f), f, Outcome(ts, 0, 0), i, boxes[i]) == Outcome(ts, 0, 0)
  {
    var b := boxes[i];
    assert SettledAt(ts, f, boxes, i);
    var p :| 0 <= p < |ts| && LastIndexed(ts, f, p, i) && (ts[p].status == Done) == b.checked;
    MatchRule(ts, f, i, boxes[i].title);
    LastIndexedUnique(ts, f, Lookup(BuildTables(ts, f), i, boxes[i].title).value, p, i);
    assert NewStatus(boxes[i].checked, ts[p].status) == ts[p].status;
  }

  lemma LastIndexedUnique(ts: seq<Task>, f: FeatureId, p: int, q: int, k: int)
    requires LastIndexed(ts, f, p, k) && LastIndexed(ts, f, q, k)
    ensures p == q
  {
  }

  lemma SyncSettled(ts: seq<Task>, f: FeatureId, boxes: seq<Checkbox>)
    requires Settled(ts, f, boxes)
    ensures Sync(ts, f, boxes) == Outcome(ts, 0, 0)
  {
    RunSettled(ts, f, boxes, |boxes|);
  }

  /** The feature's tasks carry indices 0, 1, ... in creation order, as after issue creation. */
  predicate IndexedByCreation(ts: seq<Task>, f: FeatureId) {
    forall i :: 0 <= i < |FeatureTasks(ts, f)| ==> ts[FeatureTasks(ts, f)[i]].checkboxIndex == Some(i)
  }

  lemma CreationOrderIsRenderOrder(ts: seq<Task>, f: FeatureId)
    requires IndexedByCreation(ts, f)
    ensures RenderOrder(ts, f) == FeatureTasks(ts, f)
  {
    var ft := FeatureTasks(ts, f);
    assert InRange(ts, ft);
    assert SortedForRender(ts, ft);
    RenderOrderOfSorted(ts, f);
  }

  /**
   * The checklist rendered from tasks indexed in creation order is already
   * settled: merging it back (as when GitHub echoes the body just sent)
   * changes no task and counts nothing.
   */
  lemma ResyncChecklist(ts: seq<Task>, f: FeatureId)
    requires IndexedByCreation(ts, f) && TitlesWellFormed(Ordered(ts, f))
    ensures Sync(ts, f, Parse(Some(Checklist(ts, f)))) == Outcome(ts, 0, 0)
  {
    ChecklistSettled(ts, f);
    SyncSettled(ts, f, Parse(Some(Checklist(ts, f))));
  }

  /** Each box of that checklist sits at the index of its task and agrees with its status. */
  lemma ChecklistSettled(ts: seq<Task>, f: FeatureId)
    requires IndexedByCreation(ts, f) && TitlesWellFormed(Ordered(ts, f))
    ensures Settled(ts, f, Parse(Some(Checklist(ts, f))))
  {
    ChecklistBoxes(ts, f);
    CreationBoxesSettled(ts, f, Parse(Some(Checklist(ts, f))));
  }

  /** The boxes of the feature's tasks in creation order are settled when those tasks are indexed by creation. */
  lemma CreationBoxesSettled(ts: seq<Task>, f: FeatureId, boxes: seq<Checkbox>)
    requires IndexedByCreation(ts, f) && boxes == CheckboxesOf(Select(ts, FeatureTasks(ts, f)))
    ensures Settled(ts, f, boxes)
  {
    forall i | 0 <= i < |boxes| ensures SettledAt(ts, f, boxes, i) {
      CreationBoxSettled(ts, f, boxes, i);
    }
  }

  /** Box `i` is settled by the feature's `i`-th task. */
  lemma CreationBoxSettled(ts: seq<Task>, f: FeatureId, boxes: seq<Checkbox>, i: nat)
    requires IndexedByCreation(ts, f) && boxes == CheckboxesOf(Select(ts, FeatureTasks(ts, f))) && i < |boxes|
    ensures SettledAt(ts, f, boxes, i)
  {
    CreationIndexedLast(ts, f, i);
    var p := FeatureTasks(ts, f)[i];
    assert 0 <= p < |ts| && LastIndexed(ts, f, p, i) && (ts[p].status == Done) == boxes[i].checked;
  }

  /** That checklist parses to the feature's tasks in creation order. */
  lemma ChecklistBoxes(ts: seq<Task>, f: FeatureId)
    requires IndexedByCreation(ts, f) && TitlesWellFormed(Ordered(ts, f))
    ensures Parse(Some(Checklist(ts, f))) == CheckboxesOf(Select(ts, FeatureTasks(ts, f)))
  {
    CreationOrderIsRenderOrder(ts, f);
    ParseOfRender(Ordered(ts, f));
  }

  /** In creation order, the `i`-th task of the feature is the last one holding index `i`. */
  lemma {:induction false} CreationIndexedLast(ts: seq<Task>, f: FeatureId, i: int)
    requires IndexedByCreation(ts, f) && 0 <= i < |FeatureTasks(ts, f)|
    ensures LastIndexed(ts, f, FeatureTasks(ts, f)[i], i)
  {
  }

  /**
   * The same for the whole issue body, when the description itself holds no
   * task line (its checkboxes would come first and shift every position).
   */
  lemma ResyncIssueBody(description: string, ts: seq<Task>, f: FeatureId)
    requires description == [] || description[|description| - 1] != '\r'
    requires Parse(Some(description)) == []
    requires IndexedByCreation(ts, f) && TitlesWellFormed(Ordered(ts, f))
    ensures Sync(ts, f, Parse(Some(IssueBody(description, ts, f)))) == Outcome(ts, 0, 0)
  {
    IssueBodyParse(description, ts, f);
    ResyncChecklist(ts, f);
    ParseOfRender(Ordered(ts, f));
    assert [] + CheckboxesOf(Ordered(ts, f)) == CheckboxesOf(Ordered(ts, f));
  }

  /**
   * The title table is not updated during the merge, so an unindexed task
   * is matched again by a later box with the same title: two boxes share
   * one task, which ends with the later index and the later status.
   */
  lemma RepeatedTitleSharesTask()
    ensures var ts := [Task(0, "a", Todo, Medium, None, "")];
            Sync(ts, 0, [Checkbox("a", true), Checkbox("a", false)])
            == Outcome([Task(0, "a", Todo, Medium, Some(1), "")], 0, 2)
  {
    var ts := [Task(0, "a", Todo, Medium, None, "")];
    var boxes := [Checkbox("a", true), Checkbox("a", false)];
    assert BuildTables(ts, 0) == Tables(map[], map["a" := 0]);
    assert Run(ts, 0, boxes, 1) == Outcome([Task(0, "a", Done, Medium, Some(0), "")], 0, 1);
  }
}

=== FILE: slack.dfy ===
/**
 * The Slack Events endpoint: Slack's request signing scheme (version "v0",
 * five-minute replay window) and the order in which the endpoint applies
 * its checks.
 */
module Slack {
  import opened Types
  import opened Text

  /** A hex HMAC-SHA256 digest of a message under a key; the hash itself is not modelled. */
  type Mac = (string, string) -> string

  /** The headers, raw body and decoded JSON body of one request ("" for a missing header). */
  datatype SlackRequest = SlackRequest(
    timestamp: string,  // X-Slack-Request-Timestamp
    signature: string,  // X-Slack-Signature
    body: string,
    data: map<string, Json>)

  /** Seconds a signed request stays acceptable, either side of the clock. */
  const Window: real := 300.0

  predicate IsDigit(c: char) {
    '0' <= c <= '9'
  }

  predicate AllDigits(s: string) {
    forall k :: 0 <= k < |s| ==> IsDigit(s[k])
  }

  /** The value of a string of decimal digits. */
  function DigitsValue(s: string): nat
    requires AllDigits(s)
  {
    if s == [] then 0 else 10 * DigitsValue(s[..|s| - 1]) + (s[|s| - 1] as int - '0' as int)
  }

  /**
   * Python's `int(s)` on a decimal string: surrounding white space, an
   * optional sign, then at least one digit. None where `int` raises.
   */
  function IntValue(s: string): Option<int> {
    var t := Strip(s);
    if t != [] && (t[0] == '-' || t[0] == '+') then
      (if |t| > 1 && AllDigits(t[1..])
       then var v: int := DigitsValue(t[1..]); Some(if t[0] == '-' then -v else v)
       else None)
    else if t != [] && AllDigits(t) then Some(DigitsValue(t))
    else None
  }

  /** The digits of a natural number, most significant first. */
  function Digits(n: nat): (r: string)
    ensures r != [] && AllDigits(r)
  {
    var d := ['0' + (n % 10) as char];
    if n < 10 then d else Digits(n / 10) + d
  }

  /** `str(n)`: how Slack writes the Unix time of a request. */
  function Decimal(n: int): string {
    if n < 0 then "-" + Digits(-n) else Digits(n)
  }

  lemma {:induction false} DigitsValueOfDigits(n: nat)
    ensures DigitsValue(Digits(n)) == n
  {
    var r := Digits(n);
    if n >= 10 {
      DigitsValueOfDigits(n / 10);
      assert r[..|r| - 1] == Digits(n / 10);
    }
  }

  /** A timestamp written in decimal reads back as the same number. */
  lemma IntValueOfDecimal(n: int)
    ensures IntValue(Decimal(n)) == Some(n)
  {
    var s := Decimal(n);
    if n < 0 {
      DigitsValueOfDigits(-n);
      assert s[0] == '-' && s[1..] == Digits(-n);
    } else {
      DigitsValueOfDigits(n);
    }
    StripTrimmed(s);
  }

  /**
   * The least magnitude a Python `int` cannot be turned into a float:
   * 2^1024 - 2^970, the halfway point above the largest double, rounds to
   * infinity, and the conversion then raises `OverflowError`.
   */
  const FloatLimit: int := 179769313486231580793728971405303415079934132710037826936173778980444968292764750946649017977587207096330286416692887910946555547851940402630657488671505820681908902000708383676273854845817711531764475730270069855571366959622842914819860834936475292719074168444365510704342711559699508093042880177904174497792

  /** Subtracting `n` from a float converts it first, which raises for too large a magnitude. */
  predicate TooLargeForFloat(n: int) {
    n >= FloatLimit || n <= -FloatLimit
  }

  function Abs(x: real): real {
    if x < 0.0 then -x else x
  }

  /** The message Slack signs: version, timestamp and raw body, joined by colons. */
  function BaseString(timestamp: string, body: string): string {
    "v0:" + timestamp + ":" + body
  }

  /** The signature header a request with this timestamp and body carries when it is genuine. */
  function Signature(secret: string, timestamp: string, body: string, mac: Mac): string {
    "v0=" + mac(secret, BaseString(timestamp, body))
  }

  /**
   * `verify_slack_signature` at clock reading `now`: Some(b) for the
   * verdict b, None where `int(timestamp)` raises or the clock arithmetic
   * cannot turn its value into a float.
   */
  function VerifySlackSignature(secret: string, req: SlackRequest, now: real, mac: Mac): (r: Option<bool>)
    ensures secret == "" || req.timestamp == "" || req.signature == "" ==> r == Some(false)
    ensures r == Some(true) <==>
      secret != "" && req.timestamp != "" && IntValue(req.timestamp).Some?
      && !TooLargeForFloat(IntValue(req.timestamp).value)
      && Abs(now - IntValue(req.timestamp).value as real) <= Window
      && req.signature == Signature(secret, req.timestamp, req.body, mac)
    ensures r == None <==>
      secret != "" && req.timestamp != "" && req.signature != ""
      && (IntValue(req.timestamp).None? || TooLargeForFloat(IntValue(req.timestamp).value))
  {
    if secret == "" then Some(false)
    else if req.timestamp == "" || req.signature == "" then Some(false)
    else
      match IntValue(req.timestamp)
      case None => None
      case Some(t) =>
        if TooLargeForFloat(t) then None
        else if Abs(now - t as real) > Window then Some(false)
        else Some(Signature(secret, req.timestamp, req.body, mac) == req.signature)
  }

  /** A request Slack signed, at a clock no more than five minutes off, is accepted. */
  lemma SignedAccepted(secret: string, t: int, body: string, data: map<string, Json>, now: real, mac: Mac)
    requires secret != "" && Abs(now - t as real) <= Window && !TooLargeForFloat(t)
    ensures var ts := Decimal(t);
      VerifySlackSignature(secret, SlackRequest(ts, Signature(secret, ts, body, mac), body, data), now, mac) == Some(true)
  {
    IntValueOfDecimal(t);
    var ts := Decimal(t);
    assert ts != "" by { assert Digits(if t < 0 then -t else t) != []; }
  }

  /** The window is closed: a request exactly five minutes old still passes. */
  lemma WindowEdgeAccepted(secret: string, t: int, body: string, mac: Mac)
    requires secret != "" && !TooLargeForFloat(t)
    ensures var ts := Decimal(t);
      VerifySlackSignature(secret, SlackRequest(ts, Signature(secret, ts, body, mac), body, map[]), t as real + Window, mac) == Some(true)
  {
    SignedAccepted(secret, t, body, map[], t as real + Window, mac);
  }

  /** A request more than five minutes off the clock is refused, whatever it carries. */
  lemma StaleRejected(secret: string, t: int, req: SlackRequest, now: real, mac: Mac)
    requires req.timestamp == Decimal(t) && Abs(now - t as real) > Window && !TooLargeForFloat(t)
    ensures VerifySlackSignature(secret, req, now, mac) == Some(false)
  {
    IntValueOfDecimal(t);
  }

  /** Under one timestamp, different bodies give different signed messages. */
  lemma BodyOfBaseString(ts: string, b1: string, b2: string)
    requires BaseString(ts, b1) == BaseString(ts, b2)
    ensures b1 == b2
  {
    var n := |"v0:" + ts + ":"|;
    assert b1 == BaseString(ts, b1)[n..] && b2 == BaseString(ts, b2)[n..];
  }

  /** For one body, different timestamps give different signed messages. */
  lemma TimestampOfBaseString(t1: string, t2: string, body: string)
    requires BaseString(t1, body) == BaseString(t2, body)
    ensures t1 == t2
  {
    var m := BaseString(t1, body);
    assert |t1| == |t2|;
    assert t1 == m[3..3 + |t1|] && t2 == BaseString(t2, body)[3..3 + |t2|];
  }

  /**
   * With a MAC that tells messages apart, a signature taken from one request
   * does not cover another body, nor the same body under another timestamp.
   */
  lemma TamperedRejected(secret: string, ts: string, body: string, req: SlackRequest, now: real, mac: Mac)
    requires forall m1, m2 :: mac(secret, m1) == mac(secret, m2) ==> m1 == m2
    requires req.signature == Signature(secret, ts, body, mac)
    requires (req.timestamp == ts && req.body != body) || (req.timestamp != ts && req.body == body)
    ensures VerifySlackSignature(secret, req, now, mac) != Some(true)
  {
    if VerifySlackSignature(secret, req, now, mac) == Some(true) {
      var x, y := mac(secret, BaseString(req.timestamp, req.body)), mac(secret, BaseString(ts, body));
      assert x == ("v0=" + x)[3..] && y == ("v0=" + y)[3..];
      if req.timestamp == ts {
        BodyOfBaseString(ts, req.body, body);
      } else {
        TimestampOfBaseString(req.timestamp, ts, body);
      }
    }
  }

  /**
   * A timestamp too large for a float makes the window check raise, so the
   * endpoint answers 500 rather than refusing the signature.
   */
  lemma OverflowingTimestampFails(secret: string, req: SlackRequest, now: real, mac: Mac, t: int)
    requires secret != "" && req.signature != "" && !IsUrlVerification(req.data)
    requires IntValue(req.timestamp) == Some(t) && TooLargeForFloat(t)
    ensures VerifySlackSignature(secret, req, now, mac) == None
    ensures SlackEvents(secret, req, now, mac) == ServerError
  {
    assert req.timestamp != "" by {
      assert Strip(req.timestamp) != [];
    }
  }

  /** Slack's endpoint check: a body whose "type" is "url_verification". */
  predicate IsUrlVerification(data: map<string, Json>) {
    "type" in data && data["type"] == JStr("url_verification")
  }

  /** `dict.get(key)`: None (JSON null) when the key is missing. */
  function Get(data: map<string, Json>, key: string): Json {
    if key in data then data[key] else JNull
  }

  /**
   * `slack_events`: the endpoint check is answered with its challenge before
   * any signature check; other requests get 403 on a bad signature and
   * "ok" otherwise. Reading the type of an "event" that is not an object
   * raises, as does a timestamp `int` cannot read.
   */
  function SlackEvents(secret: string, req: SlackRequest, now: real, mac: Mac): (r: Response)
    ensures IsUrlVerification(req.data) ==> r == Ok(map["challenge" := Get(req.data, "challenge")])
    ensures !IsUrlVerification(req.data) && VerifySlackSignature(secret, req, now, mac) == Some(false)
            ==> r == Response(403, map["error" := JStr("Invalid signature")])
    ensures !IsUrlVerification(req.data) && r.status == 200
            ==> VerifySlackSignature(secret, req, now, mac) == Some(true) && r == Ok(map["status" := JStr("ok")])
    ensures !IsUrlVerification(req.data) && VerifySlackSignature(secret, req, now, mac) == Some(true)
            && ("event" !in req.data || req.data["event"].JObject?)
            ==> r == Ok(map["status" := JStr("ok")])
    ensures !IsUrlVerification(req.data) && VerifySlackSignature(secret, req, now, mac).None? ==> r == ServerError
  {
    if IsUrlVerification(req.data) then Ok(map["challenge" := Get(req.data, "challenge")])
    else
      match VerifySlackSignature(secret, req, now, mac)
      case None => ServerError
      case Some(false) => Response(403, map["error" := JStr("Invalid signature")])
      case Some(true) =>
        if "event" in req.data && !req.data["event"].JObject? then ServerError
        else Ok(map["status" := JStr("ok")])
  }
}

=== FILE: store.dfy ===
/**
 * The entity store the sync logic writes to, and the operations of the
 * GitHub service that change it: merging a checklist into a feature's
 * tasks, creating the GitHub issue of a feature (which numbers its tasks),
 * and registering or unregistering the repository webhook. Every HTTP
 * exchange is reduced to the response fields the code reads, passed in.
 */
module EntityStore {
  import opened Types
  import opened Checkboxes
  import opened Reconcile

  /** Every table of the store, as one value. */
  datatype Records = Records(
    workspaces: seq<Workspace>,
    features: seq<Feature>,
    tasks: seq<Task>,
    labels: map<MirrorKey, Label>,
    milestones: map<MirrorKey, Milestone>,
    pulls: map<MirrorKey, PullRequest>,
    commits: map<string, Commit>,
    reviews: map<ReviewKey, Review>,
    comments: map<CommentKey, Comment>)

  /** Python's `a or b` on two strings. */
  function Or(a: string, b: string): string {
    if a != "" then a else b
  }

  // ----------------------------------------------------------- issue creation

  /** What `create_github_issue` sends: the feature's name as title, and its issue body. */
  datatype IssueRequest = IssueRequest(title: string, body: string)

  /** The fields of GitHub's reply the code reads. */
  datatype IssueReply = IssueReply(status: int, number: int, id: int, htmlUrl: string)

  /** The feature once its issue exists: an open issue with GitHub's number, id and URL. */
  function AsIssue(ft: Feature, reply: IssueReply): (r: Feature)
    ensures r.kind == IssueFeature && r.state == Open
    ensures r.githubNumber == Some(reply.number) && r.githubId == Some(reply.id)
    ensures r.workspace == ft.workspace && r.name == ft.name && r.description == ft.description
  {
    ft.(kind := IssueFeature, githubNumber := Some(reply.number), githubId := Some(reply.id),
        htmlUrl := reply.htmlUrl, state := Open)
  }

  /** The first `n` positions of `ps` numbered 0, 1, ... in that order. */
  function Renumbered(ts: seq<Task>, ps: seq<nat>, n: nat): (r: seq<Task>)
    requires InRange(ts, ps) && n <= |ps|
    ensures |r| == |ts|
  {
    if n == 0 then ts
    else
      var r := Renumbered(ts, ps, n - 1);
      r[ps[n - 1] := r[ps[n - 1]].(checkboxIndex := Some(n - 1))]
  }

  /** Strictly increasing positions: each task is named once. */
  predicate Increasing(ps: seq<nat>) {
    forall i, j :: 0 <= i < j < |ps| ==> ps[i] < ps[j]
  }

  lemma {:induction false} RenumberedSpec(ts: seq<Task>, ps: seq<nat>, n: nat)
    requires InRange(ts, ps) && n <= |ps| && Increasing(ps)
    ensures forall i :: 0 <= i < n ==> Renumbered(ts, ps, n)[ps[i]] == ts[ps[i]].(checkboxIndex := Some(i))
    ensures forall p :: 0 <= p < |ts| && p !in ps[..n] ==> Renumbered(ts, ps, n)[p] == ts[p]
    decreases n
  {
    if n > 0 {
      RenumberedSpec(ts, ps, n - 1);
      assert ps[..n] == ps[..n - 1] + [ps[n - 1]];
      forall i | 0 <= i < n - 1 ensures ps[i] != ps[n - 1] {
      }
    }
  }

  /** The index assignment of `create_github_issue`: the feature's tasks, in creation order, get 0, 1, ... */
  function IndexTasks(ts: seq<Task>, f: FeatureId): (r: seq<Task>)
    ensures |r| == |ts|
  {
    Renumbered(ts, FeatureTasks(ts, f), |FeatureTasks(ts, f)|)
  }

  /** Two task tables of the same length whose tasks belong to the same features. */
  predicate SameFeatures(a: seq<Task>, b: seq<Task>) {
    |a| == |b| && forall p :: 0 <= p < |a| ==> a[p].feature == b[p].feature
  }

  lemma {:induction false} FeatureTasksOfSameFeatures(a: seq<Task>, b: seq<Task>, f: FeatureId)
    requires SameFeatures(a, b)
    ensures FeatureTasks(a, f) == FeatureTasks(b, f)
    decreases |a|
  {
    if a != [] {
      FeatureTasksOfSameFeatures(a[..|a| - 1], b[..|b| - 1], f);
    }
  }

  /**
   * After numbering, the feature's tasks carry 0, 1, ... in creation order;
   * every task keeps all its other fields, and other features' tasks are untouched.
   */
  lemma IndexTasksSpec(ts: seq<Task>, f: FeatureId)
    ensures IndexedByCreation(IndexTasks(ts, f), f)
    ensures FeatureTasks(IndexTasks(ts, f), f) == FeatureTasks(ts, f)
    ensures forall p :: 0 <= p < |ts| ==> IndexTasks(ts, f)[p] == ts[p].(checkboxIndex := IndexTasks(ts, f)[p].checkboxIndex)
    ensures forall p :: 0 <= p < |ts| && ts[p].feature != f ==> IndexTasks(ts, f)[p] == ts[p]
  {
    var ft := FeatureTasks(ts, f);
    var r := IndexTasks(ts, f);
    RenumberedSpec(ts, ft, |ft|);
    assert ft[..|ft|] == ft;
    forall p | 0 <= p < |ts| ensures r[p] == ts[p].(checkboxIndex := r[p].checkboxIndex) {
      if p in ft {
        var i :| 0 <= i < |ft| && ft[i] == p;
      }
    }
    FeatureTasksOfSameFeatures(r, ts, f);
  }

  /** No task of the feature carries a checkbox index yet. */
  predicate Unindexed(ts: seq<Task>, f: FeatureId) {
    forall p :: 0 <= p < |ts| && ts[p].feature == f ==> ts[p].checkboxIndex.None?
  }

  /** Rendering reads only titles and statuses. */
  lemma {:induction false} RenderIgnoresIndex(a: seq<Task>, b: seq<Task>)
    requires |a| == |b|
    requires forall i :: 0 <= i < |a| ==> a[i].title == b[i].title && a[i].status == b[i].status
    ensures Render(a) == Render(b)
  {
    if |a| > 1 {
      RenderIgnoresIndex(a[1..], b[1..]);
      assert RenderLine(a[0]) == RenderLine(b[0]);
      assert Render(a) == RenderLine(a[0]) + "\n" + Render(a[1..]);
      assert Render(b) == RenderLine(b[0]) + "\n" + Render(b[1..]);
    } else if |a| == 1 {
      assert RenderLine(a[0]) == RenderLine(b[0]);
    }
  }

  /** Tasks without an index render in creation order. */
  lemma UnindexedRenderOrder(ts: seq<Task>, f: FeatureId)
    requires Unindexed(ts, f)
    ensures RenderOrder(ts, f) == FeatureTasks(ts, f)
  {
    var ft := FeatureTasks(ts, f);
    assert InRange(ts, ft);
    assert SortedForRender(ts, ft);
    RenderOrderOfSorted(ts, f);
  }

  /** Numbering unindexed tasks keeps their render order and gives the i-th one index i. */
  lemma IndexTasksOrdered(ts: seq<Task>, f: FeatureId)
    requires Unindexed(ts, f)
    ensures |Ordered(IndexTasks(ts, f), f)| == |Ordered(ts, f)|
    ensures forall i :: 0 <= i < |Ordered(ts, f)| ==>
              Ordered(IndexTasks(ts, f), f)[i] == Ordered(ts, f)[i].(checkboxIndex := Some(i))
  {
    var r := IndexTasks(ts, f);
    var ft := FeatureTasks(ts, f);
    IndexTasksSpec(ts, f);
    UnindexedRenderOrder(ts, f);
    CreationOrderIsRenderOrder(r, f);
    RenumberedSpec(ts, ft, |ft|);
  }

  /**
   * For a feature whose tasks had no index, the body sent when its issue is
   * created already lists the tasks in the order of the indices then assigned.
   */
  lemma IssueBodyKeptByIndexing(description: string, ts: seq<Task>, f: FeatureId)
    requires Unindexed(ts, f)
    ensures IssueBody(description, IndexTasks(ts, f), f) == IssueBody(description, ts, f)
  {
    IndexTasksSpec(ts, f);
    IndexTasksOrdered(ts, f);
    RenderIgnoresIndex(Ordered(IndexTasks(ts, f), f), Ordered(ts, f));
  }

  /**
   * The whole creation round trip: when GitHub later echoes the body sent
   * at creation, merging it into the freshly numbered tasks changes nothing.
   */
  lemma CreatedIssueEcho(description: string, ts: seq<Task>, f: FeatureId)
    requires Unindexed(ts, f) && TitlesWellFormed(Ordered(ts, f))
    requires description == [] || description[|description| - 1] != '\r'
    requires Parse(Some(description)) == []
    ensures var r := IndexTasks(ts, f);
            Sync(r, f, Parse(Some(IssueBody(description, ts, f)))) == Outcome(r, 0, 0)
  {
    var r := IndexTasks(ts, f);
    IssueBodyKeptByIndexing(description, ts, f);
    TitlesKeptByIndexing(ts, f);
    IndexTasksSpec(ts, f);
    ResyncIssueBody(description, r, f);
  }

  lemma TitlesKeptByIndexing(ts: seq<Task>, f: FeatureId)
    requires Unindexed(ts, f) && TitlesWellFormed(Ordered(ts, f))
    ensures TitlesWellFormed(Ordered(IndexTasks(ts, f), f))
  {
    IndexTasksOrdered(ts, f);
  }

  /**
   * The body `update_issue_body` sends: none when the workspace has no token
   * or the feature no (non-zero) issue number.
   */
  function IssueBodyPatch(ws: Workspace, ft: Feature, ts: seq<Task>, f: FeatureId): (r: Option<string>)
    ensures r.None? <==> ws.token == "" || ft.githubNumber.GetOr(0) == 0
  {
    if ws.token == "" || ft.githubNumber.GetOr(0) == 0 then None
    else Some(IssueBody(ft.description, ts, f))
  }

  // ---------------------------------------------------------------- webhooks

  /** The events the registered hook subscribes to. */
  const HookEvents: seq<string> := ["push", "pull_request", "pull_request_review",
    "pull_request_review_comment", "issue_comment", "issues", "create", "delete", "label", "milestone"]

  /**
   * `unregister_webhook`: without a stored hook id or a token nothing is
   * sent; the id is cleared only when GitHub answers 204 or 404.
   */
  function Unregistered(ws: Workspace, token: string, status: int): (r: Workspace)
    ensures r == ws || r == ws.(webhookId := "")
    ensures r.webhookId == "" <==> ws.webhookId == "" || (Or(token, ws.token) != "" && (status == 204 || status == 404))
  {
    if ws.webhookId == "" || Or(token, ws.token) == "" then ws
    else if status == 204 || status == 404 then ws.(webhookId := "")
    else ws
  }

  /**
   * `register_webhook`: without a token nothing happens; otherwise an
   * existing hook is unregistered first (answer `unregisterStatus`), and
   * GitHub's id for the new hook is stored only on a 201 answer.
   */
  function Registered(ws: Workspace, token: string, unregisterStatus: int, status: int, hookId: string): (r: (Workspace, Option<string>))
    ensures Or(token, ws.token) == "" ==> r == (ws, None)
    ensures Or(token, ws.token) != "" && status == 201 ==> r.0.webhookId == hookId && r.1 == Some(hookId)
    ensures Or(token, ws.token) != "" && status != 201 ==> r.1 == None && r.0 == Unregistered(ws, Or(token, ws.token), unregisterStatus)
    ensures r.0 == ws.(webhookId := r.0.webhookId)
  {
    var token := Or(token, ws.token);
    if token == "" then (ws, None)
    else
      var ws' := if ws.webhookId != "" then Unregistered(ws, token, unregisterStatus) else ws;
      if status == 201 then (ws'.(webhookId := hookId), Some(hookId)) else (ws', None)
  }

  /**
   * A failed removal of the old hook does not stop the registration: the
   * old hook stays on GitHub and its id is overwritten by the new one.
   */
  lemma OldHookForgotten(ws: Workspace, token: string, unregisterStatus: int, hookId: string)
    requires Or(token, ws.token) != "" && ws.webhookId != "" && ws.webhookId != hookId
    requires unregisterStatus != 204 && unregisterStatus != 404
    ensures Unregistered(ws, Or(token, ws.token), unregisterStatus).webhookId == ws.webhookId
    ensures Registered(ws, token, unregisterStatus, 201, hookId).0.webhookId == hookId
  {
  }

  // ------------------------------------------------------------------- store

  class Store {
    var workspaces: seq<Workspace>
    var features: seq<Feature>
    var tasks: seq<Task>
    var labels: map<MirrorKey, Label>
    var milestones: map<MirrorKey, Milestone>
    var pulls: map<MirrorKey, PullRequest>
    var commits: map<string, Commit>
    var reviews: map<ReviewKey, Review>
    var comments: map<CommentKey, Comment>

    /** An empty store. */
    constructor ()
      ensures Contents() == Records([], [], [], map[], map[], map[], map[], map[], map[])
    {
      workspaces, features, tasks := [], [], [];
      labels, milestones, pulls := map[], map[], map[];
      commits, reviews, comments := map[], map[], map[];
    }

    function Contents(): Records
      reads this
    {
      Records(workspaces, features, tasks, labels, milestones, pulls, commits, reviews, comments)
    }

    /**
     * `sync_tasks_from_checkboxes`: the tables are built once, then each
     * position updates its matched task in place or appends a new one.
     */
    method SyncTasks(f: FeatureId, boxes: seq<Checkbox>) returns (created: nat, updated: nat)
      modifies this
      ensures Contents() == old(Contents()).(tasks := Sync(old(tasks), f, boxes).tasks)
      ensures created == Sync(old(tasks), f, boxes).created
      ensures updated == Sync(old(tasks), f, boxes).updated
    {
      var tb := BuildTables(tasks, f);
      ghost var ts0 := tasks;
      created, updated := 0, 0;
      var i := 0;
      while i < |boxes|
        invariant 0 <= i <= |boxes|
        invariant Run(ts0, f, boxes, i) == Outcome(tasks, created, updated)
        invariant Contents() == old(Contents()).(tasks := tasks)
      {
        var b := boxes[i];
        match Lookup(tb, i, b.title) {
          case Some(p) =>
            var t := tasks[p];
            var changed := false;
            if t.checkboxIndex != Some(i) {
              t := t.(checkboxIndex := Some(i));
              changed := true;
            }
            if b.checked && t.status != Done {
              t := t.(status := Done);
              changed := true;
            } else if !b.checked && t.status == Done {
              t := t.(status := Todo);
              changed := true;
            }
            if changed {
              tasks := tasks[p := t];
              updated := updated + 1;
            }
          case None =>
            tasks := tasks + [Task(f, b.title, if b.checked then Done else Todo, Medium, Some(i), "")];
            created := created + 1;
        }
        i := i + 1;
      }
    }

    /**
     * `create_github_issue`: nothing is sent without a token; otherwise the
     * feature's name and issue body are sent, and only a 201 answer turns
     * the feature into an open issue and numbers its tasks.
     */
    method CreateGithubIssue(w: WsId, f: FeatureId, reply: IssueReply) returns (sent: Option<IssueRequest>, data: Option<IssueReply>)
      requires w < |workspaces| && f < |features|
      modifies this
      ensures old(workspaces[w].token) == "" ==> sent == None
      ensures old(workspaces[w].token) != "" ==>
                sent == Some(IssueRequest(old(features[f].name), IssueBody(old(features[f].description), old(tasks), f)))
      ensures data.Some? <==> old(workspaces[w].token) != "" && reply.status == 201
      ensures data.Some? ==> data == Some(reply)
      ensures data.Some? ==>
                Contents() == old(Contents()).(features := old(features)[f := AsIssue(old(features[f]), reply)],
                                               tasks := IndexTasks(old(tasks), f))
      ensures data.None? ==> Contents() == old(Contents())
    {
      if workspaces[w].token == "" {
        return None, None;
      }
      sent := Some(IssueRequest(features[f].name, IssueBody(features[f].description, tasks, f)));
      if reply.status != 201 {
        return sent, None;
      }
      features := features[f := AsIssue(features[f], reply)];
      NumberTasks(f);
      data := Some(reply);
    }

    /** The loop of `create_github_issue` that gives the feature's tasks indices 0, 1, ... in creation order. */
    method NumberTasks(f: FeatureId)
      modifies this
      ensures Contents() == old(Contents()).(tasks := IndexTasks(old(tasks), f))
    {
      var order := FeatureTasks(tasks, f);
      var ts := tasks;
      var i := 0;
      while i < |order|
        invariant 0 <= i <= |order| && InRange(tasks, order)
        invariant ts == Renumbered(tasks, order, i)
      {
        var p := order[i];
        ts := ts[p := ts[p].(checkboxIndex := Some(i))];
        i := i + 1;
      }
      tasks := ts;
    }

    /** `unregister_webhook` with GitHub's answer `status`. */
    method UnregisterWebhook(w: WsId, token: string, status: int)
      requires w < |workspaces|
      modifies this
      ensures Contents() == old(Contents()).(workspaces := old(workspaces)[w := Unregistered(old(workspaces[w]), token, status)])
    {
      if workspaces[w].webhookId == "" {
        return;
      }
      var githubToken := Or(token, workspaces[w].token);
      if githubToken == "" {
        return;
      }
      if status == 204 || status == 404 {
        workspaces := workspaces[w := workspaces[w].(webhookId := "")];
      }
    }

    /** `register_webhook` with GitHub's answers to the removal and to the creation. */
    method RegisterWebhook(w: WsId, token: string, unregisterStatus: int, status: int, hookId: string)
      returns (r: Option<string>)
      requires w < |workspaces|
      modifies this
      ensures var (ws, id) := Registered(old(workspaces[w]), token, unregisterStatus, status, hookId);
              r == id && Contents() == old(Contents()).(workspaces := old(workspaces)[w := ws])
    {
      var githubToken := Or(token, workspaces[w].token);
      if githubToken == "" {
        return None;
      }
      if workspaces[w].webhookId != "" {
        UnregisterWebhook(w, githubToken, unregisterStatus);
      }
      if status == 201 {
        workspaces := workspaces[w := workspaces[w].(webhookId := hookId)];
        return Some(hookId);
      }
      return None;
    }
  }
}

=== FILE: text.dfy ===
/**
 * The few pieces of Python string behaviour the sync logic relies on:
 * `str.strip()`, `str.splitlines()`, `'\n'.join(...)`, `str.startswith`,
 * `str.split('\n', 1)`, `str.rsplit(p, 1)` and `str.replace(p, '')`.
 */
module Text {

  /** Python's `str.isspace()`: the characters `str.strip()` removes. */
  predicate IsSpace(c: char) {
    c == ' ' || ('\t' <= c <= '\r') || ('\U{1C}' <= c <= '\U{1F}')
    || c == '\U{85}' || c == '\U{A0}' || c == '\U{1680}'
    || ('\U{2000}' <= c <= '\U{200A}') || c == '\U{2028}' || c == '\U{2029}'
    || c == '\U{202F}' || c == '\U{205F}' || c == '\U{3000}'
  }

  /** The characters at which Python's `str.splitlines()` ends a line. */
  predicate IsLineBreak(c: char) {
    ('\n' <= c <= '\r') || ('\U{1C}' <= c <= '\U{1E}')
    || c == '\U{85}' || c == '\U{2028}' || c == '\U{2029}'
  }

  predicate NoLineBreak(s: string) {
    forall k :: 0 <= k < |s| ==> !IsLineBreak(s[k])
  }

  /** Python's `s.lstrip()`. */
  function StripLeft(s: string): string {
    if s != [] && IsSpace(s[0]) then StripLeft(s[1..]) else s
  }

  /** Python's `s.rstrip()`. */
  function StripRight(s: string): string {
    if s != [] && IsSpace(s[|s| - 1]) then StripRight(s[..|s| - 1]) else s
  }

  /** Python's `s.strip()`. */
  function Strip(s: string): string {
    StripRight(StripLeft(s))
  }

  /** `lstrip` removes a prefix of spaces, and stops at a non-space. */
  lemma {:induction false} StripLeftSpec(s: string)
    ensures |StripLeft(s)| <= |s| && StripLeft(s) == s[|s| - |StripLeft(s)|..]
    ensures StripLeft(s) == [] || !IsSpace(StripLeft(s)[0])
    ensures forall k :: 0 <= k < |s| - |StripLeft(s)| ==> IsSpace(s[k])
  {
    if s != [] && IsSpace(s[0]) {
      var t := s[1..];
      StripLeftSpec(t);
      assert StripLeft(s) == StripLeft(t);
      forall k | 1 <= k < |s| - |StripLeft(s)|
        ensures IsSpace(s[k])
      {
        assert s[k] == t[k - 1];
      }
    }
  }

  /** `rstrip` removes a suffix of spaces, and stops at a non-space. */
  lemma {:induction false} StripRightSpec(s: string)
    ensures |StripRight(s)| <= |s| && StripRight(s) == s[..|StripRight(s)|]
    ensures StripRight(s) == [] || !IsSpace(StripRight(s)[|StripRight(s)| - 1])
    ensures forall k :: |StripRight(s)| <= k < |s| ==> IsSpace(s[k])
  {
    if s != [] && IsSpace(s[|s| - 1]) {
      var t := s[..|s| - 1];
      StripRightSpec(t);
      assert StripRight(s) == StripRight(t);
      forall k | |StripRight(s)| <= k < |t|
        ensures IsSpace(s[k])
      {
        assert s[k] == t[k];
      }
    }
  }

  /**
   * `strip` gives the infix of `s` that starts and ends with a non-space; it
   * is empty exactly when `s` is all spaces.
   */
  lemma {:induction false} StripSpec(s: string)
    ensures exists i :: OccursAt(s, Strip(s), i)
    ensures Strip(s) == [] || (!IsSpace(Strip(s)[0]) && !IsSpace(Strip(s)[|Strip(s)| - 1]))
    ensures Strip(s) == [] <==> forall k :: 0 <= k < |s| ==> IsSpace(s[k])
  {
    var l := StripLeft(s);
    var r := Strip(s);
    StripLeftSpec(s);
    StripRightSpec(l);
    var i := |s| - |l|;
    assert r == s[i..][..|r|] && s[i..][..|r|] == s[i..i + |r|];
    assert OccursAt(s, r, i);
    if r == [] {
      assert l == [];
    }
  }

  /** A string with no space at either end is its own `strip()`. */
  lemma {:induction false} StripTrimmed(s: string)
    requires s == [] || (!IsSpace(s[0]) && !IsSpace(s[|s| - 1]))
    ensures Strip(s) == s
  {
    if s != [] {
      assert StripLeft(s) == s;
    }
  }

  /** A space at either end does not survive `strip()`. */
  lemma {:induction false} StripLeadingSpace(c: char, y: string)
    requires IsSpace(c)
    ensures Strip([c] + y) == Strip(y)
  {
    assert ([c] + y)[1..] == y;
  }

  lemma {:induction false} StripLeftOfAppend(y: string, c: char, k: nat)
    requires k < |y| && !IsSpace(y[k])
    ensures StripLeft(y + [c]) == StripLeft(y) + [c]
    decreases k
  {
    assert (y + [c])[1..] == y[1..] + [c];
    if IsSpace(y[0]) {
      StripLeftOfAppend(y[1..], c, k - 1);
    }
  }

  lemma {:induction false} StripTrailingSpace(y: string, c: char)
    requires IsSpace(c)
    ensures Strip(y + [c]) == Strip(y)
  {
    if exists k :: 0 <= k < |y| && !IsSpace(y[k]) {
      var k :| 0 <= k < |y| && !IsSpace(y[k]);
      StripLeftOfAppend(y, c, k);
      var l := StripLeft(y);
      assert (l + [c])[..|l|] == l;
    } else {
      StripSpec(y);
      StripSpec(y + [c]);
      assert forall k :: 0 <= k < |y + [c]| ==> IsSpace((y + [c])[k]);
    }
  }

  /** `p` occurs in `s` starting at index `i`. */
  predicate OccursAt(s: string, p: string, i: int) {
    0 <= i <= |s| - |p| && s[i..i + |p|] == p
  }

  predicate StartsWith(s: string, p: string) {
    |p| <= |s| && s[..|p|] == p
  }

  /** Length of the first line of `s`: the index of its first line break, or `|s|`. */
  function LineEnd(s: string): (k: nat)
    ensures k <= |s|
  {
    if s == [] || IsLineBreak(s[0]) then 0 else 1 + LineEnd(s[1..])
  }

  /** The first line holds no break, and a break ends it unless the text ends first. */
  lemma {:induction false} LineEndSpec(s: string)
    ensures NoLineBreak(s[..LineEnd(s)])
    ensures LineEnd(s) < |s| ==> IsLineBreak(s[LineEnd(s)])
  {
    if s != [] && !IsLineBreak(s[0]) {
      LineEndSpec(s[1..]);
      assert s[..LineEnd(s)] == [s[0]] + s[1..][..LineEnd(s[1..])];
    }
  }

  /** Length of the line break at index `k`: "\r\n" is one break of two characters. */
  function BreakLen(s: string, k: nat): (n: nat)
    requires k < |s|
    ensures (n == 1 || n == 2) && k + n <= |s|
  {
    if s[k] == '\r' && k + 1 < |s| && s[k + 1] == '\n' then 2 else 1
  }

  /**
   * Python's `s.splitlines()`: a break ends a line, "\r\n" counts as one
   * break, and a break at the very end does not open an empty last line.
   */
  function SplitLines(s: string): seq<string>
    decreases |s|
  {
    if s == [] then []
    else
      var k := LineEnd(s);
      if k == |s| then [s] else [s[..k]] + SplitLines(s[k + BreakLen(s, k)..])
  }

  /** A text with a line break splits into its first line and the lines after that break. */
  lemma {:induction false} SplitLinesFirst(s: string)
    requires LineEnd(s) < |s|
    ensures SplitLines(s) == [s[..LineEnd(s)]] + SplitLines(s[LineEnd(s) + BreakLen(s, LineEnd(s))..])
  {
    assert s != [];
  }

  /** No line `splitlines` yields holds a line break. */
  lemma {:induction false} SplitLinesNoBreak(s: string)
    ensures forall i :: 0 <= i < |SplitLines(s)| ==> NoLineBreak(SplitLines(s)[i])
    decreases |s|
  {
    if s != [] {
      var k := LineEnd(s);
      LineEndSpec(s);
      if k < |s| {
        SplitLinesNoBreak(s[k + BreakLen(s, k)..]);
        assert SplitLines(s)[1..] == SplitLines(s[k + BreakLen(s, k)..]);
      }
    }
  }

  /** Python's `'\n'.join(lines)`. */
  function JoinLines(lines: seq<string>): string {
    if |lines| == 0 then ""
    else if |lines| == 1 then lines[0]
    else lines[0] + "\n" + JoinLines(lines[1..])
  }

  lemma {:induction false} LineEndOfPlainPrefix(a: string, b: string)
    requires NoLineBreak(a)
    ensures LineEnd(a + b) == |a| + LineEnd(b)
  {
    if a != [] {
      assert (a + b)[1..] == a[1..] + b;
      LineEndOfPlainPrefix(a[1..], b);
    } else {
      assert a + b == b;
    }
  }

  /** Text appended after the first line break leaves that line and its break alone,
      unless the break is a final "\r" that the appended text could complete. */
  lemma {:induction false} FirstLineOfExtension(a: string, b: string)
    requires LineEnd(a) < |a|
    requires !(a[LineEnd(a)] == '\r' && LineEnd(a) + 1 == |a|)
    ensures LineEnd(a + b) == LineEnd(a)
    ensures BreakLen(a + b, LineEnd(a)) == BreakLen(a, LineEnd(a))
    ensures (a + b)[..LineEnd(a)] == a[..LineEnd(a)]
    ensures (a + b)[LineEnd(a) + BreakLen(a, LineEnd(a))..] == a[LineEnd(a) + BreakLen(a, LineEnd(a))..] + b
  {
    LineEndOfExtension(a, b);
  }

  lemma {:induction false} LineEndOfExtension(a: string, b: string)
    requires LineEnd(a) < |a|
    ensures LineEnd(a + b) == LineEnd(a)
  {
    if !IsLineBreak(a[0]) {
      assert (a + b)[1..] == a[1..] + b;
      LineEndOfExtension(a[1..], b);
    }
  }

  /** Splitting undoes joining, for lines that are non-empty and hold no break. */
  lemma {:induction false} SplitLinesOfJoin(lines: seq<string>)
    requires forall i :: 0 <= i < |lines| ==> lines[i] != [] && NoLineBreak(lines[i])
    ensures SplitLines(JoinLines(lines)) == lines
  {
    if |lines| == 1 {
      LineEndOfPlainPrefix(lines[0], "");
      assert lines[0] + "" == lines[0];
    } else if |lines| > 1 {
      var a, rest := lines[0], JoinLines(lines[1..]);
      var s := a + "\n" + rest;
      LineEndOfPlainPrefix(a, "\n" + rest);
      assert s == a + ("\n" + rest);
      assert LineEnd("\n" + rest) == 0;
      assert LineEnd(s) == |a|;
      assert s[..|a|] == a && s[|a| + 1..] == rest;
      SplitLinesOfJoin(lines[1..]);
    }
  }

  /** Python's `s.replace(p, '')` for a non-empty `p`: occurrences are removed left to right. */
  function RemoveAll(s: string, p: string): (r: string)
    requires p != []
    ensures |r| <= |s|
    decreases |s|
  {
    if |s| < |p| then s
    else if s[..|p|] == p then RemoveAll(s[|p|..], p)
    else [s[0]] + RemoveAll(s[1..], p)
  }

  /** Index of the first occurrence of `c` in `s`, if any (`str.find` for one character). */
  function FindChar(s: string, c: char): (r: int)
    ensures -1 <= r < |s|
    ensures r == -1 <==> c !in s
    ensures r >= 0 ==> s[r] == c && c !in s[..r]
  {
    if s == [] then -1
    else if s[0] == c then 0
    else
      var k := FindChar(s[1..], c);
      assert s[1..][..k + 1] == s[1..k + 2];
      if k == -1 then -1 else k + 1
  }

  /** Start of the last occurrence of `p` in `s`, if any (`str.rfind`). */
  function FindLast(s: string, p: string): (r: int)
    ensures r == -1 || 0 <= r <= |s| - |p|
    ensures r >= 0 ==> OccursAt(s, p, r)
    ensures forall j :: r < j ==> !OccursAt(s, p, j)
    decreases |s|
  {
    if |s| < |p| then -1
    else if s[|s| - |p|..] == p then |s| - |p|
    else
      var t := s[..|s| - 1];
      var r := FindLast(t, p);
      assert forall j :: 0 <= j <= |t| - |p| ==> (OccursAt(t, p, j) <==> OccursAt(s, p, j));
      assert !OccursAt(s, p, |s| - |p|);
      r
  }
}

=== FILE: types.dfy ===
/**
 * Entities of the local project store (Workspace, Feature, Task) and of the
 * GitHub mirror (Label, Milestone, PullRequest, Commit, Review, Comment),
 * with the value sets their fields take.
 */
module Types {

  datatype Option<+T> = None | Some(value: T) {
    function GetOr(default: T): T {
      match this
      case Some(v) => v
      case None => default
    }
  }

  /** A JSON value, as far as the handlers and the inference step look into one. */
  datatype Json = JNull | JBool(b: bool) | JInt(i: int) | JStr(s: string) | JList(items: seq<Json>) | JObject

  /** Identities. Workspaces, Features and Tasks are rows that the sync logic never
      deletes, so each is identified by its position in its table, which is also
      its creation order. */
  type WsId = nat
  type FeatureId = nat
  type UserId = nat

  /** A timestamp GitHub sent, already parsed; the date-time parsing itself is not modelled. */
  type Timestamp = int

  /** Cosmetic payload fields (URLs, avatars, diff hunks, file lists, dates) kept as one opaque value. */
  type Extra = seq<string>

  /** Task.Status: 'todo', 'in_progress', 'done'. */
  datatype Status = Todo | InProgress | Done

  /** Task.Priority: 'low', 'medium', 'high'; new tasks get 'medium'. */
  datatype Priority = Low | Medium | High

  /** Feature.type: 'issue', 'pull_request', 'local'. */
  datatype FeatureType = IssueFeature | PullRequestFeature | LocalFeature

  /** Feature.state: 'open', 'closed'. */
  datatype FeatureState = Open | Closed

  /** PRReview.state. */
  datatype ReviewState = Pending | Approved | ChangesRequested | Commented | Dismissed

  /** PRComment.comment_type: 'issue' and 'review' comments share one id space per pull request. */
  datatype CommentType = IssueComment | ReviewComment

  /** The string stored for a review state. */
  function ReviewStateValue(s: ReviewState): string {
    match s
    case Pending => "pending"
    case Approved => "approved"
    case ChangesRequested => "changes_requested"
    case Commented => "commented"
    case Dismissed => "dismissed"
  }

  datatype Workspace = Workspace(
    name: string,
    owner: string,         // github_repo_owner
    repo: string,          // github_repo_name
    token: string,         // github_token, '' when unset
    webhookId: string,     // webhook_id, '' when unset
    createdBy: UserId,
    members: seq<UserId>)

  datatype Feature = Feature(
    workspace: WsId,
    name: string,
    description: string,
    kind: FeatureType,
    githubNumber: Option<int>,
    githubId: Option<int>,
    htmlUrl: string,
    state: FeatureState)

  datatype Task = Task(
    feature: FeatureId,
    title: string,
    status: Status,
    priority: Priority,
    checkboxIndex: Option<int>,
    completedByCommit: string)

  /** The (workspace, github_id) key of labels, milestones and pull requests. */
  type MirrorKey = (WsId, int)
  /** A review is keyed by (pull request, github_id). */
  type ReviewKey = (MirrorKey, int)
  /** A comment is keyed by (pull request, github_id, comment_type). */
  type CommentKey = (MirrorKey, int, CommentType)

  datatype Label = Label(name: string, color: string, description: Option<string>)

  datatype Milestone = Milestone(
    number: int,
    title: string,
    description: Option<string>,
    state: string,
    dueOn: Option<Timestamp>,
    htmlUrl: string)

  datatype PullRequest = PullRequest(
    number: int,
    title: string,
    body: string,
    state: string,           // 'open', 'closed' or 'merged'
    headSha: string,
    labelIds: seq<int>,
    milestone: Option<int>,  // github_id of a milestone of the same workspace
    extra: Extra)

  datatype Commit = Commit(workspace: WsId, message: string, branch: string, extra: Extra)

  datatype Review = Review(state: ReviewState, body: string, extra: Extra)

  /** `review` is the github_id of a review of the same pull request. */
  datatype Comment = Comment(review: Option<int>, body: string, extra: Extra)

  /** An HTTP reply: its status code and its JSON object body. */
  datatype Response = Response(status: int, body: map<string, Json>)

  /** What an uncaught exception in a view becomes: a 500 reply, with no JSON body. */
  const ServerError := Response(500, map[])

  /** A 200 reply. */
  function Ok(body: map<string, Json>): Response {
    Response(200, body)
  }
}

=== FILE: webhook.dfy ===
/**
 * `github_webhook`: check the signature, find the repository's workspace,
 * route the event to its handler, and wrap the handler's reply.
 */
module Webhook {
  import opened Types
  import opened Inference
  import opened EntityStore
  import opened Hooks
  import opened Push
  import opened Mirror
  import opened Pulls
  import opened Issues

  /** `create` and `delete` events: the kind of ref and its name. */
  datatype RefPayload = RefPayload(refType: string, ref: string)

  /** The parsed JSON body, in the shape its event gives it; `Unhandled` for an event without a handler. */
  datatype Payload =
    | PushBody(push: PushPayload)
    | PullRequestBody(pull: PullPayload)
    | ReviewBody(review: ReviewPayload)
    | ReviewCommentBody(reviewComment: ReviewCommentPayload)
    | IssueCommentBody(issueComment: IssueCommentPayload)
    | IssuesBody(issues: IssuesPayload)
    | CreateBody(created: RefPayload)
    | DeleteBody(deleted: RefPayload)
    | LabelBody(labelEvent: LabelPayload)
    | MilestoneBody(milestoneEvent: MilestonePayload)
    | Unhandled

  /**
   * A delivery: the `X-GitHub-Event` and `X-Hub-Signature-256` headers, the
   * raw body the signature covers, the repository it names, and its payload.
   */
  datatype Delivery = Delivery(event: string, signature: string, rawBody: string, owner: string, repo: string, payload: Payload)

  /** The keys of the handler table. */
  predicate Routed(event: string) {
    event in {"push", "pull_request", "pull_request_review", "pull_request_review_comment",
              "issue_comment", "issues", "create", "delete", "label", "milestone"}
  }

  /** The event a payload shape belongs to. */
  function EventName(payload: Payload): (r: string)
    requires !payload.Unhandled?
    ensures Routed(r)
  {
    match payload
    case PushBody(_) => "push"
    case PullRequestBody(_) => "pull_request"
    case ReviewBody(_) => "pull_request_review"
    case ReviewCommentBody(_) => "pull_request_review_comment"
    case IssueCommentBody(_) => "issue_comment"
    case IssuesBody(_) => "issues"
    case CreateBody(_) => "create"
    case DeleteBody(_) => "delete"
    case LabelBody(_) => "label"
    case MilestoneBody(_) => "milestone"
  }

  /** The payload has the shape of its event. */
  predicate Fits(d: Delivery) {
    if d.payload.Unhandled? then !Routed(d.event) else d.event == EventName(d.payload)
  }

  /** The events the repository webhook is registered for are exactly those with a handler. */
  lemma RegisteredEventsRouted()
    ensures forall ev :: ev in HookEvents <==> Routed(ev)
  {
  }

  /** `handle_create` and `handle_delete`. */
  function RefReply(p: RefPayload): map<string, Json> {
    map["ref_type" := JStr(p.refType), "ref" := JStr(p.ref)]
  }

  /** The handler the payload is routed to; None where it fails with an uncaught error. */
  function Handle(db: Records, w: WsId, payload: Payload, e: Engine): (r: (Records, Option<map<string, Json>>))
    requires !payload.Unhandled?
    ensures r.0.workspaces == db.workspaces
    ensures payload.CreateBody? || payload.DeleteBody? ==> r.0 == db
  {
    match payload
    case PushBody(p) => var (db1, reply) := PushOutcome(db, w, p, e); (db1, Some(reply))
    case PullRequestBody(p) => PullOutcome(db, w, p, e)
    case ReviewBody(p) => var (db1, reply) := ReviewOutcome(db, w, p); (db1, Some(reply))
    case ReviewCommentBody(p) => var (db1, reply) := ReviewCommentOutcome(db, w, p); (db1, Some(reply))
    case IssueCommentBody(p) => IssueCommentOutcome(db, w, p)
    case IssuesBody(p) => IssuesOutcome(db, w, p)
    case CreateBody(p) => (db, Some(RefReply(p)))
    case DeleteBody(p) => (db, Some(RefReply(p)))
    case LabelBody(p) => var (db1, reply) := LabelOutcome(db, w, p); (db1, Some(reply))
    case MilestoneBody(p) => var (db1, reply) := MilestoneOutcome(db, w, p); (db1, Some(reply))
  }

  const InvalidSignature := Response(403, map["error" := JStr("Invalid signature")])

  /** `{'status': 'processed', **result}`: the handler's own keys win. */
  function Processed(result: map<string, Json>): (r: map<string, Json>)
    ensures r.Keys == result.Keys + {"status"}
    ensures forall k :: k in result ==> r[k] == result[k]
    ensures "status" !in result ==> r["status"] == JStr("processed")
  {
    map["status" := JStr("processed")] + result
  }

  /**
   * `github_webhook` for the store `db`, the configured secret, the MAC
   * and the inference engine: the new store and the reply.
   */
  function WebhookOutcome(db: Records, secret: string, mac: Mac, e: Engine, d: Delivery): (r: (Records, Response))
    requires Fits(d)
    ensures r.1.status == 200 || r.1.status == 403 || r.1.status == 500
    ensures r.1.status == 403 <==> !VerifyGithubSignature(d.signature, secret, d.rawBody, mac)
    ensures r.0.workspaces == db.workspaces
    ensures var found := GetWorkspace(db.workspaces, d.owner, d.repo);
      r.1.status == 500 <==>
        VerifyGithubSignature(d.signature, secret, d.rawBody, mac)
        && (found.Ambiguous? || (found.Found? && !d.payload.Unhandled? && Handle(db, found.at, d.payload, e).1.None?))
  {
    if !VerifyGithubSignature(d.signature, secret, d.rawBody, mac) then (db, InvalidSignature)
    else
      match GetWorkspace(db.workspaces, d.owner, d.repo)
      case Missing => (db, Ok(map["status" := JStr("no matching workspace")]))
      case Ambiguous => (db, ServerError)
      case Found(w) =>
        if d.payload.Unhandled? then (db, Ok(map["status" := JStr("ignored")]))
        else
          var (db1, result) := Handle(db, w, d.payload, e);
          (db1, if result.Some? then Ok(Processed(result.value)) else ServerError)
  }

  /**
   * A signed delivery for the repository of workspace `w`, of an event with
   * a handler, gets what that handler writes, and its reply marked
   * "processed"; a handler that fails gives 500.
   */
  lemma WebhookRouted(db: Records, secret: string, mac: Mac, e: Engine, d: Delivery, w: WsId)
    requires Fits(d) && VerifyGithubSignature(d.signature, secret, d.rawBody, mac)
    requires GetWorkspace(db.workspaces, d.owner, d.repo) == Found(w) && !d.payload.Unhandled?
    ensures var (db1, result) := Handle(db, w, d.payload, e);
      WebhookOutcome(db, secret, mac, e, d) == (db1, if result.Some? then Ok(Processed(result.value)) else ServerError)
    ensures var (db1, result) := Handle(db, w, d.payload, e);
      result.Some? ==> WebhookOutcome(db, secret, mac, e, d).1.status == 200
                       && WebhookOutcome(db, secret, mac, e, d).1.body.Keys == result.value.Keys + {"status"}
  {
  }

  /** A delivery without a valid signature is refused and changes nothing. */
  lemma UnsignedRefused(db: Records, secret: string, mac: Mac, e: Engine, d: Delivery)
    requires Fits(d)
    requires d.signature == "" || secret == "" || d.signature != "sha256=" + mac(secret, d.rawBody)
    ensures WebhookOutcome(db, secret, mac, e, d) == (db, InvalidSignature)
  {
  }

  /**
   * A signed delivery for a repository no workspace tracks is answered 200
   * "no matching workspace", one for an event without a handler on a tracked
   * repository 200 "ignored"; neither changes anything.
   */
  lemma NothingToDo(db: Records, secret: string, mac: Mac, e: Engine, d: Delivery)
    requires Fits(d) && VerifyGithubSignature(d.signature, secret, d.rawBody, mac)
    requires GetWorkspace(db.workspaces, d.owner, d.repo).Missing?
          || (GetWorkspace(db.workspaces, d.owner, d.repo).Found? && d.payload.Unhandled?)
    ensures WebhookOutcome(db, secret, mac, e, d).0 == db
    ensures WebhookOutcome(db, secret, mac, e, d).1.status == 200
    ensures GetWorkspace(db.workspaces, d.owner, d.repo).Missing? ==>
      WebhookOutcome(db, secret, mac, e, d).1 == Ok(map["status" := JStr("no matching workspace")])
    ensures GetWorkspace(db.workspaces, d.owner, d.repo).Found? ==>
      WebhookOutcome(db, secret, mac, e, d).1 == Ok(map["status" := JStr("ignored")])
  {
  }

  /**
   * A review for a pull request the store does not hold is answered 200
   * with the handler's "pr_not_found", not "processed", and changes nothing.
   */
  lemma ReviewOfUnknownPull(db: Records, secret: string, mac: Mac, e: Engine, d: Delivery, w: WsId)
    requires Fits(d) && VerifyGithubSignature(d.signature, secret, d.rawBody, mac)
    requires GetWorkspace(db.workspaces, d.owner, d.repo) == Found(w)
    requires d.payload.ReviewBody? && (w, d.payload.review.pullId) !in db.pulls
    ensures WebhookOutcome(db, secret, mac, e, d) == (db, Ok(map["status" := JStr("pr_not_found")]))
  {
    assert Processed(PrNotFound()) == PrNotFound();
  }

  /** Several workspaces on one repository make every signed delivery for it fail, before any write. */
  lemma SharedRepositoryFails(db: Records, secret: string, mac: Mac, e: Engine, d: Delivery, i: nat, j: nat)
    requires Fits(d) && VerifyGithubSignature(d.signature, secret, d.rawBody, mac)
    requires i < j < |db.workspaces| && IsRepo(db.workspaces[i], d.owner, d.repo) && IsRepo(db.workspaces[j], d.owner, d.repo)
    ensures WebhookOutcome(db, secret, mac, e, d) == (db, ServerError)
  {
  }

  /** `github_webhook` on the store. */
  method GithubWebhook(s: Store, secret: string, mac: Mac, e: Engine, d: Delivery) returns (r: Response)
    requires Fits(d)
    modifies s
    ensures (s.Contents(), r) == WebhookOutcome(old(s.Contents()), secret, mac, e, d)
  {
    if !VerifyGithubSignature(d.signature, secret, d.rawBody, mac) {
      return InvalidSignature;
    }
    var w: WsId;
    match GetWorkspace(s.workspaces, d.owner, d.repo) {
      case Missing =>
        return Ok(map["status" := JStr("no matching workspace")]);
      case Ambiguous =>
        return ServerError;
      case Found(at) =>
        w := at;
    }
    if d.payload.Unhandled? {
      return Ok(map["status" := JStr("ignored")]);
    }
    var result := Dispatch(s, w, d.payload, e);
    r := if result.Some? then Ok(Processed(result.value)) else ServerError;
  }

  /** `handler(payload, workspace)` on the store. */
  method Dispatch(s: Store, w: WsId, payload: Payload, e: Engine) returns (result: Option<map<string, Json>>)
    requires !payload.Unhandled?
    modifies s
    ensures (s.Contents(), result) == Handle(old(s.Contents()), w, payload, e)
  {
    match payload {
      case PushBody(p) =>
        var reply := HandlePush(s, w, p, e);
        result := Some(reply);
      case PullRequestBody(p) =>
        result := HandlePullRequest(s, w, p, e);
      case ReviewBody(p) =>
        var reply := HandleReview(s, w, p);
        result := Some(reply);
      case ReviewCommentBody(p) =>
        var reply := HandleReviewComment(s, w, p);
        result := Some(reply);
      case IssueCommentBody(p) =>
        result := HandleIssueComment(s, w, p);
      case IssuesBody(p) =>
        result := HandleIssues(s, w, p);
      case CreateBody(p) =>
        result := Some(RefReply(p));
      case DeleteBody(p) =>
        result := Some(RefReply(p));
      case LabelBody(p) =>
        var reply := HandleLabel(s, w, p);
        result := Some(reply);
      case MilestoneBody(p) =>
        var reply := HandleMilestone(s, w, p);
        result := Some(reply);
    }
  }
}
